=== FILE: README.md ===
# matecontrol core, modelled in Dafny

A model of the core of matecontrol, the AVR firmware of a drinks vending
machine controller. It covers these parts:

- the fixed-chunk pool allocator (`memory.c`);
- the ring-buffer event queue (`dispatch.c`) and the truth table of its test
  program (`test/testrb.c`);
- the fixed-point currency type: its add and subtract in `bank.c` and in
  the currency test program (`test/testcurrency.c`), and the balance ledger
  of `bank.c`;
- the banknote-scanner poll state machine (`bill.c`);
- the text routines of the diagnostic console (`console.c`): whitespace
  scan, tokenizer, decimal parser, command lookup, completion and the
  command table;
- the LED driver (`led.c`): init, one-shot actions, blinking and the
  timer callback.

One Dafny module models each part:

| module | file | models |
|---|---|---|
| `Util` | `util.dfy` | NULL as `Option`, and the `int16_t`/`uint8_t` wrap-around conversions |
| `Memory` | `memory.dfy` | the pool allocator |
| `Dispatch` | `dispatch.dfy` | the event queue |
| `RingTest` | `ringtest.dfy` | the queue's test table |
| `Currency` | `currency.dfy` | what a `currency_t` denotes, and the saturating add/subtract that `bank.h` promises |
| `CurrencyFourCase` | `currency_fourcase.dfy` | the test program's add/subtract as written |
| `Bank` | `bank.dfy` | `bank.c`'s add/subtract as written, and the ledger |
| `Bill` | `bill.dfy` | the banknote scanner |
| `Console` | `console.dfy` | the console text routines |
| `Led` | `led.dfy` | the LED driver |

Modelling conventions:

- **Global records.** Each driver's global record is an immutable value. It
  is passed in and returned.
- **Effects.** What an operation does to the outside world is returned as a
  sequence of effects, in the order the code performs them. This covers
  port writes, callback calls, scheduling and handing a chunk back to the
  allocator.
- **External answers are parameters.** This covers the chunk an allocation
  returns, whether a schedule call succeeds, the scanner's pin byte and
  whether an event pool could be set up.
- **Buffers.** A C buffer is a `seq<char>`, and reading past its end gives
  NUL. A missing terminator therefore reads like a terminated string, and
  an embedded NUL exposes the bytes behind it, as in C.
- **Fixed-width integers.** Where the code wraps, the model wraps
  explicitly (`Wrap16`, `Wrap8`, `Unsigned16`).
- **What a `currency_t` means.** `ToCents` reads the pair (base, cents) as
  `base + cents/100` for a non-negative base and as `base - cents/100` for
  a negative one. That is how the test vectors read -10.99 + 1.20 = -9.79.
  The range is [-32768.99, 32767.99], and amounts strictly between -1.00
  and 0.00 have no representation. The saturating `Currency.Add` and
  `Currency.Sub` give the exact result whenever it is representable and
  saturate at either end. An unrepresentable result in (-1.00, 0.00) is
  truncated toward zero to 0.00. The source never says what should happen
  there, so this is a choice of the model.
- **Corrected behaviour.** Where the code does not do what its header or
  comments promise, the model keeps two versions:
  - an *as-written* member, with a lemma that exhibits the difference;
  - a *corrected* member, proved to have the promised property.

  The ledger, the LED callback and the rest of the model use the corrected
  versions. The Findings table at the end pairs them.

## Model

| member | source | states |
|---|---|---|
| `Memory.Init` | src/memory.c:24-43 | A manager is returned exactly when the buffer is non-NULL and one whole block (chunk plus link word) fits after the header. The manager threads floor((size - header) / block) blocks in address order, and every block is free. |
| `Memory.PoolSizeFits` | src/memory.h:40-47 | A buffer of `MEMORY_POOL_SIZE(chunks, size)` bytes, with at least one chunk, is accepted by `memory_init`. It then holds exactly `chunks` blocks. |
| `Memory.InitChain` | src/memory.c:32-38 | Blocks linked each to the next, the last to NULL, form a valid free list holding every block. |
| `Memory.Allocate` | src/memory.c:45-55 | NULL comes back exactly for a NULL manager or an empty free list, and nothing changes then. Otherwise the caller gets the pointer one word past the head block. That block is unlinked and marked with the manager's back-pointer, and no other block changes. |
| `Memory.AllocateHandsOutLive` | src/memory.c:48-51 | A pointer that allocation hands out may be passed to release: its header names the manager. |
| `Memory.Release` | src/memory.c:57-66 | NULL is refused with false. A live pointer's block goes on the front of the free list, linked to the old head, and true is returned. No other block changes. |
| `Memory.FreeOrLive` | src/memory.c:45-66 | Under the pool invariant, a block is on the free list exactly when its header is not the back-pointer to the manager. |
| `Memory.FreeListUnique` | src/memory.c:47-49 | Two chains of links from the same start are the same list: the free list is determined by the pool. |
| `Memory.AllocatePops` | src/memory.c:47-51 | Allocation returns the first block of the free list, and the rest of the list stays a valid free list. |
| `Memory.PushKeepsInv` | src/memory.c:59-62 | Linking an allocated block in front of the free list keeps the pool invariant. |
| `Memory.ReleasePushes` | src/memory.c:57-63 | Releasing a live block succeeds, keeps the invariant, and puts the block at the front of the free list. |
| `Memory.ReleaseThenAllocate` | src/memory.c:45-66 | The free list is a stack: release then allocate hands back the same pointer and restores the pool exactly. |
| `Memory.AllocateThenRelease` | src/memory.c:45-66 | Allocate then release of the pointer just handed out restores the pool exactly. |
| `Memory.AllocateManyTakes` | src/memory.c:45-55 | k successive allocations, k no more than the free blocks, return the pointers of the first k free blocks in list order. The remaining blocks stay free in order. |
| `Memory.AllocateManyPrefix` | src/memory.c:45-55 | The same, stated element by element: the j-th of k allocations returns the pointer of the j-th free block. |
| `Memory.PointerInjective` | src/memory.c:51 | Distinct blocks are handed out as distinct pointers. |
| `Memory.ExhaustFreshPool` | src/memory.c:24-55 | From a freshly initialised pool of N blocks, N allocations all succeed with pairwise distinct pointers. The next one returns NULL. |
| `Dispatch.Init` | src/dispatch.c:19-32 | An already initialised queue is left untouched. Otherwise the queue becomes initialised and empty, with the requested size and all slots NULL. |
| `Dispatch.InitIdempotent` | src/dispatch.c:19-20 | A second init changes nothing, whatever size it asks for. |
| `Dispatch.LengthCases` | src/dispatch.c:53-57 | The code's two-case count formula equals the forward ring distance from `out` to `in`. |
| `Dispatch.Count` | src/dispatch.c:52-58 | The count is the number of queued events and is less than the size. |
| `Dispatch.Dequeue` | src/dispatch.c:60-72 | An empty queue answers NULL and is unchanged. Otherwise the oldest queued pointer comes back and the rest stay queued in order. Size, `in` and slots are untouched. |
| `Dispatch.Enqueue` | src/dispatch.c:74-87 | Enqueue succeeds exactly when fewer than size - 1 events are queued. On success the event is appended at the back; on failure the queue is unchanged. |
| `Dispatch.CapacityIsSizeLessOne` | src/dispatch.c:75-77 | A queue never holds more than size - 1 events. |
| `Dispatch.FullRefuses` | src/dispatch.c:74-77 | A queue holding size - 1 events refuses every enqueue and stays as it was. |
| `Dispatch.FifoOrder` | src/dispatch.c:60-87 | Two events enqueued on an empty queue leave in arrival order, and the queue is empty again. |
| `Dispatch.Shutdown` | src/dispatch.c:34-50 | An initialised queue frees the queued events up to the first NULL, oldest first, then becomes uninitialised. The dequeue that answers NULL also takes a queued NULL off the queue, so only the events behind it stay queued; the queue ends empty when no NULL was queued. An uninitialised queue is left alone. |
| `Dispatch.DrainStep` | src/dispatch.c:39-45 | One loop round: a NULL answer ends the freed prefix, and an event answer is its next element. The queue shrinks by one. |
| `RingTest.TableMeansDistance` | test/testrb.c:85-90 | Each row of the table is the ring-distance meaning of its indices. The count is the distance. Enqueue succeeds below 3 events. Dequeue succeeds when non-empty. |
| `RingTest.TruthTable` | test/testrb.c:92-126 | All 16 cases of the three test loops pass: count, enqueue result and dequeue result match the table. |
| `RingTest.FreshQueueIsEmpty` | test/testrb.c:94-95 | A freshly initialised size-4 queue reports no events. |
| `Currency.FromCentsOfToCents` | src/bank.h:42-47 | Valid currency values (cents in [0, 99]) correspond one-to-one to the representable amounts. |
| `Currency.ToCentsInjective` | src/bank.h:42-47 | Two valid values that denote the same amount are the same value. |
| `Currency.Settle` | src/bank.h:49-58 | The delivered amount is always representable. It is exact when the amount is representable, 32767.99 above the range and -32768.99 below it. |
| `Currency.Add` | src/bank.h:49-53 | The sum is valid, exact whenever representable, 32767.99 on overflow and -32768.99 on underflow. |
| `Currency.Sub` | src/bank.h:54-58 | The difference is valid, exact whenever representable, 32767.99 on overflow and -32768.99 on underflow. |
| `Currency.AddCommutes` | src/bank.h:49-53 | a + b = b + a. |
| `Currency.SubUndoesAdd` | src/bank.h:49-58 | (a + b) - b = a when the sum did not saturate. |
| `Currency.AddUndoesSub` | src/bank.h:49-58 | (a - b) + b = a when the difference did not saturate. |
| `Currency.SubIsAddNegated` | test/testcurrency.c:84-87 | Subtraction is addition of the negated operand, wherever the negation is representable. |
| `Currency.AddSaturatesAtTop` | test/testcurrency.c:131-132 | 32767.80 + 0.19, + 0.20 and + 0.99 all give 32767.99. |
| `CurrencyFourCase.FourCaseAdd` | test/testcurrency.c:35-82 | The test program's addition keeps cents in [0, 99]. Two non-negative operands give a non-negative result. Two negative operands give a negative result, unless both bases are -32768. |
| `CurrencyFourCase.FourCaseSub` | test/testcurrency.c:84-87 | The test program's subtraction keeps cents in [0, 99]. A subtrahend whose base is 0 or -32768 is added instead of subtracted. Subtracting a non-positive amount from a non-negative one, or a positive amount from a negative one, keeps the sign. |
| `CurrencyFourCase.FourCaseAddKeepsCents` | test/testcurrency.c:35-82 | The test program's addition keeps cents in [0, 99]. |
| `CurrencyFourCase.FourCaseAddClampsOverflow` | test/testcurrency.c:67-79 | With both bases non-negative, a base overflow or a cent carry out of 32767 gives 32767.99. |
| `CurrencyFourCase.FourCaseAddAgreesNonNegative` | test/testcurrency.c:67-79 | With both bases non-negative, the code's result is exactly the saturating sum. |
| `CurrencyFourCase.FourCaseAddAgreesNegative` | test/testcurrency.c:38-50 | With both bases negative, the code's result is the saturating sum, except when both bases are -32768. |
| `CurrencyFourCase.FourCaseAddAgreesMixed` | test/testcurrency.c:51-66 | With mixed signs, the code's result is the exact sum when the sum keeps the sign the branch assumes. |
| `CurrencyFourCase.TestVectors` | test/testcurrency.c:119-134 | The 13 asserted vectors hold of the code's addition. |
| `CurrencyFourCase.TestVectorsOfReference` | test/testcurrency.c:119-134 | The same 13 vectors hold of the saturating reference addition. |
| `CurrencyFourCase.FourCaseAddMissesDoubleMinimum` | test/testcurrency.c:38-50 | -32768.50 + -32768.60 gives -1.10 where the promise is -32768.99. |
| `CurrencyFourCase.FourCaseAddMisreadsSignChange` | test/testcurrency.c:51-66 | -1.20 + 2.10 gives 1.10 (intended 0.90). 0.10 + -32768.20 gives 32767.90 (intended -32768.10). |
| `CurrencyFourCase.FourCaseSubIgnoresZeroBase` | test/testcurrency.c:84-87 | 1.00 - 0.50 gives 1.50 (intended 0.50). |
| `CurrencyFourCase.FourCaseSubIsAddNegated` | test/testcurrency.c:84-87 | Where the base negation is exact, the code's subtraction is its addition of the negated amount. |
| `Bank.BankAdd` | src/bank.c:40-54 | Reading each pair as base + cents/100 whatever its sign, the result is the sum up to one 16-bit wrap of the base, and exactly the sum when that fits. Two positive bases whose sum exceeds 32767 saturate to 32767.99. Cents stay in [0, 99]. |
| `Bank.BankSub` | src/bank.c:56-70 | Two negative bases with the first the larger give -32768.99. Otherwise the result is the difference of the bases plus the sum of the cents, up to one 16-bit wrap of the base. Cents stay in [0, 99]. |
| `Bank.BankArithmeticKeepsCents` | src/bank.c:40-70 | `bank.c`'s addition and subtraction keep cents in [0, 99]. |
| `Bank.BankAddExactWhenSmall` | src/bank.c:40-54 | For non-negative operands whose sum is at most 32767.99, `bank.c`'s addition is exact. |
| `Bank.BankAddCarryWraps` | src/bank.c:42-51 | 32767.80 + 0.20 gives -32768.00 instead of saturating to 32767.99. |
| `Bank.BankAddIgnoresSign` | src/bank.c:46-51 | -10.99 + 1.20 gives -8.19 (intended -9.79). |
| `Bank.BankSubAddsCents` | src/bank.c:62-67 | 5.50 - 1.20 gives 4.70 (intended 4.30). |
| `Bank.BankSubFlagsFalseUnderflow` | src/bank.c:59-61 | -1.00 - -5.00 gives -32768.99 where the exact difference is 4.00. |
| `Bank.Init` | src/bank.c:72-78 | The ledger starts at 0.00 with the given callback and reports success. |
| `Bank.SetBalance` | src/bank.c:92-100 | The balance read back is the one set. A registered callback sees it once; otherwise nothing is reported. |
| `Bank.Deposit` | src/bank.c:102-112 | The new balance is the saturating sum: exact when representable, 32767.99 on overflow. A registered callback sees the new balance once. |
| `Bank.Withdraw` | src/bank.c:114-124 | The new balance is the saturating difference: exact when representable, -32768.99 on underflow. A registered callback sees the new balance once. |
| `Bank.DepositThenWithdraw` | src/bank.c:102-124 | Withdrawing what was just deposited restores the ledger when the deposit did not saturate. The callback sees both balances, ending with the original. |
| `Bank.DepositsCommute` | src/bank.c:102-112 | Two deposits commute when no partial sum saturates. |
| `Bill.VendPatterns` | src/bill.c:107 | The pre-shifted patterns of VEND 011, 101, 001, 110, 010 and 111 are 0x60, 0xA0, 0x20, 0xC0, 0x40 and 0xE0. |
| `Bill.FirstMatch` | src/bill.c:352-361 | The index found is the first table entry with the pattern. None means no entry has it. |
| `Bill.DenominationsDistinct` | src/bill.c:164-170 | No two denominations share a VEND pattern. |
| `Bill.DenominationTable` | src/bill.c:164-170 | VEND 011, 101, 001, 110 and 010 report 10, 20, 50, 100 and 200. |
| `Bill.DenominationGaps` | src/bill.c:164-170 | VEND 000, 100 and 111 report nothing. |
| `Bill.LookupEntry` | src/bill.c:352-361 | Every table entry's pattern reports that entry's value. |
| `Bill.LookupMissing` | src/bill.c:352-361 | A pattern in no entry reports nothing. |
| `Bill.EvalSelfTest` | src/bill.c:294-303 | The scanner reaches IDLE exactly on the self-test pattern. Otherwise the unknown state drives INH high and enters SELFTEST. |
| `Bill.EvalIdle` | src/bill.c:305-310 | A scan starts exactly when BUSY is H, ABN is L and reception is not inhibited; otherwise nothing changes. |
| `Bill.EvalValidation` | src/bill.c:312-329 | ABN ends the scan with a scan error. VALID L stores the VEND bits and moves to ACCEPT. Otherwise nothing changes. |
| `Bill.AcceptAbort` | src/bill.c:332-344 | Aborting reports no banknote, and without escrow raises only the scan error. |
| `Bill.AcceptComplete` | src/bill.c:345-374 | Completion, without escrow, emits in order: the banknote report, then the full-stack error if STKF is H, then INH low. |
| `Bill.EvalAccept` | src/bill.c:331-375 | ABN aborts to END. STKF H or BUSY L completes to END. Otherwise nothing happens. Only completion reports a banknote. |
| `Bill.EvalEnd` | src/bill.c:377-387 | The stored VEND bits are cleared. BUSY L returns to IDLE with INH low; BUSY H stays in END. |
| `Bill.Evaluate` | src/bill.c:293-388 | No case of the switch touches the flags or the pin cache, reschedules, or returns to the unknown state. Only completion in ACCEPT reports. |
| `Bill.Poll` | src/bill.c:263-392 | Every poll captures the pins and ends with exactly one reschedule after 1600 ticks. Unchanged pins in a known state do nothing else. Without escrow ACK and REJ are never driven. |
| `Bill.Init` | src/bill.c:228-257 | With a pool: the report and error callbacks are stored, the pin state is unknown, the flags and VEND bits are cleared, the pin cache keeps its stale value, ACK and REJ are driven high, INH low, and the first poll is scheduled. Without a pool: nothing happens. |
| `Bill.Inhibit` | src/bill.c:399-402 | Sets the inhibit flag and drives INH to match; nothing else changes. |
| `Bill.Escrow` | src/bill.c:404-406 | An escrow request has no effect at all. |
| `Bill.FirstPollEvaluates` | src/bill.c:263-303 | Whatever stale pins the cache holds, the first poll after init evaluates. It goes to IDLE on the self-test pattern, and otherwise drives INH high and enters SELFTEST. |
| `Bill.SelfTestWaits` | src/bill.c:294-303 | SELFTEST moves on only on the self-test pattern, silently. |
| `Bill.IdleStartsScan` | src/bill.c:305-310 | A changed pin byte moves IDLE to VALIDATION exactly on BUSY H, ABN L and no inhibit; otherwise IDLE stays. |
| `Bill.InhibitHoldsIdle` | src/bill.c:305-310 | An inhibited scanner never leaves IDLE. |
| `Bill.ValidationStep` | src/bill.c:312-329 | ABN gives one scan error and END. VALID L stores the VEND bits and gives ACCEPT. |
| `Bill.AcceptReportsThenErrors` | src/bill.c:345-374 | Completion reports the first matching denomination once, then the full-stack error, then drives INH low and goes to END. |
| `Bill.AcceptAborts` | src/bill.c:332-344 | ABN in ACCEPT gives a scan error, END and no report. |
| `Bill.EndResets` | src/bill.c:377-387 | Each evaluated poll in END clears the VEND bits. END returns to IDLE exactly when BUSY is L. |
| `Bill.PollReports` | src/bill.c:263-392 | A poll reports a banknote exactly when changed pins complete a bill in ACCEPT with a registered callback and a known pattern. The report is that pattern's denomination. |
| `Bill.AtMostOneReport` | src/bill.c:352-361 | A poll reports at most one banknote, and only on the step from ACCEPT to END. |
| `Bill.EscrowStaysOff` | src/bill.c:404-406 | No sequence of polls, inhibit requests and escrow requests turns escrow on, drives ACK or REJ, or stores anything but VEND bits. |
| `Bill.BanknoteAccepted` | src/bill.c:293-388 | A whole banknote cycle (BUSY H, VALID L, BUSY L, release) reports once, with the VEND bits read when BUSY drops, and ends in IDLE with the stored bits cleared. |
| `Bill.BanknoteOfTen` | src/bill.c:164-170 | That cycle with VEND 011 reports 10. |
| `Console.Whitespace` | src/console.c:263-272 | The result is the length of the leading run of word characters: it stops at whitespace, NUL or a non-negative `maxlen`, and never runs past the buffer. |
| `Console.TokensFromSplit` | src/console.c:274-290 | The tokens the code finds split the line. Each token is a run of word characters, the next token starts one separator later, and all tokens lie within `maxlen`. |
| `Console.TokensFromCover` | src/console.c:274-290 | The code finds no token exactly when the line is empty or `maxlen` is 0. It goes on while words remain. For a non-negative `maxlen`, the last token runs exactly to the limit, or it ends at a whitespace character or NUL that is followed by the limit or by a NUL. With a negative `maxlen` the last token always ends at a whitespace character or NUL followed by a NUL, unless the line is long enough for the 16-bit count to wrap. |
| `Console.ExhaustedWithinLimit` | src/console.c:276-288 | For a non-negative `maxlen`, nothing is left to scan past the last token: it ends at the limit, or the next index is the limit or holds a NUL. |
| `Console.ExhaustedAtNul` | src/console.c:276-288 | For a negative `maxlen` that cannot wrap within the line, the scan stops only at a NUL that follows a separator. |
| `Console.LastWithinLimit` | src/console.c:276-288 | For a non-negative `maxlen`, the last token ends at a separator or exactly `maxlen` characters in. |
| `Console.LastAtSeparator` | src/console.c:276-288 | For a negative `maxlen` that cannot wrap within the line, the last token ends at a separator. |
| `Console.TokenizeAsWritten` | src/console.c:274-290 | A non-empty result starts with a token at index 0 of a non-empty line. |
| `Console.Tokenize` | src/console.c:274-290 | The corrected tokenizer never stores more than `arraylen` tokens. |
| `Console.TokenizeSound` | src/console.c:274-290 | The corrected tokenizer's tokens are at most `arraylen`, are a prefix of the code's tokens, split the line, and stop at the terminating NUL. |
| `Console.TokenizeAgrees` | src/console.c:274-290 | On a NUL-free line with room for every token, the corrected and as-written tokenizers agree. |
| `Console.TokenizeEmptyTokens` | src/console.c:274-290 | Consecutive separators give an empty token: "a  b" splits into "a", "" and "b". |
| `Console.TokenizeOverrunsHelpArrays` | src/console.c:378-381 | "help gpio led" yields 3 tokens for the help command's 2-entry arrays. The corrected tokenizer stops at 2. |
| `Console.TokenizeReadsPastNul` | src/console.c:276-281 | With a negative `maxlen`, the code steps over the terminating NUL and tokenizes the bytes behind it; the corrected tokenizer stops at the NUL. |
| `Console.TokenizeReadsPastNulUnderLimit` | src/console.c:276-281 | The same overrun under a `maxlen` longer than the line: with 5, "ab\0cd" yields "ab" and "cd". The corrected tokenizer stops at the NUL. |
| `Console.Decimal24AsWritten` | src/console.c:292-355 | A NULL buffer or a non-positive `maxlen` gives 0.00 with nothing consumed. Any parse that returns has integer part 0 and hundredths digit 0. |
| `Console.DecimalAsWrittenReturns` | src/console.c:306-329 | The code hangs exactly when the sign is followed, within `maxlen`, by digits and then a character other than the point. |
| `Console.DecimalHangs` | src/console.c:306-329 | "1a" and "5" (with `maxlen` 2) hang the code. The corrected parser reads 1. |
| `Console.DecimalDropsDigits` | src/console.c:326-341 | "12.34" parses as 0.30 consuming 4 characters. |
| `Console.Decimal24` | src/console.c:292-355 | The corrected parser: a NULL buffer or a non-positive `maxlen` gives 0.00. The result is always a valid currency, and it never consumes beyond `maxlen`. |
| `Console.DecimalReadsDigits` | src/console.c:330-343 | The corrected parser reads "12.34" as 12.34 consuming 5 characters. |
| `Console.DecimalRoundTrip` | src/console.c:292-355 | Parsing the text of any valid amount (sign, digits, point, two digits) gives the amount back and consumes the whole text. |
| `Console.DecimalSaturates` | src/console.c:309-324 | "32768" saturates to 32767.99, consuming the digit that overflowed. |
| `Console.DecimalSaturatesNegative` | src/console.c:309-324 | "-32769" saturates to -32768.99. |
| `Console.IntegerPartOverflows` | src/console.c:306-324 | An integer loop over a digit run worth more than the limit stops with the saturated amount, right after one of the run's digits. |
| `Console.DecimalSaturatesAll` | src/console.c:309-324 | Any number whose digits after the sign are worth more than 32767 saturates to 32767.99. For a negative number the bound is 32768 and the result is -32768.99. The digit that overflowed is within that run. |
| `Console.DecimalDropsSignBelowOne` | src/console.c:343-348 | "-0.50" parses to 0.50 in both parsers, since an integer part of 0 negates to itself. No amount above -1.00 is negative in the currency format. |
| `Console.Validate` | src/console.c:357-376 | An empty first word calls nothing. Otherwise the handler called is the first whose name compares equal over the word's length, and none is called if no name does. |
| `Console.ValidateByPrefix` | src/console.c:357-376 | A handler is called exactly when the first word is non-empty and begins some command name. The one called is the first such name. |
| `Console.ValidateExamples` | src/console.c:357-376 | "b" calls balance, "bi" calls bill, "h" calls help. A leading space and an unknown word call nothing. |
| `Console.CommandsNotSorted` | src/console.c:158-168 | The table is not in the lexicographic order its comment claims: "help" precedes "gpio". |
| `Console.SortedCommandsSameNames` | src/console.c:158-168 | The sorted table holds the same names. |
| `Console.SortedCommandsSorted` | src/console.c:158-168 | The sorted table is strictly increasing. |
| `Console.SortedTableDispatchesAlike` | src/console.c:158-168 | Every line calls the same command under either order. |
| `Console.Complete` | src/console.c:656-676 | Returns 2 with a completion exactly when some command from the start index on begins with the first word. Otherwise returns 0 and writes nothing. |
| `Console.CompleteSpellsCommand` | src/console.c:656-676 | The typed word plus the completion spells the first matching command, and the destination is NUL-padded. |
| `Console.CompleteExamples` | src/console.c:656-676 | "he" completes to "lp", NUL-padded. |
| `Console.CompleteEmptyAndUnknown` | src/console.c:656-676 | An empty line completes to the first command. An unknown word completes to nothing. |
| `Led.Init` | src/led.c:102-127 | Each blink event is tagged with its LED and keeps its times. With a pool, the driver satisfies its invariant with every LED off, no event in the pool and nothing queued. Without one, the port, the pool events and the queue are untouched. The result says whether the pool exists. |
| `Led.Apply` | src/led.c:187-233 | ON sets, OFF clears and TOGGLE flips the named LED's bit. No other bit changes. |
| `Led.ApplyTwice` | src/led.c:187-233 | Toggling twice restores the port. ON and OFF are idempotent. |
| `Led.ActionAsWritten` | src/led.c:145-163 | The call succeeds exactly for an existing LED with a chunk and a successful schedule. |
| `Led.Action` | src/led.c:145-163 | The same success condition. On failure the driver is unchanged. On success the chunk holds the one-shot event and is queued. |
| `Led.ActionAgrees` | src/led.c:145-163 | Both versions agree whenever scheduling succeeds. |
| `Led.ActionAsWrittenLeaks` | src/led.c:149-159 | When scheduling fails, the code keeps a chunk that is never queued: the pool loses it and the invariant breaks. |
| `Led.ActionKeepsInv` | src/led.c:145-163 | The corrected action keeps the driver invariant, whatever the allocator and scheduler answer. |
| `Led.Blink` | src/led.c:165-180 | The LED's pending blink is stopped. Its blink event is set to ON with the new times and repeat flag and rescheduled at once. The result is whether scheduling succeeded, and nothing else changes. |
| `Led.BlinkKeepsInv` | src/led.c:165-180 | Blinking keeps the driver invariant. |
| `Led.Handle` | src/led.c:187-255 | The callback's port write follows the event's kind and LED, and no other event object changes. |
| `Led.CallbackAsWritten` | src/led.c:182-261 | The code hands the event to the allocator exactly when control reaches the end, whatever the event is. |
| `Led.Callback` | src/led.c:182-261 | The corrected callback releases only pool events that reach the end. A blink event never touches the pool. |
| `Led.CallbackAgrees` | src/led.c:182-261 | Both versions agree on pool events, and on blink events that are rescheduled. |
| `Led.PooledEventReleased` | src/led.c:253-259 | A queued one-shot event always goes back to the pool when it fires. |
| `Led.CallbackAsWrittenReleasesBlinkEvent` | src/led.c:243-259 | A non-periodic blink event ending its cycle is released to the allocator, though it never came from the pool. |
| `Led.CallbackKeepsInv` | src/led.c:182-261 | The corrected callback keeps the driver invariant for any queued event. |
| `Led.PeriodicBlinkCycle` | src/led.c:235-251 | A periodic blink lights the LED and schedules the off phase after the on-time. It then darkens the LED and schedules the on phase after the off-time, back where it started. |
| `Led.OneShotBlink` | src/led.c:235-259 | A one-shot blink lights then darkens the LED, and the blink event ends neither queued nor released. |
| `Led.ActionThenCallback` | src/led.c:145-261 | After a one-shot action fires, the LED's bit is as the action says, its pending blink is stopped, and the chunk is back in the pool. |

## Left out

- `bill_shutdown`, `bank_shutdown` and `led_shutdown`: the first two are empty, and the third only stops timers and writes port direction registers.
- The non-poll branch of `bill_callback`, which releases foreign events, and `bill_init`'s allocation of its poll event. These are reduced to the `poolReady` parameter.
- Port and register access, `BILL_INIT` and the `printf` diagnostics in the poll handler: they are I/O.
- Console I/O glue (`console_init`, `console_read`, `console_callback`, the rdline library). The command handlers other than their lookup, the `gpio_*` helpers, and the printing in `console_validate_help`: these are I/O. Only the size of its token arrays is used.
- IRQ_LOCK/IRQ_UNLOCK: each locked section is one atomic step of the model. Concurrency is not modelled.
- The callout manager: schedule and stop are recorded as effects, and their answers are parameters.
- The coin acceptor, clock, `main`, `event.h`, the configuration headers, and the multi-priority scheduler declared in `dispatch.h`: they are not part of this model.
- The static-array variant of the event queue (DYNMEM off), and `calloc` failing in `dispatch_init`: only the dynamically allocated variant is modelled, with the array assumed allocated.
- `size_t` and pointer widths beyond the 2-byte pointer of the target: addresses are unbounded naturals.
- Dispatch.Enqueue: requires a non-zero size, because the code stores into `events[in]` without checking that an array exists.
- Memory.Release: requires a pointer this pool handed out and has not taken back. The `memory.h` comment promises false for a foreign chunk or a NULL manager, but the code does not check either. It follows the header word wherever it points, so that case is undefined and not modelled.
- Led.ActionEvent: the on-time, off-time and periodic flag of a one-shot event are left unset by the code. They are fixed at zero, since the callback never reads them for such an event.
- Bill.Init: the pin cache is not captured by the code, so the model takes its stale value as a parameter. `Bill.FirstPollEvaluates` shows the first poll evaluates regardless.
- Bank.Deposit: computes with the corrected saturating addition, not `bank.c`'s own `currency_add`. The as-written one is `Bank.BankAdd`, and its defects are under Findings.
- Bank.Withdraw: computes with the corrected saturating subtraction, not `bank.c`'s own `currency_sub`. The as-written one is `Bank.BankSub`.
- Bank.GetBalance and Bill.GetState: plain accessors, with no row of their own.
- Console.Decimal24: a negative number above -1.00, such as "-0.50", parses to its magnitude, as in the code. The currency format cannot hold it (`Console.DecimalDropsSignBelowOne`).
- Console.Decimal24AsWritten: keeps the code's two saturation exits, with the code's own `v >= 3276` and digit threshold. It also keeps their reversed values: 32767.99 for a negative number and -32768.99 for a positive one. The exits are unreachable as written, because the accumulator never grows from 0. `Console.Decimal24` instead saturates to the values documented at `src/console.c:115` (32767.99, or -32768.99 when negative), with the exact bound of 32767, or 32768 when negative.
- Bill.Escrow: the escrow branches of the poll handler, which drive ACK and REJ, are kept in the model. `Bill.EscrowStaysOff` shows they are dead code.

## Findings

| source | as written | input that shows it | evidently intended | confidence | as-written member | corrected member |
|---|---|---|---|---|---|---|
| test/testcurrency.c:38-50 | the underflow test `sum > 0` misses a base sum that wraps to exactly 0 | -32768.50 + -32768.60 gives -1.10 | saturate to -32768.99, as `CurrencyFourCase.FourCaseAddAgreesNegative` relates | high; not executed | `CurrencyFourCase.FourCaseAddMissesDoubleMinimum` | `Currency.Add` |
| test/testcurrency.c:51-66 | the mixed-sign branches assume the sum keeps the sign of one operand | -1.20 + 2.10 gives 1.10; 0.10 + -32768.20 gives 32767.90 | 0.90 and -32768.10, as `CurrencyFourCase.FourCaseAddAgreesMixed` relates | high; not executed | `CurrencyFourCase.FourCaseAddMisreadsSignChange` | `Currency.Add` |
| test/testcurrency.c:84-87 | subtraction negates only the base, which loses the sign of an amount below 1.00 | 1.00 - 0.50 gives 1.50 | 0.50: subtraction is addition of the negated amount (`Currency.SubIsAddNegated`) | high; not executed | `CurrencyFourCase.FourCaseSubIgnoresZeroBase` | `Currency.Sub` |
| src/bank.c:42-51 | a cent carry into base 32767 wraps the base | 32767.80 + 0.20 gives -32768.00 | 32767.99 (`Currency.AddSaturatesAtTop`) | high; not executed | `Bank.BankAddCarryWraps` | `Currency.Add` |
| src/bank.c:46-51 | cents are added whatever the operands' signs | -10.99 + 1.20 gives -8.19 | -9.79, the exact sum | high; not executed | `Bank.BankAddIgnoresSign` | `Bank.Deposit` |
| src/bank.c:62-67 | subtraction adds the cents | 5.50 - 1.20 gives 4.70 | 4.30; subtracting undoes adding (`Currency.SubUndoesAdd`) | high; not executed | `Bank.BankSubAddsCents` | `Bank.Withdraw` |
| src/bank.c:59-61 | the underflow test fires whenever two negative bases give a positive difference, which is an ordinary result | -1.00 - -5.00 gives -32768.99 | 4.00, the exact difference | high; not executed | `Bank.BankSubFlagsFalseUnderflow` | `Bank.Withdraw` |
| src/console.c:326-337 | a digit only multiplies the accumulator by ten, and the second fraction digit is tested for being both '.' and a digit | "12.34" gives 0.30 | 12.34; every formatted amount parses back to itself (`Console.DecimalRoundTrip`) | high; not executed | `Console.DecimalDropsDigits` | `Console.Decimal24` |
| src/console.c:306-329 | a non-digit before the point never advances the index, so the loop spins | "1a" with `maxlen` 2 never returns (`Console.DecimalAsWrittenReturns` gives the exact condition) | stop at the first non-digit | high; not executed | `Console.DecimalHangs` | `Console.DecimalRoundTrip` |
| src/console.c:274-290 | `arraylen` is never compared with the token count | "help gpio led" stores 3 tokens into the help command's 2-entry arrays | store at most `arraylen` tokens | high; not executed | `Console.TokenizeOverrunsHelpArrays` | `Console.TokenizeSound` |
| src/console.c:276-281 | whenever `maxlen` is negative or longer than the line, a token ended by the NUL steps the pointer past it | "ab\0cd" yields "ab" and "cd", with `maxlen` -1 and with 5 (`Console.TokenizeReadsPastNulUnderLimit`) | stop at the NUL; on NUL-free lines nothing else changes (`Console.TokenizeAgrees`) | medium; not executed | `Console.TokenizeReadsPastNul` | `Console.Tokenize` |
| src/console.c:158-168 | "help" is listed before "gpio" under a comment saying the table is sorted | `COMMANDS` itself | lexicographic order, dispatching alike (`Console.SortedTableDispatchesAlike`) | high; not executed | `Console.CommandsNotSorted` | `Console.SortedCommandsSorted` |
| src/led.c:243-259 | a blink event that is not rescheduled falls through to `memory_release` | a one-shot blink's OFF phase releases the static blink event | release only pool events, keeping the driver invariant (`Led.CallbackKeepsInv`) | high; not executed | `Led.CallbackAsWrittenReleasesBlinkEvent` | `Led.Callback` |
| src/led.c:149-159 | when scheduling fails the allocated chunk is neither queued nor released | any action whose schedule call fails | release the chunk, keeping the driver invariant (`Led.ActionKeepsInv`) | high; not executed | `Led.ActionAsWrittenLeaks` | `Led.Action` |

=== FILE: bank.dfy ===
/** The balance manager of bank.c: its own (weaker) `currency_add` and
    `currency_sub` as written, and the ledger operations.

    The ledger is a single record holding the balance and whether a change
    callback is registered.  Every IRQ_LOCK section is one atomic step; the
    balances handed to the callback are returned as a trace, in call order.
    The ledger computes with the saturating `Currency.Add` and
    `Currency.Sub`, which are what bank.h promises. */
module Bank {
  import opened Util
  import opened Currency

  /** The pair read as `base + cents/100` whatever the sign of the base, in
      hundredths: the reading bank.c's own arithmetic computes in. */
  function Units(c: Currency): int {
    c.base * 100 + c.cents
  }

  /** One 16-bit wrap of the base, in hundredths. */
  const WRAP_UNITS: int := 6553600

  /** `currency_add` of bank.c as written: the base sum saturates only when
      both bases are positive and the 16-bit sum wraps; otherwise the cents
      are summed and carried into the base whatever the signs. */
  function BankAdd(a: Currency, b: Currency): (r: Currency)
    ensures a.base > 0 && b.base > 0 && a.base + b.base > 32767 ==> r == MAX
    ensures Valid(a) && Valid(b) ==> Valid(r)
    ensures Valid(a) && Valid(b) && !(a.base > 0 && b.base > 0 && a.base + b.base > 32767) ==>
              Units(a) + Units(b) - Units(r) in {-WRAP_UNITS, 0, WRAP_UNITS}
    ensures Valid(a) && Valid(b) && -32768 * 100 <= Units(a) + Units(b) < 32768 * 100 ==>
              Units(r) == Units(a) + Units(b)
  {
    var sum := Wrap16(a.base + b.base);
    Wrap16Near(a.base + b.base);
    if a.base > 0 && b.base > 0 && sum < 0 then MAX
    else
      var c := Wrap8(a.cents + b.cents);
      Wrap16Near(sum + 1);
      if c >= 100 then Currency(Wrap16(sum + 1), c - 100) else Currency(sum, c)
  }

  /** `currency_sub` of bank.c as written: the bases are subtracted but the
      cents are added, and the underflow test fires whenever two negative
      bases give a positive difference. */
  function BankSub(a: Currency, b: Currency): (r: Currency)
    ensures a.base < 0 && b.base < 0 && a.base > b.base ==> r == MIN
    ensures Valid(a) && Valid(b) ==> Valid(r)
    ensures Valid(a) && Valid(b) && !(a.base < 0 && b.base < 0 && a.base > b.base) ==>
              (a.base - b.base) * 100 + a.cents + b.cents - Units(r) in {-WRAP_UNITS, 0, WRAP_UNITS}
  {
    var diff := Wrap16(a.base - b.base);
    Wrap16Near(a.base - b.base);
    if a.base < 0 && b.base < 0 && diff > 0 then MIN
    else
      var c := Wrap8(a.cents + b.cents);
      Wrap16Near(diff + 1);
      if c >= 100 then Currency(Wrap16(diff + 1), c - 100) else Currency(diff, c)
  }

  /** Both as-written operations keep the cents in [0, 99]. */
  lemma BankArithmeticKeepsCents(a: Currency, b: Currency)
    requires Valid(a) && Valid(b)
    ensures Valid(BankAdd(a, b)) && Valid(BankSub(a, b))
  {
  }

  /** For non-negative operands whose exact sum stays below 32767.99 the
      as-written addition is exact. */
  lemma BankAddExactWhenSmall(a: Currency, b: Currency)
    requires Valid(a) && Valid(b)
    requires a.base >= 0 && b.base >= 0
    requires ToCents(a) + ToCents(b) <= MAX_CENTS
    ensures BankAdd(a, b) == Add(a, b)
  {
    var r := BankAdd(a, b);
    assert ToCents(r) == ToCents(a) + ToCents(b);
    ToCentsInjective(r, Add(a, b));
  }

  /** A cent carry out of 32767 wraps the base instead of saturating:
      32767.80 + 0.20 gives -32768.00 rather than 32767.99. */
  lemma BankAddCarryWraps()
    ensures BankAdd(Currency(32767, 80), Currency(0, 20)) == Currency(-32768, 0)
    ensures Add(Currency(32767, 80), Currency(0, 20)) == MAX
  {
  }

  /** Cents of a negative amount are added instead of subtracted:
      -10.99 + 1.20 gives -8.19 rather than -9.79. */
  lemma BankAddIgnoresSign()
    ensures BankAdd(Currency(-10, 99), Currency(1, 20)) == Currency(-8, 19)
    ensures Add(Currency(-10, 99), Currency(1, 20)) == Currency(-9, 79)
  {
  }

  /** The cents are added in a subtraction: 5.50 - 1.20 gives 4.70 rather
      than 4.30. */
  lemma BankSubAddsCents()
    ensures BankSub(Currency(5, 50), Currency(1, 20)) == Currency(4, 70)
    ensures Sub(Currency(5, 50), Currency(1, 20)) == Currency(4, 30)
  {
  }

  /** The underflow test of the subtraction fires on an ordinary
      difference of two negative amounts: -1.00 - -5.00 gives -32768.99
      rather than 4.00. */
  lemma BankSubFlagsFalseUnderflow()
    ensures BankSub(Currency(-1, 0), Currency(-5, 0)) == MIN
    ensures Sub(Currency(-1, 0), Currency(-5, 0)) == Currency(4, 0)
  {
  }

  /** The ledger record. */
  datatype Bank = Bank(balance: Currency, hasCallback: bool)

  /** The result of a ledger operation: the new record and the balances
      passed to the change callback, in order. */
  datatype Step = Step(bank: Bank, reported: seq<Currency>)

  /** What a registered callback sees after a change to `balance`. */
  function Report(b: Bank, balance: Currency): (r: seq<Currency>)
    ensures b.hasCallback ==> r == [balance]
    ensures !b.hasCallback ==> r == []
  {
    if b.hasCallback then [balance] else []
  }

  /** `bank_init`: zero balance, the given callback, success. */
  function Init(hasCallback: bool): (r: (Bank, bool))
    ensures r.0.balance == ZERO && ToCents(r.0.balance) == 0
    ensures r.0.hasCallback == hasCallback
    ensures r.1
  {
    (Bank(ZERO, hasCallback), true)
  }

  /** `bank_get_balance`: the stored balance; the record is untouched
      (the function returns nothing else). */
  function GetBalance(b: Bank): (r: Currency)
    ensures r == b.balance
  {
    b.balance
  }

  /** `bank_set_balance`: store `x`, then report it once if a callback is
      registered. */
  function SetBalance(b: Bank, x: Currency): (r: Step)
    ensures GetBalance(r.bank) == x
    ensures r.bank.hasCallback == b.hasCallback
    ensures r.reported == (if b.hasCallback then [x] else [])
  {
    Step(b.(balance := x), Report(b, x))
  }

  /** `bank_deposit`: add `amount` to the balance atomically, then report the
      new balance. */
  function Deposit(b: Bank, amount: Currency): (r: Step)
    ensures Valid(r.bank.balance)
    ensures Representable(ToCents(b.balance) + ToCents(amount)) ==>
              ToCents(r.bank.balance) == ToCents(b.balance) + ToCents(amount)
    ensures ToCents(b.balance) + ToCents(amount) > MAX_CENTS ==> r.bank.balance == MAX
    ensures r.bank.hasCallback == b.hasCallback
    ensures r.reported == (if b.hasCallback then [r.bank.balance] else [])
  {
    var nb := Add(b.balance, amount);
    Step(b.(balance := nb), Report(b, nb))
  }

  /** `bank_withdraw`: subtract `amount` from the balance atomically, then
      report the new balance. */
  function Withdraw(b: Bank, amount: Currency): (r: Step)
    ensures Valid(r.bank.balance)
    ensures Representable(ToCents(b.balance) - ToCents(amount)) ==>
              ToCents(r.bank.balance) == ToCents(b.balance) - ToCents(amount)
    ensures ToCents(b.balance) - ToCents(amount) < MIN_CENTS ==> r.bank.balance == MIN
    ensures r.bank.hasCallback == b.hasCallback
    ensures r.reported == (if b.hasCallback then [r.bank.balance] else [])
  {
    var nb := Sub(b.balance, amount);
    Step(b.(balance := nb), Report(b, nb))
  }

  /** A deposit followed by a withdrawal of the same amount restores a valid
      balance when the deposit did not saturate; a registered callback sees
      both intermediate balances, the last being the original. */
  lemma DepositThenWithdraw(b: Bank, amount: Currency)
    requires Valid(b.balance)
    requires Representable(ToCents(b.balance) + ToCents(amount))
    ensures var s1 := Deposit(b, amount);
            var s2 := Withdraw(s1.bank, amount);
            s2.bank == b
            && (b.hasCallback ==> s1.reported + s2.reported == [s1.bank.balance, b.balance])
  {
    SubUndoesAdd(b.balance, amount);
  }

  /** Deposits of the same amounts commute when neither order saturates. */
  lemma DepositsCommute(b: Bank, x: Currency, y: Currency)
    requires Valid(b.balance)
    requires Representable(ToCents(b.balance) + ToCents(x))
    requires Representable(ToCents(b.balance) + ToCents(y))
    requires Representable(ToCents(b.balance) + ToCents(x) + ToCents(y))
    ensures Deposit(Deposit(b, x).bank, y).bank == Deposit(Deposit(b, y).bank, x).bank
  {
    var xy := Deposit(Deposit(b, x).bank, y).bank.balance;
    var yx := Deposit(Deposit(b, y).bank, x).bank.balance;
    ToCentsInjective(xy, yx);
  }
}

=== FILE: bill.dfy ===
/** The banknote-scanner driver of bill.c: the pin byte, the denomination
    table, and the poll state machine.

    The pin byte is taken as an input of each poll (bit 7..5 VEND1..VEND3,
    bit 4 BUSY, bit 3 ABN, bit 2 VALID, bit 1 STKF).  Everything a poll does
    to the outside — writing the INH, ACK and REJ ports, calling the report
    and error callbacks, rescheduling itself — is returned as a sequence of
    effects in the order the code performs them.  A port level `true` is H. */
module Bill {
  import opened Util

  datatype State = Uninitialized | SelfTest | Idle | Validation | End | Accept

  datatype ErrorCode = Internal | Scan | Stack | Full | Unknown

  datatype Effect =
    | DriveInh(high: bool)
    | DriveAck(high: bool)
    | DriveRej(high: bool)
    | Report(denomination: nat)
    | Error(code: ErrorCode, denomination: nat)
    | Reschedule(ticks: nat)

  /** The driver record: state, the cached pin byte, the inhibit and escrow
      flags, the stored VEND bits, and whether report and error callbacks
      were registered. */
  datatype Scanner = Scanner(state: State, input: UInt8, inhibit: bool, escrow: bool, vend: UInt8,
                             hasReport: bool, hasError: bool)

  /** Poll period in timer ticks. */
  const BILL_POLL_TIME: nat := 1600

  /** The bit of value `weight` (a power of two) is set in a byte. */
  predicate Bit(b: UInt8, weight: nat)
    requires weight > 0
  {
    (b / weight) % 2 == 1
  }

  /** The VEND bits of the pin byte, left in place (bits 7..5). */
  function VendBits(pins: UInt8): (r: UInt8)
    ensures r % 32 == 0
  {
    pins / 32 * 32
  }

  predicate Busy(pins: UInt8) { Bit(pins, 16) }
  predicate Abn(pins: UInt8) { Bit(pins, 8) }
  predicate Valid(pins: UInt8) { Bit(pins, 4) }
  predicate Stkf(pins: UInt8) { Bit(pins, 2) }

  /** The pre-shifted VEND pattern for the three levels (1 = H). */
  function VendPattern(vend1: bool, vend2: bool, vend3: bool): UInt8 {
    (if vend1 then 128 else 0) + (if vend2 then 64 else 0) + (if vend3 then 32 else 0)
  }

  datatype Denomination = Denomination(vend: UInt8, value: nat)

  /** The denomination table; `VendPatterns` shows the patterns are those
      of VEND 011, 101, 001, 110 and 010. */
  const DENOMINATIONS: seq<Denomination> := [
    Denomination(0x60, 10),
    Denomination(0xA0, 20),
    Denomination(0x20, 50),
    Denomination(0xC0, 100),
    Denomination(0x40, 200)
  ]

  /** The table's patterns and the self-test pattern, as VEND levels. */
  lemma VendPatterns()
    ensures VendPattern(false, true, true) == 0x60 && VendPattern(true, false, true) == 0xA0
    ensures VendPattern(false, false, true) == 0x20 && VendPattern(true, true, false) == 0xC0
    ensures VendPattern(false, true, false) == 0x40 && VendPattern(true, true, true) == 0xE0
  {
  }

  /** Index of the first entry of `table` whose pattern is `vend`. */
  function FirstMatch(table: seq<Denomination>, vend: UInt8): (r: Option<nat>)
    ensures r.Some? ==> r.value < |table| && table[r.value].vend == vend
    ensures r.Some? ==> forall j | 0 <= j < r.value :: table[j].vend != vend
    ensures r.None? ==> forall j | 0 <= j < |table| :: table[j].vend != vend
  {
    if |table| == 0 then None
    else if table[0].vend == vend then Some(0)
    else match FirstMatch(table[1..], vend)
      case None => None
      case Some(i) => Some(i + 1)
  }

  /** The denomination reported for a VEND pattern, if any. */
  function Lookup(vend: UInt8): Option<nat> {
    match FirstMatch(DENOMINATIONS, vend)
    case None => None
    case Some(i) => Some(DENOMINATIONS[i].value)
  }

  /** The table's patterns are pairwise distinct, so the first match is the
      only one. */
  lemma DenominationsDistinct()
    ensures forall i, j | 0 <= i < j < |DENOMINATIONS| :: DENOMINATIONS[i].vend != DENOMINATIONS[j].vend
  {
  }

  /** The five patterns map to 10, 20, 50, 100 and 200. */
  lemma DenominationTable()
    ensures Lookup(0x60) == Some(10) && Lookup(0xA0) == Some(20) && Lookup(0x20) == Some(50)
    ensures Lookup(0xC0) == Some(100) && Lookup(0x40) == Some(200)
  {
    LookupEntry(0);
    LookupEntry(1);
    LookupEntry(2);
    LookupEntry(3);
    LookupEntry(4);
  }

  /** The other three patterns (000, 100 and 111) map to nothing. */
  lemma DenominationGaps()
    ensures Lookup(0x00).None? && Lookup(0x80).None? && Lookup(0xE0).None?
  {
    LookupMissing(0x00);
    LookupMissing(0x80);
    LookupMissing(0xE0);
  }

  /** Each entry is found by its own pattern. */
  lemma LookupEntry(i: nat)
    requires i < |DENOMINATIONS|
    ensures Lookup(DENOMINATIONS[i].vend) == Some(DENOMINATIONS[i].value)
  {
    var m := FirstMatch(DENOMINATIONS, DENOMINATIONS[i].vend);
    assert m.Some?;
    assert m.value == i;
  }

  /** A pattern of no entry is reported as nothing. */
  lemma LookupMissing(vend: UInt8)
    requires forall i | 0 <= i < |DENOMINATIONS| :: DENOMINATIONS[i].vend != vend
    ensures Lookup(vend).None?
  {
  }

  /** The pattern that ends the self-test: VALID H, STKF L, ABN L, BUSY L,
      VEND 111. */
  predicate SelfTestPassed(pins: UInt8) {
    Valid(pins) && !Stkf(pins) && !Abn(pins) && !Busy(pins) && VendBits(pins) == 0xE0
  }

  predicate NoReschedule(e: seq<Effect>) {
    forall k | 0 <= k < |e| :: !e[k].Reschedule?
  }

  lemma NoRescheduleAppend(a: seq<Effect>, b: seq<Effect>)
    requires NoReschedule(a) && NoReschedule(b)
    ensures NoReschedule(a + b)
  {
    assert forall k | |a| <= k < |a + b| :: (a + b)[k] == b[k - |a|];
  }

  function ErrorIf(s: Scanner, code: ErrorCode): seq<Effect> {
    if s.hasError then [Error(code, 0)] else []
  }

  function ReportIf(s: Scanner, pins: UInt8): (r: seq<Effect>)
    ensures NoReschedule(r)
  {
    if s.hasReport then
      match Lookup(VendBits(pins))
      case None => []
      case Some(d) => [Report(d)]
    else []
  }

  /** The denominations a sequence of effects reports, in order. */
  function Reports(e: seq<Effect>): (r: seq<nat>)
    ensures |r| <= |e|
  {
    if |e| == 0 then []
    else (if e[0].Report? then [e[0].denomination] else []) + Reports(e[1..])
  }

  lemma {:induction false} ReportsAppend(a: seq<Effect>, b: seq<Effect>)
    ensures Reports(a + b) == Reports(a) + Reports(b)
    decreases |a|
  {
    if |a| == 0 {
      assert a + b == b;
    } else {
      var ab := a + b;
      assert ab[0] == a[0];
      assert ab[1..] == a[1..] + b;
      ReportsAppend(a[1..], b);
      var h: seq<nat> := if a[0].Report? then [a[0].denomination] else [];
      assert Reports(ab) == h + (Reports(a[1..]) + Reports(b));
      assert Reports(a) == h + Reports(a[1..]);
      assert h + (Reports(a[1..]) + Reports(b)) == (h + Reports(a[1..])) + Reports(b);
    }
  }

  /** What every case of the state switch respects: it never touches the
      flags or the cache, never reschedules, never returns to the unknown
      state, stores in `vend` only the VEND bits of the pins or 0, and
      drives ACK and REJ only in escrow mode. */
  predicate Respects(s: Scanner, pins: UInt8, r: (Scanner, seq<Effect>)) {
    && r.0.input == s.input && r.0.inhibit == s.inhibit && r.0.escrow == s.escrow
    && r.0.hasReport == s.hasReport && r.0.hasError == s.hasError
    && r.0.state != Uninitialized
    && (r.0.vend == s.vend || r.0.vend == 0 || r.0.vend == VendBits(pins))
    && NoReschedule(r.1)
    && (!s.escrow ==> NoAckRej(r.1))
  }

  /** UNINITIALIZED and SELFTEST: the passing pattern leads to IDLE; any
      other pattern drives INH H and moves UNINITIALIZED to SELFTEST. */
  function EvalSelfTest(s: Scanner, pins: UInt8): (r: (Scanner, seq<Effect>))
    requires s.state == Uninitialized || s.state == SelfTest
    ensures Respects(s, pins, r)
    ensures r.0.state == Idle <==> SelfTestPassed(pins)
    ensures r.1 == (if !SelfTestPassed(pins) && s.state == Uninitialized then [DriveInh(true)] else [])
    ensures Reports(r.1) == []
  {
    if SelfTestPassed(pins) then (s.(state := Idle), [])
    else if s.state == Uninitialized then (s.(state := SelfTest), [DriveInh(true)])
    else (s, [])
  }

  /** IDLE: scanning starts when BUSY is H, ABN is L and the scanner is not
      inhibited. */
  function EvalIdle(s: Scanner, pins: UInt8): (r: (Scanner, seq<Effect>))
    requires s.state == Idle
    ensures Respects(s, pins, r)
    ensures r.0.state == Validation <==> Busy(pins) && !Abn(pins) && !s.inhibit
    ensures r.0.state != Validation ==> r.0 == s
    ensures r.1 == [] && Reports(r.1) == []
  {
    if Busy(pins) && !Abn(pins) && !s.inhibit then (s.(state := Validation), []) else (s, [])
  }

  /** VALIDATION: ABN reports a scan error and ends; VALID L stores the VEND
      bits and accepts (acknowledging the bill in escrow mode). */
  function EvalValidation(s: Scanner, pins: UInt8): (r: (Scanner, seq<Effect>))
    requires s.state == Validation
    ensures Respects(s, pins, r)
    ensures Abn(pins) ==> r.0.state == End && r.1 == ErrorIf(s, Scan)
    ensures !Abn(pins) && !Valid(pins) ==> r.0.state == Accept && r.0.vend == VendBits(pins)
    ensures !Abn(pins) && Valid(pins) ==> r == (s, [])
    ensures Reports(r.1) == []
  {
    if Abn(pins) then (s.(state := End), ErrorIf(s, Scan))
    else if !Valid(pins) then
      (s.(state := Accept, vend := VendBits(pins)), if s.escrow then [DriveAck(false)] else [])
    else (s, [])
  }

  /** The effects of an aborted bill in ACCEPT: release ACK and REJ in escrow
      mode, then the scan error. */
  function AcceptAbort(s: Scanner): (r: seq<Effect>)
    ensures NoReschedule(r) && Reports(r) == []
    ensures !s.escrow ==> r == ErrorIf(s, Scan)
  {
    var esc: seq<Effect> := if s.escrow then [DriveAck(true), DriveRej(true)] else [];
    ReportsAppend(esc, ErrorIf(s, Scan));
    esc + ErrorIf(s, Scan)
  }

  /** The effects of a completed bill in ACCEPT: release ACK and REJ in
      escrow mode, report the bill, report a full stack, drive INH L. */
  function AcceptComplete(s: Scanner, pins: UInt8): (r: seq<Effect>)
    ensures NoReschedule(r) && Reports(r) == Reports(ReportIf(s, pins))
    ensures !s.escrow ==> r == ReportIf(s, pins) + (if Stkf(pins) then ErrorIf(s, Full) else []) + [DriveInh(false)]
  {
    var esc: seq<Effect> := if s.escrow then [DriveAck(false), DriveRej(false)] else [];
    var full := if Stkf(pins) then ErrorIf(s, Full) else [];
    ReportAmong(esc, ReportIf(s, pins), full, [DriveInh(false)]);
    assert !s.escrow ==> esc + ReportIf(s, pins) == ReportIf(s, pins);
    esc + ReportIf(s, pins) + full + [DriveInh(false)]
  }

  /** Effects that report nothing, around ones that may report. */
  lemma ReportAmong(a: seq<Effect>, m: seq<Effect>, b: seq<Effect>, c: seq<Effect>)
    requires NoReschedule(a) && NoReschedule(m) && NoReschedule(b) && NoReschedule(c)
    requires Reports(a) == [] && Reports(b) == [] && Reports(c) == []
    ensures NoReschedule(a + m + b + c) && Reports(a + m + b + c) == Reports(m)
  {
    ReportsAppend(a + m + b, c);
    ReportsAppend(a + m, b);
    ReportsAppend(a, m);
    NoRescheduleAppend(a, m);
    NoRescheduleAppend(a + m, b);
    NoRescheduleAppend(a + m + b, c);
  }

  /** ACCEPT: ABN aborts with a scan error; STKF H or BUSY L completes the
      bill: report, then the full-stack error, then INH L. */
  function EvalAccept(s: Scanner, pins: UInt8): (r: (Scanner, seq<Effect>))
    requires s.state == Accept
    ensures Respects(s, pins, r)
    ensures Abn(pins) ==> r == (s.(state := End), AcceptAbort(s))
    ensures !Abn(pins) && (Stkf(pins) || !Busy(pins)) ==> r == (s.(state := End), AcceptComplete(s, pins))
    ensures !(Abn(pins) || Stkf(pins) || !Busy(pins)) ==> r == (s, [])
    ensures Reports(r.1) == if !Abn(pins) && (Stkf(pins) || !Busy(pins)) then Reports(ReportIf(s, pins)) else []
  {
    if Abn(pins) then (s.(state := End), AcceptAbort(s))
    else if Stkf(pins) || !Busy(pins) then (s.(state := End), AcceptComplete(s, pins))
    else (s, [])
  }

  /** END: the stored VEND bits are cleared; BUSY L returns to IDLE with INH
      driven L. */
  function EvalEnd(s: Scanner, pins: UInt8): (r: (Scanner, seq<Effect>))
    requires s.state == End
    ensures Respects(s, pins, r)
    ensures r.0.vend == 0
    ensures !Busy(pins) ==> r.0.state == Idle && r.1 == [DriveInh(false)]
    ensures Busy(pins) ==> r.0.state == End && r.1 == []
    ensures Reports(r.1) == []
  {
    if !Busy(pins) then (s.(state := Idle, vend := 0), [DriveInh(false)])
    else (s.(vend := 0), [])
  }

  /** The state switch of the poll handler, run on freshly captured pins. */
  function Evaluate(s: Scanner, pins: UInt8): (r: (Scanner, seq<Effect>))
    ensures Respects(s, pins, r)
    ensures Reports(r.1) == if s.state == Accept && !Abn(pins) && (Stkf(pins) || !Busy(pins)) then Reports(ReportIf(s, pins)) else []
  {
    match s.state
    case Uninitialized | SelfTest => EvalSelfTest(s, pins)
    case Idle => EvalIdle(s, pins)
    case Validation => EvalValidation(s, pins)
    case Accept => EvalAccept(s, pins)
    case End => EvalEnd(s, pins)
  }

  /** One poll: capture the pins, evaluate the switch if they changed or the
      state is unknown, and reschedule. */
  function Poll(s: Scanner, pins: UInt8): (r: (Scanner, seq<Effect>))
    ensures r.0.input == pins
    ensures |r.1| >= 1 && r.1[|r.1| - 1] == Reschedule(BILL_POLL_TIME)
    ensures forall k | 0 <= k < |r.1| - 1 :: !r.1[k].Reschedule?
    ensures pins == s.input && s.state != Uninitialized ==> r == (s, [Reschedule(BILL_POLL_TIME)])
    ensures r.0.inhibit == s.inhibit && r.0.escrow == s.escrow
    ensures r.0.hasReport == s.hasReport && r.0.hasError == s.hasError
    ensures r.0.state != Uninitialized
    ensures r.0.vend == s.vend || r.0.vend == 0 || r.0.vend == VendBits(pins)
    ensures !s.escrow ==> NoAckRej(r.1)
  {
    if pins != s.input || s.state == Uninitialized then
      var e := Evaluate(s.(input := pins), pins);
      ThenReschedule(e.1);
      (e.0, e.1 + [Reschedule(BILL_POLL_TIME)])
    else (s, [Reschedule(BILL_POLL_TIME)])
  }

  /** Appending the reschedule keeps ACK and REJ untouched and makes it the
      only reschedule. */
  lemma ThenReschedule(e: seq<Effect>)
    requires forall k | 0 <= k < |e| :: !e[k].Reschedule?
    ensures var t := e + [Reschedule(BILL_POLL_TIME)];
            && (forall k | 0 <= k < |t| - 1 :: !t[k].Reschedule?)
            && (NoAckRej(e) ==> NoAckRej(t))
  {
  }

  /** `bill_init`: if the event pool could be set up (`poolReady`), a
      scanner in the unknown-pins state with inhibit, escrow and vend
      cleared and the report and error callbacks stored, ACK and REJ
      driven H, INH driven L and the first poll scheduled; otherwise
      nothing.  The pin cache is not captured by the
      code, so it holds whatever `stale` value was left in memory. */
  function Init(poolReady: bool, hasReport: bool, hasError: bool, stale: UInt8): (r: (Option<Scanner>, seq<Effect>))
    ensures !poolReady ==> r == (None, [])
    ensures poolReady ==> r.0.Some? && r.0.value.state == Uninitialized
    ensures poolReady ==> !r.0.value.inhibit && !r.0.value.escrow && r.0.value.vend == 0
    ensures poolReady ==> r.0.value.hasReport == hasReport && r.0.value.hasError == hasError
    ensures poolReady ==> r.0.value.input == stale
    ensures poolReady ==> r.1 == [DriveAck(true), DriveRej(true), DriveInh(false), Reschedule(BILL_POLL_TIME)]
  {
    if poolReady then
      (Some(Scanner(Uninitialized, stale, false, false, 0, hasReport, hasError)),
       [DriveAck(true), DriveRej(true), DriveInh(false), Reschedule(BILL_POLL_TIME)])
    else (None, [])
  }

  /** `bill_inhibit`: set the flag and drive INH to match. */
  function Inhibit(s: Scanner, inhibit: bool): (r: (Scanner, seq<Effect>))
    ensures r.0.inhibit == inhibit && r.1 == [DriveInh(inhibit)]
    ensures r.0 == s.(inhibit := inhibit)
  {
    (s.(inhibit := inhibit), [DriveInh(inhibit)])
  }

  /** `bill_escrow`: its body is commented out, so it changes nothing. */
  function Escrow(s: Scanner, escrow: bool): (r: (Scanner, seq<Effect>))
    ensures r == (s, [])
  {
    (s, [])
  }

  /** `bill_state`. */
  function GetState(s: Scanner): (r: State)
    ensures r == s.state
  {
    s.state
  }

  /** The first poll after `Init` always evaluates, whatever the stale pin
      cache holds: a passing self-test pattern goes straight to IDLE, any
      other pattern drives INH high and enters SELFTEST. */
  lemma FirstPollEvaluates(hasReport: bool, hasError: bool, stale: UInt8, pins: UInt8)
    ensures var s := Init(true, hasReport, hasError, stale).0.value;
            var r := Poll(s, pins);
            && (SelfTestPassed(pins) ==> r == (s.(input := pins, state := Idle), [Reschedule(BILL_POLL_TIME)]))
            && (!SelfTestPassed(pins) ==> r == (s.(input := pins, state := SelfTest), [DriveInh(true), Reschedule(BILL_POLL_TIME)]))
  {
    var s := Init(true, hasReport, hasError, stale).0.value;
    var e := EvalSelfTest(s.(input := pins), pins);
    assert Evaluate(s.(input := pins), pins) == e;
    assert Poll(s, pins) == (e.0, e.1 + [Reschedule(BILL_POLL_TIME)]);
    if SelfTestPassed(pins) {
      assert e.0 == s.(input := pins, state := Idle);
      assert e.1 == [];
      assert e.1 + [Reschedule(BILL_POLL_TIME)] == [Reschedule(BILL_POLL_TIME)];
    } else {
      assert e.0 == s.(input := pins, state := SelfTest);
      assert e.1 == [DriveInh(true)];
      assert e.1 + [Reschedule(BILL_POLL_TIME)] == [DriveInh(true), Reschedule(BILL_POLL_TIME)];
    }
  }

  /** In SELFTEST only the passing pattern moves on (to IDLE), silently. */
  lemma SelfTestWaits(s: Scanner, pins: UInt8)
    requires s.state == SelfTest && pins != s.input
    ensures var r := Poll(s, pins);
            && r.1 == [Reschedule(BILL_POLL_TIME)]
            && r.0.state == (if SelfTestPassed(pins) then Idle else SelfTest)
  {
  }

  /** IDLE moves to VALIDATION exactly when a changed pin byte shows BUSY H
      and ABN L and the scanner is not inhibited; nothing is emitted. */
  lemma IdleStartsScan(s: Scanner, pins: UInt8)
    requires s.state == Idle && pins != s.input
    ensures var r := Poll(s, pins);
            && r.1 == [Reschedule(BILL_POLL_TIME)]
            && (r.0.state == Validation <==> Busy(pins) && !Abn(pins) && !s.inhibit)
            && (r.0.state != Validation ==> r.0.state == Idle)
  {
  }

  /** An inhibited scanner never leaves IDLE. */
  lemma InhibitHoldsIdle(s: Scanner, pins: UInt8)
    requires s.state == Idle && s.inhibit
    ensures Poll(s, pins).0.state == Idle
  {
  }

  /** In VALIDATION, ABN raises exactly one scan error (if an error callback
      is registered) and ends the scan; otherwise VALID L stores the VEND
      bits and moves to ACCEPT. */
  lemma ValidationStep(s: Scanner, pins: UInt8)
    requires s.state == Validation && pins != s.input && !s.escrow
    ensures var r := Poll(s, pins);
            && (Abn(pins) ==> r.0.state == End && r.1 == ErrorIf(s, Scan) + [Reschedule(BILL_POLL_TIME)])
            && (!Abn(pins) && !Valid(pins) ==>
                  r.0.state == Accept && r.0.vend == VendBits(pins) && r.1 == [Reschedule(BILL_POLL_TIME)])
            && (!Abn(pins) && Valid(pins) ==> r.0.state == Validation && r.0.vend == s.vend)
  {
  }

  /** Completion in ACCEPT (ABN L, and STKF H or BUSY L, escrow off): the
      report callback fires with the first matching denomination (if any and
      if registered), then the full-stack error if STKF is H, then INH is
      driven L, and the state becomes END. */
  lemma AcceptReportsThenErrors(s: Scanner, pins: UInt8)
    requires s.state == Accept && pins != s.input && !s.escrow
    requires !Abn(pins) && (Stkf(pins) || !Busy(pins))
    ensures var r := Poll(s, pins);
            && r.0.state == End
            && r.1 == ReportIf(s, pins) + (if Stkf(pins) then ErrorIf(s, Full) else [])
                      + [DriveInh(false), Reschedule(BILL_POLL_TIME)]
            && Reports(r.1) == (if s.hasReport && Lookup(VendBits(pins)).Some? then [Lookup(VendBits(pins)).value] else [])
  {
    var s' := s.(input := pins);
    var body := ReportIf(s, pins) + (if Stkf(pins) then ErrorIf(s, Full) else []);
    assert ReportIf(s', pins) == ReportIf(s, pins) && ErrorIf(s', Full) == ErrorIf(s, Full);
    assert Evaluate(s', pins) == EvalAccept(s', pins);
    assert AcceptComplete(s', pins) == body + [DriveInh(false)];
    assert Poll(s, pins).1 == body + [DriveInh(false)] + [Reschedule(BILL_POLL_TIME)];
    assert body + [DriveInh(false)] + [Reschedule(BILL_POLL_TIME)] == body + [DriveInh(false), Reschedule(BILL_POLL_TIME)];
    PollReports(s, pins);
  }

  /** ABN in ACCEPT aborts: a scan error (if registered), END, and no
      report. */
  lemma AcceptAborts(s: Scanner, pins: UInt8)
    requires s.state == Accept && pins != s.input && !s.escrow && Abn(pins)
    ensures var r := Poll(s, pins);
            r.0.state == End && r.1 == ErrorIf(s, Scan) + [Reschedule(BILL_POLL_TIME)] && Reports(r.1) == []
  {
  }

  /** Every evaluated poll in END clears the stored VEND bits; END returns to
      IDLE, driving INH L, exactly when BUSY is L. */
  lemma EndResets(s: Scanner, pins: UInt8)
    requires s.state == End && pins != s.input
    ensures var r := Poll(s, pins);
            && r.0.vend == 0
            && (!Busy(pins) ==> r.0.state == Idle && r.1 == [DriveInh(false), Reschedule(BILL_POLL_TIME)])
            && (Busy(pins) ==> r.0.state == End && r.1 == [Reschedule(BILL_POLL_TIME)])
  {
  }

  /** The banknotes a poll reports: the first table match of the VEND bits,
      once, when a changed pin byte completes a bill in ACCEPT and a report
      callback is registered; nothing otherwise. */
  lemma PollReports(s: Scanner, pins: UInt8)
    ensures var r := Poll(s, pins);
            Reports(r.1) ==
              if s.state == Accept && pins != s.input && !Abn(pins) && (Stkf(pins) || !Busy(pins))
                 && s.hasReport && Lookup(VendBits(pins)).Some?
              then [Lookup(VendBits(pins)).value] else []
  {
    var r := Poll(s, pins);
    if pins != s.input || s.state == Uninitialized {
      var e := Evaluate(s.(input := pins), pins);
      ReportsAppend(e.1, [Reschedule(BILL_POLL_TIME)]);
    }
  }

  /** A poll reports at most one banknote, and only on the step from ACCEPT
      to END, with a registered report callback. */
  lemma AtMostOneReport(s: Scanner, pins: UInt8)
    ensures var r := Poll(s, pins);
            && |Reports(r.1)| <= 1
            && (|Reports(r.1)| == 1 ==> s.state == Accept && r.0.state == End && s.hasReport)
  {
    PollReports(s, pins);
  }

  /** The operations a client performs on the driver after `bill_init`. */
  datatype Command = PollCmd(pins: UInt8) | InhibitCmd(inhibit: bool) | EscrowCmd(escrow: bool)

  /** Runs the commands in order, concatenating their effects. */
  function Run(s: Scanner, cmds: seq<Command>): (r: (Scanner, seq<Effect>))
    decreases |cmds|
  {
    if |cmds| == 0 then (s, [])
    else
      var step := match cmds[0]
        case PollCmd(p) => Poll(s, p)
        case InhibitCmd(b) => Inhibit(s, b)
        case EscrowCmd(b) => Escrow(s, b);
      var rest := Run(step.0, cmds[1..]);
      (rest.0, step.1 + rest.1)
  }

  /** No port write is to ACK or REJ. */
  predicate NoAckRej(e: seq<Effect>) {
    forall k | 0 <= k < |e| :: !e[k].DriveAck? && !e[k].DriveRej?
  }

  lemma NoAckRejAppend(a: seq<Effect>, b: seq<Effect>)
    requires NoAckRej(a) && NoAckRej(b)
    ensures NoAckRej(a + b)
  {
    assert forall k | |a| <= k < |a + b| :: (a + b)[k] == b[k - |a|];
  }

  /** Stored VEND bits only ever hold VEND bits. */
  predicate VendMasked(s: Scanner) {
    s.vend % 32 == 0
  }

  /** Since `bill_escrow` does nothing, escrow stays off from `bill_init`
      on, and no sequence of polls, inhibits and escrow requests ever drives
      ACK or REJ again; the stored VEND bits stay within bits 7..5. */
  lemma {:induction false} EscrowStaysOff(s: Scanner, cmds: seq<Command>)
    requires !s.escrow && VendMasked(s)
    ensures !Run(s, cmds).0.escrow
    ensures VendMasked(Run(s, cmds).0)
    ensures NoAckRej(Run(s, cmds).1)
    decreases |cmds|
  {
    if |cmds| > 0 {
      var step := match cmds[0]
        case PollCmd(p) => Poll(s, p)
        case InhibitCmd(b) => Inhibit(s, b)
        case EscrowCmd(b) => Escrow(s, b);
      assert NoAckRej(step.1);
      EscrowStaysOff(step.0, cmds[1..]);
      NoAckRejAppend(step.1, Run(step.0, cmds[1..]).1);
    }
  }

  /** A whole banknote from IDLE: BUSY H, then VALID L, then BUSY L (no ABN
      and no full stack at any point), then a further change with BUSY L.
      The bill is reported exactly once, with the denomination of the VEND
      bits read at the moment BUSY drops -- not the ones stored on entry to
      ACCEPT, which are never read -- and the scanner is back in IDLE with
      the stored bits cleared. */
  lemma BanknoteAccepted(s: Scanner, busy: UInt8, valid: UInt8, stacked: UInt8, released: UInt8)
    requires s.state == Idle && !s.inhibit && !s.escrow && s.hasReport
    requires busy != s.input && Busy(busy) && !Abn(busy)
    requires valid != busy && !Abn(valid) && !Valid(valid)
    requires stacked != valid && !Abn(stacked) && !Stkf(stacked) && !Busy(stacked)
    requires released != stacked && !Busy(released)
    ensures var s1 := Poll(s, busy);
            var s2 := Poll(s1.0, valid);
            var s3 := Poll(s2.0, stacked);
            var s4 := Poll(s3.0, released);
            && s1.0.state == Validation
            && s2.0.state == Accept && s2.0.vend == VendBits(valid)
            && s3.0.state == End
            && s4.0.state == Idle && s4.0.vend == 0
            && Reports(s1.1) == [] && Reports(s2.1) == [] && Reports(s4.1) == []
            && Reports(s3.1) == (if Lookup(VendBits(stacked)).Some? then [Lookup(VendBits(stacked)).value] else [])
  {
    var s1 := Poll(s, busy);
    assert s1.0.state == Validation && !s1.0.escrow && s1.0.hasReport && s1.0.input == busy
        && Reports(s1.1) == [] by {
      IdleStartsScan(s, busy);
      PollReports(s, busy);
    }
    var s2 := Poll(s1.0, valid);
    assert s2.0.state == Accept && s2.0.vend == VendBits(valid) && !s2.0.escrow && s2.0.hasReport
        && s2.0.input == valid && Reports(s2.1) == [] by {
      ValidationStep(s1.0, valid);
      PollReports(s1.0, valid);
    }
    var s3 := Poll(s2.0, stacked);
    assert s3.0.state == End && s3.0.input == stacked
        && Reports(s3.1) == (if Lookup(VendBits(stacked)).Some? then [Lookup(VendBits(stacked)).value] else []) by {
      AcceptReportsThenErrors(s2.0, stacked);
    }
    var s4 := Poll(s3.0, released);
    assert s4.0.state == Idle && s4.0.vend == 0 && Reports(s4.1) == [] by {
      EndResets(s3.0, released);
      PollReports(s3.0, released);
    }
  }

  /** The same bill with VEND 011 throughout reports 10. */
  lemma BanknoteOfTen(s: Scanner, busy: UInt8, valid: UInt8, stacked: UInt8, released: UInt8)
    requires s.state == Idle && !s.inhibit && !s.escrow && s.hasReport
    requires busy != s.input && Busy(busy) && !Abn(busy)
    requires valid != busy && !Abn(valid) && !Valid(valid)
    requires stacked != valid && !Abn(stacked) && !Stkf(stacked) && !Busy(stacked)
    requires released != stacked && !Busy(released)
    requires VendBits(valid) == 0x60 && VendBits(stacked) == 0x60
    ensures var s1 := Poll(s, busy);
            var s2 := Poll(s1.0, valid);
            var s3 := Poll(s2.0, stacked);
            Reports(s3.1) == [10] && s2.0.vend == 0x60
  {
    BanknoteAccepted(s, busy, valid, stacked, released);
    LookupEntry(0);
  }
}

=== FILE: console.dfy ===
/** The text handling of the diagnostic console: the whitespace scan, the
    tokenizer, the fixed-point decimal parser, and command lookup and
    completion over the command table.

    A buffer is the memory starting at the pointer, as a `seq<char>`; any
    index past its end reads as NUL, so a buffer without a NUL behaves like
    a terminated C string and one with an embedded NUL behaves like the
    memory behind the terminator. */
module Console {
  import opened Util
  import opened Currency

  const NUL: char := '\0'

  /** The character at index `i` of a buffer. */
  function At(buf: seq<char>, i: nat): char {
    if i < |buf| then buf[i] else NUL
  }

  /** The buffer seen from index `i` on (pointer arithmetic). */
  function Drop(buf: seq<char>, i: nat): (r: seq<char>)
    ensures forall k: nat :: At(r, k) == At(buf, i + k)
  {
    if i <= |buf| then buf[i..] else []
  }

  predicate IsWhitespace(c: char) {
    c == '\r' || c == '\n' || c == ' ' || c == '\t'
  }

  predicate IsDigit(c: char) {
    '0' <= c <= '9'
  }

  function DigitValue(c: char): (r: nat)
    requires IsDigit(c)
    ensures r < 10
  {
    c as int - '0' as int
  }

  function DigitChar(d: nat): (c: char)
    requires d < 10
    ensures IsDigit(c) && DigitValue(c) == d
  {
    ('0' as int + d) as char
  }

  // ---------------------------------------------------------------------
  // console_whitespace

  /** A character that belongs to a word. */
  predicate IsWordChar(c: char) {
    c != NUL && !IsWhitespace(c)
  }

  /** `console_whitespace` applied at `buf + pos`: the length of the word
      starting at `pos`, which ends at the first whitespace character or
      NUL, or (for a non-negative `maxlen`) after `maxlen` characters,
      whichever comes first. */
  function Scan(buf: seq<char>, pos: nat, maxlen: Int16): (ws: nat)
    ensures maxlen >= 0 ==> ws <= maxlen
    ensures Word(buf, pos, ws)
    ensures !IsWordChar(At(buf, pos + ws)) || ws == maxlen
  {
    ScanFrom(buf, pos, maxlen, 0)
  }

  function ScanFrom(buf: seq<char>, pos: nat, maxlen: Int16, ws: nat): (r: nat)
    requires maxlen >= 0 ==> ws <= maxlen
    requires forall j | pos <= j < pos + ws :: IsWordChar(At(buf, j))
    ensures ws <= r
    ensures maxlen >= 0 ==> r <= maxlen
    ensures forall j | pos <= j < pos + r :: IsWordChar(At(buf, j))
    ensures !IsWordChar(At(buf, pos + r)) || r == maxlen
    decreases |buf| - (pos + ws)
  {
    if !IsWordChar(At(buf, pos + ws)) || (maxlen >= 0 && ws >= maxlen) then ws
    else ScanFrom(buf, pos, maxlen, ws + 1)
  }

  /** `console_whitespace` on the buffer itself. */
  function Whitespace(buf: seq<char>, maxlen: Int16): (ws: nat)
    ensures ws <= |buf|
    ensures maxlen >= 0 ==> ws <= maxlen
    ensures forall j | 0 <= j < ws :: IsWordChar(At(buf, j))
    ensures !IsWordChar(At(buf, ws)) || ws == maxlen
  {
    var ws := Scan(buf, 0, maxlen);
    assert ws > |buf| ==> !IsWordChar(At(buf, |buf|));
    ws
  }

  // ---------------------------------------------------------------------
  // console_tokenize

  /** A token: its start index in the buffer and its length. */
  datatype Token = Token(start: nat, length: nat)

  /** Index just past a token. */
  function End(t: Token): nat {
    t.start + t.length
  }

  /** The `n` characters from `pos` on are word characters. */
  predicate Word(buf: seq<char>, pos: nat, n: nat) {
    forall j | pos <= j < pos + n :: IsWordChar(At(buf, j))
  }

  /** What makes `tokens` a well-formed split of `buf` from `pos` on: the
      first token starts at `pos` and consists of word characters, and the
      next one starts exactly one character after it, that character being
      whitespace or NUL. */
  predicate Split(buf: seq<char>, pos: nat, tokens: seq<Token>)
    decreases |tokens|
  {
    |tokens| == 0 ||
      (&& tokens[0].start == pos
       && Word(buf, pos, tokens[0].length)
       && (|tokens| > 1 ==>
             && !IsWordChar(At(buf, End(tokens[0])))
             && Split(buf, End(tokens[0]) + 1, tokens[1..])))
  }

  /** A token in front of a split, ended by a separator, is a split. */
  lemma SplitCons(buf: seq<char>, pos: nat, ws: nat, rest: seq<Token>)
    requires Word(buf, pos, ws)
    requires !IsWordChar(At(buf, pos + ws))
    requires Split(buf, pos + ws + 1, rest)
    ensures Split(buf, pos, [Token(pos, ws)] + rest)
  {
    assert ([Token(pos, ws)] + rest)[1..] == rest;
  }

  /** The limit left after a word of `ws` characters and its separator,
      kept in an `int16_t`. */
  function Remaining(maxlen: Int16, ws: nat): Int16 {
    Wrap16(maxlen - (ws + 1))
  }

  lemma RemainingExact(maxlen: Int16, ws: nat)
    requires maxlen - (ws + 1) >= -32768
    ensures Remaining(maxlen, ws) == maxlen - (ws + 1)
  {
  }

  /** The tokens `console_tokenize` as written finds from `pos` on with
      `maxlen` characters left.  Each token is the whitespace scan at its
      start; the scan then steps one character past the token, whether the
      character there was whitespace or the terminating NUL. */
  function TokensFrom(buf: seq<char>, pos: nat, maxlen: Int16): (r: seq<Token>)
    decreases |buf| - pos
  {
    if At(buf, pos) == NUL || maxlen == 0 then []
    else
      var ws := Scan(buf, pos, maxlen);
      if ws < Unsigned16(maxlen) then
        [Token(pos, ws)] + TokensFrom(buf, pos + ws + 1, Remaining(maxlen, ws))
      else [Token(pos, ws)]
  }

  /** Every token lies within the first `limit` characters. */
  predicate Within(tokens: seq<Token>, limit: int) {
    forall k | 0 <= k < |tokens| :: End(tokens[k]) <= limit
  }

  /** What the as-written scan finds is a split of the buffer: words
      separated by single whitespace or NUL characters, starting at `pos`
      and (for a non-negative limit) inside the limit. */
  lemma {:induction false} TokensFromSplit(buf: seq<char>, pos: nat, maxlen: Int16)
    ensures Split(buf, pos, TokensFrom(buf, pos, maxlen))
    ensures maxlen >= 0 ==> Within(TokensFrom(buf, pos, maxlen), pos + maxlen)
    decreases |buf| - pos
  {
    if At(buf, pos) == NUL || maxlen == 0 {
    } else {
      var ws := Scan(buf, pos, maxlen);
      if ws < Unsigned16(maxlen) {
        var p: nat := pos + ws + 1;
        var next := Remaining(maxlen, ws);
        var rest := TokensFrom(buf, p, next);
        TokensFromSplit(buf, p, next);
        SplitCons(buf, pos, ws, rest);
        var r := [Token(pos, ws)] + rest;
        assert TokensFrom(buf, pos, maxlen) == r;
        if maxlen >= 0 {
          RemainingExact(maxlen, ws);
          var limit := pos + maxlen;
          assert p + next == limit;
          WithinCons(Token(pos, ws), rest, limit);
        }
      }
    }
  }

  /** A token inside the limit in front of tokens inside it. */
  lemma WithinCons(t: Token, rest: seq<Token>, limit: int)
    requires End(t) <= limit && Within(rest, limit)
    ensures Within([t] + rest, limit)
  {
    var r := [t] + rest;
    assert forall k | 1 <= k < |r| :: r[k] == rest[k - 1];
  }

  /** How far the as-written scan gets.  It finds no token exactly when the
      line is empty or the limit is 0.  It goes on while words remain: the
      last token runs up to the limit, or up to a non-word character that
      is followed by the limit or by a NUL.  With a negative limit the last
      token always ends at a non-word character followed by a NUL, as long
      as the line is too short for the 16-bit limit to wrap. */
  lemma TokensFromCover(buf: seq<char>, pos: nat, maxlen: Int16)
    ensures |TokensFrom(buf, pos, maxlen)| == 0 <==> At(buf, pos) == NUL || maxlen == 0
    ensures var r := TokensFrom(buf, pos, maxlen);
            maxlen >= 0 && |r| > 0 ==>
              var e := End(r[|r| - 1]);
              || e == pos + maxlen
              || (!IsWordChar(At(buf, e)) && (e + 1 == pos + maxlen || At(buf, e + 1) == NUL))
    ensures var r := TokensFrom(buf, pos, maxlen);
            maxlen < 0 && |buf| - pos < 32768 + maxlen && |r| > 0 ==>
              var e := End(r[|r| - 1]);
              !IsWordChar(At(buf, e)) && At(buf, e + 1) == NUL
  {
    NoTokens(buf, pos, maxlen);
    if maxlen >= 0 {
      LastWithinLimit(buf, pos, maxlen);
      ExhaustedWithinLimit(buf, pos, maxlen);
    } else if |buf| - pos < 32768 + maxlen {
      LastAtSeparator(buf, pos, maxlen);
      ExhaustedAtNul(buf, pos, maxlen);
    }
  }

  /** The scan finds no token exactly on an empty line or a zero limit. */
  lemma NoTokens(buf: seq<char>, pos: nat, maxlen: Int16)
    ensures |TokensFrom(buf, pos, maxlen)| == 0 <==> At(buf, pos) == NUL || maxlen == 0
  {
  }

  /** Past the last of `tokens`, if any, nothing is left to scan: it ends
      at index `limit`, or the index after the character that ends it is
      `limit` or holds a NUL. */
  predicate Exhausted(buf: seq<char>, tokens: seq<Token>, limit: int) {
    |tokens| > 0 ==>
      var e := End(tokens[|tokens| - 1]);
      e == limit || e + 1 == limit || At(buf, e + 1) == NUL
  }

  /** Putting a token in front keeps the list exhausted, provided that
      nothing is left past it when nothing follows. */
  lemma ExhaustedCons(buf: seq<char>, t: Token, rest: seq<Token>, limit: int)
    requires |rest| == 0 ==> End(t) + 1 == limit || At(buf, End(t) + 1) == NUL
    requires Exhausted(buf, rest, limit)
    ensures Exhausted(buf, [t] + rest, limit)
  {
    var r := [t] + rest;
    assert r[|r| - 1] == if |rest| > 0 then rest[|rest| - 1] else t;
  }

  /** One token of the as-written scan that does not use up the limit and
      leaves a count the 16-bit subtraction does not wrap: the rest is
      scanned from `p`, one past the separator, with `next` characters
      left. */
  lemma TokensStep(buf: seq<char>, pos: nat, maxlen: Int16, ws: nat, p: nat, next: Int16)
    requires At(buf, pos) != NUL && maxlen != 0 && ws == Scan(buf, pos, maxlen)
    requires maxlen >= 0 ==> ws < maxlen
    requires p == pos + ws + 1 && next == maxlen - (ws + 1)
    ensures TokensFrom(buf, pos, maxlen) == [Token(pos, ws)] + TokensFrom(buf, p, next)
    ensures |TokensFrom(buf, p, next)| == 0 <==> At(buf, p) == NUL || next == 0
  {
    RemainingExact(maxlen, ws);
    assert Remaining(maxlen, ws) == next;
    assert ws < Unsigned16(maxlen);
    assert TokensFrom(buf, pos, maxlen) == [Token(pos, ws)] + TokensFrom(buf, p, Remaining(maxlen, ws));
    NoTokens(buf, p, next);
  }

  /** With a non-negative limit the scan stops only at the limit or at a
      NUL after a separator. */
  lemma {:induction false} ExhaustedWithinLimit(buf: seq<char>, pos: nat, maxlen: Int16)
    requires maxlen >= 0
    ensures Exhausted(buf, TokensFrom(buf, pos, maxlen), pos + maxlen)
    decreases |buf| - pos
  {
    if At(buf, pos) != NUL && maxlen != 0 {
      var ws := Scan(buf, pos, maxlen);
      if ws < maxlen {
        var p: nat := pos + ws + 1;
        var next: Int16 := maxlen - (ws + 1);
        TokensStep(buf, pos, maxlen, ws, p, next);
        ExhaustedWithinLimit(buf, p, next);
        var limit := pos + maxlen;
        assert p + next == limit;
        ExhaustedCons(buf, Token(pos, ws), TokensFrom(buf, p, next), limit);
      } else {
        TokensLast(buf, pos, maxlen);
      }
    }
  }

  /** With a negative limit that cannot wrap within the line, the scan
      stops only at a NUL after a separator (the limit -1 is no index). */
  lemma {:induction false} ExhaustedAtNul(buf: seq<char>, pos: nat, maxlen: Int16)
    requires maxlen < 0 && |buf| - pos < 32768 + maxlen
    ensures Exhausted(buf, TokensFrom(buf, pos, maxlen), -1)
    decreases |buf| - pos
  {
    if At(buf, pos) != NUL {
      var ws := Scan(buf, pos, maxlen);
      ScanStops(buf, pos, maxlen);
      var p: nat := pos + ws + 1;
      var next: Int16 := maxlen - (ws + 1);
      TokensStep(buf, pos, maxlen, ws, p, next);
      ExhaustedAtNul(buf, p, next);
      ExhaustedCons(buf, Token(pos, ws), TokensFrom(buf, p, next), -1);
    }
  }

  /** The last of `tokens`, if any, ends at a non-word character or at
      index `limit`. */
  predicate LastEnds(buf: seq<char>, tokens: seq<Token>, limit: int) {
    |tokens| > 0 ==>
      !IsWordChar(At(buf, End(tokens[|tokens| - 1]))) || End(tokens[|tokens| - 1]) == limit
  }

  /** Putting a token that ends at a non-word character in front keeps the
      property of the last token. */
  lemma LastEndsCons(buf: seq<char>, t: Token, rest: seq<Token>, limit: int)
    requires !IsWordChar(At(buf, End(t)))
    requires LastEnds(buf, rest, limit)
    ensures LastEnds(buf, [t] + rest, limit)
  {
    var r := [t] + rest;
    assert r[|r| - 1] == if |rest| > 0 then rest[|rest| - 1] else t;
  }

  /** A scan that stops short of its limit stops at a non-word character,
      which lies at the latest just past the end of the line. */
  lemma ScanStops(buf: seq<char>, pos: nat, maxlen: Int16)
    requires pos <= |buf|
    requires maxlen < 0 || Scan(buf, pos, maxlen) < maxlen
    ensures !IsWordChar(At(buf, pos + Scan(buf, pos, maxlen)))
    ensures Scan(buf, pos, maxlen) <= |buf| - pos
  {
    assert Scan(buf, pos, maxlen) > |buf| - pos ==> !IsWordChar(At(buf, |buf|));
  }

  /** With a non-negative limit the last token ends at a non-word
      character or exactly at the limit. */
  lemma {:induction false} LastWithinLimit(buf: seq<char>, pos: nat, maxlen: Int16)
    requires maxlen >= 0
    ensures LastEnds(buf, TokensFrom(buf, pos, maxlen), pos + maxlen)
    decreases |buf| - pos
  {
    if At(buf, pos) != NUL && maxlen != 0 {
      var ws := Scan(buf, pos, maxlen);
      if ws < maxlen {
        ScanStops(buf, pos, maxlen);
        var p: nat := pos + ws + 1;
        var next: Int16 := maxlen - (ws + 1);
        TokensStep(buf, pos, maxlen, ws, p, next);
        LastWithinLimit(buf, p, next);
        var limit := pos + maxlen;
        assert p + next == limit;
        LastEndsCons(buf, Token(pos, ws), TokensFrom(buf, p, next), limit);
      } else {
        TokensLast(buf, pos, maxlen);
      }
    }
  }

  /** With a negative limit that cannot wrap within the line, the last token
      ends at a non-word character (the limit -1 is no index). */
  lemma {:induction false} LastAtSeparator(buf: seq<char>, pos: nat, maxlen: Int16)
    requires maxlen < 0 && |buf| - pos < 32768 + maxlen
    ensures LastEnds(buf, TokensFrom(buf, pos, maxlen), -1)
    decreases |buf| - pos
  {
    if At(buf, pos) != NUL {
      var ws := Scan(buf, pos, maxlen);
      ScanStops(buf, pos, maxlen);
      var p: nat := pos + ws + 1;
      var next: Int16 := maxlen - (ws + 1);
      TokensStep(buf, pos, maxlen, ws, p, next);
      LastAtSeparator(buf, p, next);
      LastEndsCons(buf, Token(pos, ws), TokensFrom(buf, p, next), -1);
    }
  }

  /** `console_tokenize` as written: the tokens it stores into the caller's
      arrays.  The `arraylen` argument plays no part: every token found is
      stored, however many there are. */
  function TokenizeAsWritten(buf: seq<char>, maxlen: Int16, arraylen: nat): (r: seq<Token>)
    ensures |r| > 0 ==> r[0].start == 0 && At(buf, 0) != NUL
  {
    TokensFrom(buf, 0, maxlen)
  }

  /** The tokenizer as evidently intended: it stores at most `room` tokens
      and stops at the terminating NUL instead of stepping over it. */
  function TokensBounded(buf: seq<char>, pos: nat, maxlen: Int16, room: nat): (r: seq<Token>)
    ensures |r| <= room
    decreases |buf| - pos
  {
    if room == 0 || At(buf, pos) == NUL || maxlen == 0 then []
    else
      var ws := Scan(buf, pos, maxlen);
      if ws < Unsigned16(maxlen) && At(buf, pos + ws) != NUL then
        [Token(pos, ws)] + TokensBounded(buf, pos + ws + 1, Remaining(maxlen, ws), room - 1)
      else [Token(pos, ws)]
  }

  /** One step of each scan, for a word ended by a separator. */
  lemma TokensCons(buf: seq<char>, pos: nat, maxlen: Int16, room: nat)
    requires At(buf, pos) != NUL && maxlen != 0
    requires Scan(buf, pos, maxlen) < Unsigned16(maxlen)
    ensures var ws := Scan(buf, pos, maxlen);
            var next := Remaining(maxlen, ws);
            && TokensFrom(buf, pos, maxlen) == [Token(pos, ws)] + TokensFrom(buf, pos + ws + 1, next)
            && (room > 0 && At(buf, pos + ws) != NUL ==>
                  TokensBounded(buf, pos, maxlen, room) == [Token(pos, ws)] + TokensBounded(buf, pos + ws + 1, next, room - 1))
  {
  }

  /** A common first element keeps a prefix a prefix. */
  lemma PrefixCons<T>(x: T, a: seq<T>, b: seq<T>)
    requires a <= b
    ensures [x] + a <= [x] + b
  {
    assert ([x] + b)[..|a| + 1] == [x] + b[..|a|];
  }

  /** The scan goes on past a word: both scans take the same step. */
  predicate Continues(buf: seq<char>, pos: nat, maxlen: Int16, room: nat) {
    && room > 0 && At(buf, pos) != NUL && maxlen != 0
    && Scan(buf, pos, maxlen) < Unsigned16(maxlen)
    && At(buf, pos + Scan(buf, pos, maxlen)) != NUL
  }

  lemma PrefixStep(buf: seq<char>, pos: nat, maxlen: Int16, room: nat)
    requires Continues(buf, pos, maxlen, room)
    requires var ws := Scan(buf, pos, maxlen);
             TokensBounded(buf, pos + ws + 1, Remaining(maxlen, ws), room - 1) <= TokensFrom(buf, pos + ws + 1, Remaining(maxlen, ws))
    ensures TokensBounded(buf, pos, maxlen, room) <= TokensFrom(buf, pos, maxlen)
  {
    var ws := Scan(buf, pos, maxlen);
    TokensCons(buf, pos, maxlen, room);
    PrefixCons(Token(pos, ws), TokensBounded(buf, pos + ws + 1, Remaining(maxlen, ws), room - 1),
               TokensFrom(buf, pos + ws + 1, Remaining(maxlen, ws)));
  }

  lemma PrefixStop(buf: seq<char>, pos: nat, maxlen: Int16, room: nat)
    requires !Continues(buf, pos, maxlen, room)
    ensures TokensBounded(buf, pos, maxlen, room) <= TokensFrom(buf, pos, maxlen)
  {
    if room > 0 && At(buf, pos) != NUL && maxlen != 0 {
      var ws := Scan(buf, pos, maxlen);
      assert TokensBounded(buf, pos, maxlen, room) == [Token(pos, ws)];
      assert TokensFrom(buf, pos, maxlen)[0] == Token(pos, ws);
    }
  }

  /** The corrected scan finds a prefix of what the as-written one finds. */
  lemma {:induction false} TokensBoundedPrefix(buf: seq<char>, pos: nat, maxlen: Int16, room: nat)
    ensures TokensBounded(buf, pos, maxlen, room) <= TokensFrom(buf, pos, maxlen)
    decreases |buf| - pos
  {
    if Continues(buf, pos, maxlen, room) {
      var ws := Scan(buf, pos, maxlen);
      TokensBoundedPrefix(buf, pos + ws + 1, Remaining(maxlen, ws), room - 1);
      PrefixStep(buf, pos, maxlen, room);
    } else {
      PrefixStop(buf, pos, maxlen, room);
    }
  }

  /** No character from `pos` up to the end of the last token is NUL. */
  predicate BeforeNul(buf: seq<char>, pos: nat, tokens: seq<Token>) {
    |tokens| > 0 ==> forall j | pos <= j < End(tokens[|tokens| - 1]) :: At(buf, j) != NUL
  }

  lemma BeforeNulStep(buf: seq<char>, pos: nat, maxlen: Int16, room: nat)
    requires Continues(buf, pos, maxlen, room)
    requires var ws := Scan(buf, pos, maxlen);
             BeforeNul(buf, pos + ws + 1, TokensBounded(buf, pos + ws + 1, Remaining(maxlen, ws), room - 1))
    ensures BeforeNul(buf, pos, TokensBounded(buf, pos, maxlen, room))
  {
    var ws := Scan(buf, pos, maxlen);
    TokensCons(buf, pos, maxlen, room);
    var rest := TokensBounded(buf, pos + ws + 1, Remaining(maxlen, ws), room - 1);
    var r := [Token(pos, ws)] + rest;
    if |rest| > 0 {
      assert r[|r| - 1] == rest[|rest| - 1];
      forall j | pos <= j < End(r[|r| - 1])
        ensures At(buf, j) != NUL
      {
        if j < pos + ws {
          assert IsWordChar(At(buf, j));
        }
      }
    }
  }

  lemma BeforeNulStop(buf: seq<char>, pos: nat, maxlen: Int16, room: nat)
    requires !Continues(buf, pos, maxlen, room)
    ensures BeforeNul(buf, pos, TokensBounded(buf, pos, maxlen, room))
  {
    if room > 0 && At(buf, pos) != NUL && maxlen != 0 {
      var ws := Scan(buf, pos, maxlen);
      assert TokensBounded(buf, pos, maxlen, room) == [Token(pos, ws)];
      assert forall j | pos <= j < pos + ws :: IsWordChar(At(buf, j));
    }
  }

  /** The corrected scan never reads past a NUL. */
  lemma {:induction false} TokensBoundedBeforeNul(buf: seq<char>, pos: nat, maxlen: Int16, room: nat)
    ensures BeforeNul(buf, pos, TokensBounded(buf, pos, maxlen, room))
    decreases |buf| - pos
  {
    if Continues(buf, pos, maxlen, room) {
      var ws := Scan(buf, pos, maxlen);
      TokensBoundedBeforeNul(buf, pos + ws + 1, Remaining(maxlen, ws), room - 1);
      BeforeNulStep(buf, pos, maxlen, room);
    } else {
      BeforeNulStop(buf, pos, maxlen, room);
    }
  }

  /** A prefix of a split is a split. */
  lemma {:induction false} SplitPrefix(buf: seq<char>, pos: nat, r: seq<Token>, t: seq<Token>)
    requires Split(buf, pos, t) && r <= t
    ensures Split(buf, pos, r)
    decreases |r|
  {
    if |r| > 1 {
      assert r[1..] <= t[1..];
      SplitPrefix(buf, End(t[0]) + 1, r[1..], t[1..]);
    }
  }

  /** The corrected `console_tokenize`. */
  function Tokenize(buf: seq<char>, maxlen: Int16, arraylen: nat): (r: seq<Token>)
    ensures |r| <= arraylen
  {
    TokensBounded(buf, 0, maxlen, arraylen)
  }

  /** The corrected tokenizer fills at most `arraylen` entries, finds a
      prefix of the as-written tokens (so the same split of the line), and
      reads nothing past the terminating NUL. */
  lemma TokenizeSound(buf: seq<char>, maxlen: Int16, arraylen: nat)
    ensures var r := Tokenize(buf, maxlen, arraylen);
            && |r| <= arraylen
            && Split(buf, 0, r)
            && r <= TokenizeAsWritten(buf, maxlen, arraylen)
            && BeforeNul(buf, 0, r)
  {
    TokensBoundedPrefix(buf, 0, maxlen, arraylen);
    TokensBoundedBeforeNul(buf, 0, maxlen, arraylen);
    TokensFromSplit(buf, 0, maxlen);
    SplitPrefix(buf, 0, Tokenize(buf, maxlen, arraylen), TokenizeAsWritten(buf, maxlen, arraylen));
  }

  predicate NulFree(buf: seq<char>) {
    forall k | 0 <= k < |buf| :: buf[k] != NUL
  }

  lemma AgreeStep(buf: seq<char>, pos: nat, maxlen: Int16, room: nat)
    requires Continues(buf, pos, maxlen, room)
    requires |TokensFrom(buf, pos, maxlen)| <= room
    requires var ws := Scan(buf, pos, maxlen);
             var next := Remaining(maxlen, ws);
             |TokensFrom(buf, pos + ws + 1, next)| <= room - 1 ==>
               TokensBounded(buf, pos + ws + 1, next, room - 1) == TokensFrom(buf, pos + ws + 1, next)
    ensures TokensBounded(buf, pos, maxlen, room) == TokensFrom(buf, pos, maxlen)
  {
    TokensCons(buf, pos, maxlen, room);
  }

  lemma AgreeStop(buf: seq<char>, pos: nat, maxlen: Int16, room: nat)
    requires NulFree(buf)
    requires !Continues(buf, pos, maxlen, room)
    requires |TokensFrom(buf, pos, maxlen)| <= room
    ensures TokensBounded(buf, pos, maxlen, room) == TokensFrom(buf, pos, maxlen)
  {
    if room > 0 && At(buf, pos) != NUL && maxlen != 0 {
      var ws := Scan(buf, pos, maxlen);
      if ws < Unsigned16(maxlen) {
        assert At(buf, pos + ws) == NUL;
        assert pos + ws >= |buf|;
        assert At(buf, pos + ws + 1) == NUL;
        assert TokensFrom(buf, pos + ws + 1, Remaining(maxlen, ws)) == [];
        TokensCons(buf, pos, maxlen, room);
      }
    }
  }

  /** On a buffer without an embedded NUL whose tokens fit the arrays, the
      corrected scan finds exactly what the as-written one does. */
  lemma {:induction false} TokensBoundedAgree(buf: seq<char>, pos: nat, maxlen: Int16, room: nat)
    requires NulFree(buf)
    requires |TokensFrom(buf, pos, maxlen)| <= room
    ensures TokensBounded(buf, pos, maxlen, room) == TokensFrom(buf, pos, maxlen)
    decreases |buf| - pos
  {
    if Continues(buf, pos, maxlen, room) {
      var ws := Scan(buf, pos, maxlen);
      var next := Remaining(maxlen, ws);
      TokensCons(buf, pos, maxlen, room);
      assert |TokensFrom(buf, pos + ws + 1, next)| == |TokensFrom(buf, pos, maxlen)| - 1;
      TokensBoundedAgree(buf, pos + ws + 1, next, room - 1);
      AgreeStep(buf, pos, maxlen, room);
    } else {
      AgreeStop(buf, pos, maxlen, room);
    }
  }

  lemma TokenizeAgrees(buf: seq<char>, maxlen: Int16, arraylen: nat)
    requires NulFree(buf)
    requires |TokenizeAsWritten(buf, maxlen, arraylen)| <= arraylen
    ensures Tokenize(buf, maxlen, arraylen) == TokenizeAsWritten(buf, maxlen, arraylen)
  {
    TokensBoundedAgree(buf, 0, maxlen, arraylen);
  }

  /** A word of `n` characters ended by a separator, within the limit,
      scans to `n`. */
  lemma ScanIs(buf: seq<char>, pos: nat, maxlen: Int16, n: nat)
    requires Word(buf, pos, n) && !IsWordChar(At(buf, pos + n))
    requires maxlen < 0 || n <= maxlen
    ensures Scan(buf, pos, maxlen) == n
  {
  }

  /** The last token: the scan stops because the limit is used up. */
  lemma TokensLast(buf: seq<char>, pos: nat, maxlen: Int16)
    requires At(buf, pos) != NUL && maxlen != 0
    requires Scan(buf, pos, maxlen) >= Unsigned16(maxlen)
    ensures TokensFrom(buf, pos, maxlen) == [Token(pos, Scan(buf, pos, maxlen))]
  {
  }

  /** Consecutive whitespace yields an empty token between the two
      characters. */
  lemma TokenizeEmptyTokens(buf: seq<char>)
    requires |buf| == 4 && buf[0] == 'a' && buf[1] == ' ' && buf[2] == ' ' && buf[3] == 'b'
    ensures TokenizeAsWritten(buf, 4, 3) == [Token(0, 1), Token(2, 0), Token(3, 1)]
  {
    ScanIs(buf, 0, 4, 1);
    ScanIs(buf, 2, 2, 0);
    ScanIs(buf, 3, 1, 1);
    RemainingExact(4, 1);
    RemainingExact(2, 0);
    TokensLast(buf, 3, 1);
    TokensCons(buf, 2, 2, 0);
    TokensCons(buf, 0, 4, 0);
  }

  /** The help command's line "help gpio led" yields three tokens, one more
      than the two-element arrays it tokenizes into; the corrected
      tokenizer stops at two. */
  lemma TokenizeOverrunsHelpArrays()
    ensures |TokenizeAsWritten("help gpio led", 13, 2)| == 3
    ensures Tokenize("help gpio led", 13, 2) == [Token(0, 4), Token(5, 4)]
  {
    var buf := "help gpio led";
    assert Word(buf, 0, 4) && At(buf, 4) == ' ';
    assert Word(buf, 5, 4) && At(buf, 9) == ' ';
    assert Word(buf, 10, 3) && At(buf, 13) == NUL;
    ScanIs(buf, 0, 13, 4);
    ScanIs(buf, 5, 8, 4);
    ScanIs(buf, 10, 3, 3);
    RemainingExact(13, 4);
    RemainingExact(8, 4);
    TokensCons(buf, 0, 13, 2);
    TokensCons(buf, 5, 8, 1);
    TokensLast(buf, 10, 3);
  }

  /** With no length limit, the scan steps over the NUL after "ab" and
      reads "cd" from the memory behind it. */
  lemma TokenizeReadsPastNul()
    ensures TokenizeAsWritten("ab\0cd", -1, 2) == [Token(0, 2), Token(3, 2)]
    ensures Tokenize("ab\0cd", -1, 2) == [Token(0, 2)]
  {
    var buf := "ab\0cd";
    assert Word(buf, 0, 2) && At(buf, 2) == NUL;
    assert Word(buf, 3, 2) && At(buf, 5) == NUL && At(buf, 6) == NUL;
    ScanIs(buf, 0, -1, 2);
    ScanIs(buf, 3, -4, 2);
    RemainingExact(-1, 2);
    RemainingExact(-4, 2);
    TokensCons(buf, 0, -1, 2);
    TokensCons(buf, 3, -4, 0);
  }

  /** The same happens under a limit longer than the line: with 5, the
      first token leaves 2 to spend on the bytes behind the NUL. */
  lemma TokenizeReadsPastNulUnderLimit()
    ensures TokenizeAsWritten("ab\0cd", 5, 2) == [Token(0, 2), Token(3, 2)]
    ensures Tokenize("ab\0cd", 5, 2) == [Token(0, 2)]
  {
    PastNulUnderLimit("ab\0cd");
  }

  /** The steps of the example above. */
  lemma PastNulUnderLimit(buf: seq<char>)
    requires buf == "ab\0cd"
    ensures TokensFrom(buf, 0, 5) == [Token(0, 2), Token(3, 2)]
    ensures TokensBounded(buf, 0, 5, 2) == [Token(0, 2)]
  {
    assert Word(buf, 0, 2) && At(buf, 2) == NUL;
    assert Word(buf, 3, 2) && At(buf, 5) == NUL;
    ScanIs(buf, 0, 5, 2);
    ScanIs(buf, 3, 2, 2);
    RemainingExact(5, 2);
    TokensCons(buf, 0, 5, 2);
    TokensLast(buf, 3, 2);
  }

  // ---------------------------------------------------------------------
  // console_decimal24

  /** The result of a decimal parse: the integer part, the hundredths and
      the number of characters consumed. */
  datatype Decimal = Decimal(left: Int16, right: UInt8, consumed: nat)

  /** What a call of `console_decimal24` as written does: return, or spin
      forever. */
  datatype Outcome = Returns(value: Decimal) | Hangs

  /** The state in which the integer loop leaves the parse. */
  datatype Loop = Exit(v: int, i: nat) | Stop(d: Decimal) | Spin

  /** Index of the first character at or after `i` that is not a digit
      inside the length limit. */
  function DigitRun(b: seq<char>, i: nat, maxlen: int): (j: nat)
    ensures i <= j
    ensures forall m | i <= m < j :: m < maxlen && IsDigit(At(b, m))
    ensures !(j < maxlen && IsDigit(At(b, j)))
    ensures i <= maxlen ==> j <= maxlen
    decreases |b| - i
  {
    if i < maxlen && IsDigit(At(b, i)) then DigitRun(b, i + 1, maxlen) else i
  }

  /** The integer loop as written: a digit only multiplies the accumulator
      by ten and advances; any other character before the point leaves
      every variable unchanged, so the loop repeats it forever.  Starting
      from 0 the accumulator never grows, so the overflow exits are never
      taken and the loop either spins at the first non-digit or exits at
      the point or the limit. */
  function IntegerAsWritten(b: seq<char>, maxlen: Int16, negative: bool, i: nat, v: Int16): (r: Loop)
    ensures v == 0 ==>
              var j := DigitRun(b, i, maxlen);
              r == if j < maxlen && At(b, j) != '.' then Spin else Exit(0, j)
    decreases maxlen - i
  {
    if !(maxlen > i && At(b, i) != '.') then Exit(v, i)
    else if IsDigit(At(b, i)) then
      var digit := DigitValue(At(b, i));
      if v >= 3276 && negative && digit > 7 then Stop(Decimal(32767, 99, i + 1))
      else if v >= 3276 && !negative && digit > 8 then Stop(Decimal(-32768, 99, i + 1))
      else IntegerAsWritten(b, maxlen, negative, i + 1, Wrap16(v * 10))
    else Spin
  }

  /** Index after an optional '-' and then an optional '+'. */
  function SignEnd(b: seq<char>): (i: nat)
    ensures i <= 2
  {
    var i := if At(b, 0) == '-' then 1 else 0;
    if At(b, i) == '+' then i + 1 else i
  }

  /** `console_decimal24` as written. */
  function Decimal24AsWritten(buf: Option<seq<char>>, maxlen: Int16): (r: Outcome)
    ensures buf.None? || maxlen <= 0 ==> r == Returns(Decimal(0, 0, 0))
    ensures r.Returns? ==> r.value.left == 0 && r.value.right % 10 == 0
  {
    if buf.None? || maxlen <= 0 then Returns(Decimal(0, 0, 0))
    else
      var b := buf.value;
      var negative := At(b, 0) == '-';
      match IntegerAsWritten(b, maxlen, negative, SignEnd(b), 0)
      case Spin => Hangs
      case Stop(d) => Returns(d)
      case Exit(v, i) =>
        assert v == 0;
        var left := Wrap16(if negative then -v else v);
        if maxlen > i + 1 && At(b, i) == '.' then
          var i := i + 1;
          if IsDigit(At(b, i)) then
            var d := DigitValue(At(b, i)) * 10;
            var i := i + 1;
            // the second digit is looked for only where a '.' stands
            var second := if maxlen > i && At(b, i) == '.' && IsDigit(At(b, i)) then 1 else 0;
            Returns(Decimal(left, Wrap8(d + second * (At(b, i) as int - '0' as int)), i + second))
          else Returns(Decimal(left, 0, i))
        else Returns(Decimal(left, 0, i))
  }

  /** The largest magnitude of the integer part: 32767, or 32768 for a
      negative number. */
  function Limit(negative: bool): nat {
    if negative then 32768 else 32767
  }

  /** The integer loop as evidently intended: digits accumulate, a value
      beyond the limit saturates to 32767.99 (or -32768.99 for a negative
      number), and the first non-digit ends the integer part. */
  function IntegerPart(b: seq<char>, maxlen: int, negative: bool, i: nat, v: nat): (r: Loop)
    requires v <= Limit(negative)
    ensures r.Exit? ==> 0 <= r.v <= Limit(negative) && i <= r.i
    ensures r.Exit? ==> r.i == DigitRun(b, i, maxlen)
    ensures r.Stop? ==> r.d == (if negative then Decimal(-32768, 99, r.d.consumed) else Decimal(32767, 99, r.d.consumed))
    ensures r.Stop? ==> r.d.consumed <= maxlen
    ensures !r.Spin?
    decreases |b| - i
  {
    if i < maxlen && IsDigit(At(b, i)) then
      var next := v * 10 + DigitValue(At(b, i));
      if next > Limit(negative) then
        Stop(if negative then Decimal(-32768, 99, i + 1) else Decimal(32767, 99, i + 1))
      else IntegerPart(b, maxlen, negative, i + 1, next)
    else Exit(v, i)
  }

  /** The hundredths after the point: one digit counts tens, a second one
      units. */
  function Fraction(b: seq<char>, maxlen: int, i: nat): (r: (nat, nat))
    ensures r.0 <= 99 && i <= r.1 <= (if maxlen > i then maxlen else i)
  {
    if i < maxlen && At(b, i) == '.' then
      if i + 1 < maxlen && IsDigit(At(b, i + 1)) then
        var d := DigitValue(At(b, i + 1)) * 10;
        if i + 2 < maxlen && IsDigit(At(b, i + 2)) then (d + DigitValue(At(b, i + 2)), i + 3)
        else (d, i + 2)
      else (0, i + 1)
    else (0, i)
  }

  /** Index after an optional '-' and then an optional '+', inside the
      length limit. */
  function SignEndWithin(b: seq<char>, maxlen: int): (i: nat)
    requires maxlen > 0
    ensures i <= maxlen && i <= SignEnd(b)
    ensures maxlen >= 2 ==> i == SignEnd(b)
  {
    var i := if At(b, 0) == '-' then 1 else 0;
    if i < maxlen && At(b, i) == '+' then i + 1 else i
  }

  /** The decimal parser as evidently intended. */
  function Decimal24(buf: Option<seq<char>>, maxlen: Int16): (r: Decimal)
    ensures buf.None? || maxlen <= 0 ==> r == Decimal(0, 0, 0)
    ensures Valid(Currency(r.left, r.right))
    ensures r.consumed <= (if maxlen > 0 then maxlen else 0)
  {
    if buf.None? || maxlen <= 0 then Decimal(0, 0, 0)
    else
      var b := buf.value;
      var negative := At(b, 0) == '-';
      match IntegerPart(b, maxlen, negative, SignEndWithin(b, maxlen), 0)
      case Stop(d) => d
      case Exit(v, i) =>
        var f := Fraction(b, maxlen, i);
        Decimal(if negative then -v else v, f.0, f.1)
  }

  /** The value of a digit string read left to right onto `v`. */
  function Fold(v: nat, s: seq<char>): nat
    requires forall k | 0 <= k < |s| :: IsDigit(s[k])
    decreases |s|
  {
    if |s| == 0 then v else Fold(v * 10 + DigitValue(s[0]), s[1..])
  }

  /** The decimal digits of `n`, without leading zeros. */
  function Digits(n: nat): (s: seq<char>)
    ensures 1 <= |s| && forall k | 0 <= k < |s| :: IsDigit(s[k])
    ensures n < 10 ==> |s| == 1
    ensures n < 100 ==> |s| <= 2
    ensures n < 1000 ==> |s| <= 3
    ensures n < 10000 ==> |s| <= 4
    ensures n < 100000 ==> |s| <= 5
  {
    if n < 10 then [DigitChar(n)] else Digits(n / 10) + [DigitChar(n % 10)]
  }

  lemma {:induction false} FoldSnoc(v: nat, a: seq<char>, c: char)
    requires forall k | 0 <= k < |a| :: IsDigit(a[k])
    requires IsDigit(c)
    ensures forall k | 0 <= k < |a + [c]| :: IsDigit((a + [c])[k])
    ensures Fold(v, a + [c]) == Fold(v, a) * 10 + DigitValue(c)
    decreases |a|
  {
    if |a| == 0 {
      assert a + [c] == [c];
    } else {
      assert (a + [c])[1..] == a[1..] + [c];
      FoldSnoc(v * 10 + DigitValue(a[0]), a[1..], c);
    }
  }

  lemma {:induction false} FoldDigits(n: nat)
    ensures Fold(0, Digits(n)) == n
    decreases n
  {
    if n >= 10 {
      FoldDigits(n / 10);
      FoldSnoc(0, Digits(n / 10), DigitChar(n % 10));
    }
  }

  lemma {:induction false} FoldAtLeast(v: nat, s: seq<char>)
    requires forall k | 0 <= k < |s| :: IsDigit(s[k])
    ensures Fold(v, s) >= v
    decreases |s|
  {
    if |s| > 0 {
      FoldAtLeast(v * 10 + DigitValue(s[0]), s[1..]);
    }
  }

  /** The integer loop over a run of digits `s` stored at `i` ends right
      after it with the run's value, as long as that value is in range. */
  lemma {:induction false} IntegerPartOfDigits(b: seq<char>, maxlen: int, negative: bool, i: nat, v: nat, s: seq<char>)
    requires forall k | 0 <= k < |s| :: IsDigit(s[k])
    requires i + |s| <= |b| && b[i..i + |s|] == s && i + |s| <= maxlen
    requires !(i + |s| < maxlen && IsDigit(At(b, i + |s|)))
    requires v <= Limit(negative) && Fold(v, s) <= Limit(negative)
    ensures IntegerPart(b, maxlen, negative, i, v) == Exit(Fold(v, s), i + |s|)
    decreases |s|
  {
    if |s| > 0 {
      assert At(b, i) == s[0];
      var next := v * 10 + DigitValue(s[0]);
      FoldAtLeast(next, s[1..]);
      assert b[i + 1..i + |s|] == s[1..];
      IntegerPartOfDigits(b, maxlen, negative, i + 1, next, s[1..]);
    }
  }

  /** The middle part of a concatenation, and the characters on either
      side of it. */
  lemma Middle<T>(a: seq<T>, b: seq<T>, c: seq<T>)
    ensures (a + b + c)[|a|..|a| + |b|] == b
    ensures forall k | 0 <= k < |c| :: (a + b + c)[|a| + |b| + k] == c[k]
  {
  }

  /** The magnitude of an amount's base. */
  function Magnitude(c: Currency): (m: nat)
    requires Valid(c)
    ensures m <= Limit(c.base < 0)
  {
    if c.base < 0 then -(c.base as int) else c.base
  }

  /** The text of an amount: a '-' for a negative base, the digits of the
      base's magnitude, a point and two digits of hundredths. */
  function Format(c: Currency): (s: seq<char>)
    requires Valid(c)
    ensures |s| <= 9
  {
    (if c.base < 0 then "-" else "") + Digits(Magnitude(c)) + "." + [DigitChar(c.cents / 10), DigitChar(c.cents % 10)]
  }

  /** Where the parts of a formatted amount lie: the sign (if any), the
      digits from `n` on, the point and the two digits of hundredths. */
  lemma FormatParts(c: Currency)
    requires Valid(c)
    ensures var s := Format(c);
            var n := if c.base < 0 then 1 else 0;
            var ds := Digits(Magnitude(c));
            && |s| == n + |ds| + 3
            && (At(s, 0) == '-' <==> c.base < 0)
            && SignEnd(s) == n
            && s[n..n + |ds|] == ds
            && At(s, n + |ds|) == '.'
            && At(s, n + |ds| + 1) == DigitChar(c.cents / 10)
            && At(s, n + |ds| + 2) == DigitChar(c.cents % 10)
  {
    var sign: seq<char> := if c.base < 0 then "-" else "";
    var ds := Digits(Magnitude(c));
    var rest := "." + [DigitChar(c.cents / 10), DigitChar(c.cents % 10)];
    var s := Format(c);
    assert s == sign + ds + rest;
    Middle(sign, ds, rest);
    assert At(s, |sign|) == ds[0];
  }

  /** Parsing the text of any amount gives the amount back and consumes the
      whole text. */
  lemma DecimalRoundTrip(c: Currency)
    requires Valid(c)
    ensures var s := Format(c);
            Decimal24(Some(s), |s|) == Decimal(c.base, c.cents, |s|)
  {
    var s := Format(c);
    var negative := c.base < 0;
    var n := if negative then 1 else 0;
    var ds := Digits(Magnitude(c));
    FormatParts(c);
    FoldDigits(Magnitude(c));
    IntegerPartOfDigits(s, |s|, negative, n, 0, ds);
    assert Fraction(s, |s|, n + |ds|) == (c.cents, |s|);
  }

  /** The integer loop over a run of digits `s` stored at `i` whose value is
      beyond the limit saturates, after a digit of the run. */
  lemma {:induction false} IntegerPartOverflows(b: seq<char>, maxlen: int, negative: bool, i: nat, v: nat, s: seq<char>)
    requires forall k | 0 <= k < |s| :: IsDigit(s[k])
    requires i + |s| <= |b| && b[i..i + |s|] == s && i + |s| <= maxlen
    requires v <= Limit(negative) < Fold(v, s)
    ensures var r := IntegerPart(b, maxlen, negative, i, v);
            r.Stop? && i < r.d.consumed <= i + |s|
    decreases |s|
  {
    assert |s| > 0;
    assert At(b, i) == s[0];
    var next := v * 10 + DigitValue(s[0]);
    if next <= Limit(negative) {
      assert b[i + 1..i + |s|] == s[1..];
      IntegerPartOverflows(b, maxlen, negative, i + 1, next, s[1..]);
    }
  }

  /** Any number whose digits (after the sign) are worth more than the
      limit saturates to 32767.99, or to -32768.99 for a negative number,
      within those digits. */
  lemma DecimalSaturatesAll(b: seq<char>, maxlen: Int16, j: nat)
    requires maxlen >= 2 && SignEnd(b) <= j <= |b| && j <= maxlen
    requires forall k | SignEnd(b) <= k < j :: IsDigit(b[k])
    requires Fold(0, b[SignEnd(b)..j]) > Limit(At(b, 0) == '-')
    ensures var r := Decimal24(Some(b), maxlen);
            && r.left == (if At(b, 0) == '-' then -32768 else 32767)
            && r.right == 99
            && SignEnd(b) < r.consumed <= j
  {
    var i := SignEnd(b);
    var s := b[i..j];
    assert i + |s| == j && b[i..i + |s|] == s;
    assert forall k | 0 <= k < |s| :: IsDigit(s[k]);
    IntegerPartOverflows(b, maxlen, At(b, 0) == '-', i, 0, s);
  }

  /** The sign of a number below 1.00 is lost: the integer part is 0,
      which negates to itself, and the amount format has no negative value
      above -1.00. */
  lemma DecimalDropsSignBelowOne()
    ensures Decimal24(Some("-0.50"), 5) == Decimal(0, 50, 5)
    ensures Decimal24AsWritten(Some("-0.50"), 5) == Returns(Decimal(0, 50, 4))
    ensures !Representable(-50)
  {
    var b := "-0.50";
    assert SignEnd(b) == 1 && SignEndWithin(b, 5) == 1;
    assert DigitRun(b, 2, 5) == 2;
    assert IntegerAsWritten(b, 5, true, 1, 0) == Exit(0, 2);
    IntegerPartOfDigits(b, 5, true, 1, 0, "0");
    assert Fraction(b, 5, 2) == (50, 5);
  }

  /** Too large a magnitude saturates, consuming the digit that
      overflowed. */
  lemma DecimalSaturates()
    ensures Decimal24(Some("32768"), 5) == Decimal(32767, 99, 5)
  {
  }

  lemma DecimalSaturatesNegative()
    ensures Decimal24(Some("-32769"), 6) == Decimal(-32768, 99, 6)
  {
  }

  /** "12.34" as written gives 0.30 after four characters: no integer digit
      is accumulated, and the second digit after the point is compared
      against '.' rather than against the digits. */
  lemma DecimalDropsDigits()
    ensures Decimal24AsWritten(Some("12.34"), 5) == Returns(Decimal(0, 30, 4))
  {
  }

  /** The intended parser reads "12.34" as 12.34. */
  lemma DecimalReadsDigits()
    ensures Decimal24(Some("12.34"), 5) == Decimal(12, 34, 5)
  {
  }

  /** A character that is neither a digit nor the point before the limit
      stops the as-written loop from advancing: "1a" and "5" with a limit
      past its terminator never return; the intended parser stops at it. */
  lemma DecimalHangs()
    ensures Decimal24AsWritten(Some("1a"), 2) == Hangs
    ensures Decimal24AsWritten(Some("5"), 2) == Hangs
    ensures Decimal24(Some("1a"), 2) == Decimal(1, 0, 1)
  {
  }

  /** The as-written parser returns exactly when the characters from the
      sign up to the limit are digits followed by a point (or the limit). */
  lemma DecimalAsWrittenReturns(buf: seq<char>, maxlen: Int16)
    requires maxlen > 0
    ensures var j := DigitRun(buf, SignEnd(buf), maxlen);
            Decimal24AsWritten(Some(buf), maxlen).Hangs? <==> j < maxlen && At(buf, j) != '.'
  {
  }

  // ---------------------------------------------------------------------
  // Command table, console_validate, console_complete

  /** The command table in its declared order. */
  const COMMANDS: seq<string> := ["balance", "bill", "coin", "exit", "help", "gpio", "led", "reboot"]

  /** The command table in the lexicographic order its comment promises. */
  const SORTED_COMMANDS: seq<string> := ["balance", "bill", "coin", "exit", "gpio", "help", "led", "reboot"]

  /** `strncmp(a, b, n) == 0` from index `k` on. */
  predicate StrnEqualFrom(a: seq<char>, b: seq<char>, k: nat, n: nat)
    decreases n - k
  {
    k >= n || (At(a, k) == At(b, k) && (At(a, k) == NUL || StrnEqualFrom(a, b, k + 1, n)))
  }

  predicate StrnEqual(a: seq<char>, b: seq<char>, n: nat) {
    StrnEqualFrom(a, b, 0, n)
  }

  /** For a NUL-free word of `n` characters and a NUL-free name, the
      comparison succeeds exactly when the word is a prefix of the name. */
  lemma {:induction false} StrnEqualFromIsPrefix(a: seq<char>, b: seq<char>, k: nat, n: nat)
    requires k <= n <= |a| && forall j | 0 <= j < n :: At(a, j) != NUL
    requires NulFree(b)
    requires k <= |b| && b[..k] == a[..k]
    ensures StrnEqualFrom(a, b, k, n) <==> n <= |b| && a[..n] == b[..n]
    decreases n - k
  {
    if k < n {
      if k < |b| && a[k] == b[k] {
        assert a[..k + 1] == a[..k] + [a[k]];
        assert b[..k + 1] == b[..k] + [b[k]];
        StrnEqualFromIsPrefix(a, b, k + 1, n);
      } else if k < |b| {
        if n <= |b| {
          assert a[..n][k] != b[..n][k];
        }
      }
    }
  }

  lemma StrnEqualIsPrefix(a: seq<char>, b: seq<char>, n: nat)
    requires n <= |a|
    requires forall j | 0 <= j < n :: At(a, j) != NUL
    requires NulFree(b)
    ensures StrnEqual(a, b, n) <==> n <= |b| && a[..n] == b[..n]
  {
    StrnEqualFromIsPrefix(a, b, 0, n);
  }

  /** Index of the first name at or after `from` that the first `n`
      characters of `buf` match. */
  function FirstCommand(table: seq<string>, buf: seq<char>, n: nat, from: nat): (r: Option<nat>)
    ensures r.Some? ==> from <= r.value < |table| && StrnEqual(buf, table[r.value], n)
    ensures r.Some? ==> forall j | from <= j < r.value :: !StrnEqual(buf, table[j], n)
    ensures r.None? ==> forall j | from <= j < |table| :: !StrnEqual(buf, table[j], n)
    decreases |table| - from
  {
    if from >= |table| then None
    else if StrnEqual(buf, table[from], n) then Some(from)
    else FirstCommand(table, buf, n, from + 1)
  }

  /** `console_validate`: the index of the command whose handler is called
      for the line, if any.  The first word is compared against every name
      in table order; an empty first word calls nothing. */
  function Validate(table: seq<string>, buf: seq<char>, size: UInt8): (r: Option<nat>)
    ensures var ws := Whitespace(buf, size);
            && (ws == 0 ==> r.None?)
            && (r.Some? ==> r.value < |table| && StrnEqual(buf, table[r.value], ws))
            && (r.Some? ==> forall j | 0 <= j < r.value :: !StrnEqual(buf, table[j], ws))
            && (r.None? && ws > 0 ==> forall j | 0 <= j < |table| :: !StrnEqual(buf, table[j], ws))
  {
    var ws := Whitespace(buf, size);
    if ws > 0 then FirstCommand(table, buf, ws, 0) else None
  }

  /** The first word of the line (up to whitespace, NUL or `size`). */
  function FirstWord(buf: seq<char>, size: Int16): (w: seq<char>)
    ensures NulFree(w)
  {
    var ws := Whitespace(buf, size);
    assert forall k | 0 <= k < ws :: buf[..ws][k] == At(buf, k);
    buf[..ws]
  }

  predicate AllNulFree(table: seq<string>) {
    forall i | 0 <= i < |table| :: NulFree(table[i])
  }

  /** `console_validate` calls the first command in the table whose name
      begins with the first word, and none if the word is empty or begins
      no name. */
  lemma ValidateByPrefix(table: seq<string>, buf: seq<char>, size: UInt8)
    requires AllNulFree(table)
    ensures var w := FirstWord(buf, size);
            var r := Validate(table, buf, size);
            && (r.Some? <==> |w| > 0 && exists i | 0 <= i < |table| :: w <= table[i])
            && (r.Some? ==> w <= table[r.value] && forall j | 0 <= j < r.value :: !(w <= table[j]))
  {
    var ws := Whitespace(buf, size);
    var w := FirstWord(buf, size);
    forall i | 0 <= i < |table|
      ensures StrnEqual(buf, table[i], ws) <==> w <= table[i]
    {
      StrnEqualIsPrefix(buf, table[i], ws);
    }
  }

  lemma CommandTablesNulFree()
    ensures AllNulFree(COMMANDS) && AllNulFree(SORTED_COMMANDS)
  {
  }

  /** Short words dispatch to the first name they begin. */
  lemma ValidateExamples()
    ensures Validate(COMMANDS, "b 1.00", 6) == Some(0)
    ensures Validate(COMMANDS, "bi", 2) == Some(1)
    ensures Validate(COMMANDS, "h", 1) == Some(4)
    ensures Validate(COMMANDS, " help", 5) == None
    ensures Validate(COMMANDS, "x", 1) == None
  {
  }

  /** Strict lexicographic order on names. */
  predicate Less(a: seq<char>, b: seq<char>) {
    if |a| == 0 then |b| > 0
    else if |b| == 0 then false
    else if a[0] != b[0] then a[0] < b[0]
    else Less(a[1..], b[1..])
  }

  /** Every name is below the next one. */
  predicate Sorted(table: seq<string>) {
    forall i | 0 <= i < |table| - 1 :: Less(table[i], table[i + 1])
  }

  /** The declared table is out of order: "help" comes before "gpio". */
  lemma CommandsNotSorted()
    ensures !Less(COMMANDS[4], COMMANDS[5])
    ensures !Sorted(COMMANDS)
  {
    assert !Less(COMMANDS[4], COMMANDS[5]);
  }

  /** The reordered table holds the same names. */
  lemma SortedCommandsSameNames()
    ensures multiset(SORTED_COMMANDS) == multiset(COMMANDS)
  {
    assert SORTED_COMMANDS == COMMANDS[..4] + [COMMANDS[5], COMMANDS[4]] + COMMANDS[6..];
    assert COMMANDS == COMMANDS[..4] + [COMMANDS[4], COMMANDS[5]] + COMMANDS[6..];
  }

  /** The reordered table is sorted. */
  lemma SortedCommandsSorted()
    ensures Sorted(SORTED_COMMANDS)
  {
    assert Less(SORTED_COMMANDS[0], SORTED_COMMANDS[1]);
    assert Less(SORTED_COMMANDS[1], SORTED_COMMANDS[2]);
    assert Less(SORTED_COMMANDS[2], SORTED_COMMANDS[3]);
    assert Less(SORTED_COMMANDS[3], SORTED_COMMANDS[4]);
    assert Less(SORTED_COMMANDS[4], SORTED_COMMANDS[5]);
    assert Less(SORTED_COMMANDS[5], SORTED_COMMANDS[6]);
    assert Less(SORTED_COMMANDS[6], SORTED_COMMANDS[7]);
  }

  /** The order does not change which command a line calls: no non-empty
      word begins both "help" and "gpio". */
  lemma SortedTableDispatchesAlike(buf: seq<char>, size: UInt8)
    ensures var a := Validate(COMMANDS, buf, size);
            var b := Validate(SORTED_COMMANDS, buf, size);
            a.Some? == b.Some? && (a.Some? ==> COMMANDS[a.value] == SORTED_COMMANDS[b.value])
  {
    var ws := Whitespace(buf, size);
    if ws > 0 {
      assert StrnEqual(buf, "help", ws) ==> At(buf, 0) == 'h';
      assert StrnEqual(buf, "gpio", ws) ==> At(buf, 0) == 'g';
      assert forall i | 0 <= i < 8 && i != 4 && i != 5 :: COMMANDS[i] == SORTED_COMMANDS[i];
    }
  }

  /** `strncpy` of a NUL-free source into `n` characters: the source,
      truncated or padded with NUL. */
  function Strncpy(src: seq<char>, n: nat): (r: seq<char>)
    ensures |r| == n
    ensures forall k | 0 <= k < n :: r[k] == At(src, k)
  {
    seq(n, k requires 0 <= k => At(src, k))
  }

  /** `console_complete`: the first command at or after the index in
      `state` whose name begins with the line's first word.  On a match
      the rest of the name goes into the destination and 2 is returned;
      otherwise 0 and the destination is not written. */
  function Complete(table: seq<string>, buf: seq<char>, dstsize: UInt8, state: Int16): (r: (int, Option<seq<char>>))
    ensures r.0 == 2 || r.0 == 0
    ensures r.0 == 2 <==> r.1.Some?
    ensures var ws := Whitespace(buf, -1);
            r.1.Some? <==> exists i | Unsigned16(state) <= i < |table| :: StrnEqual(buf, table[i], ws)
  {
    var ws := Whitespace(buf, -1);
    match FirstCommand(table, buf, ws, Unsigned16(state))
    case None => (0, None)
    case Some(i) => (2, Some(Strncpy(Drop(table[i], ws), dstsize)))
  }

  /** Completing from the start of the table: the typed word followed by
      the completion spells the first command it begins, and the rest of
      the destination is NUL padding. */
  lemma CompleteSpellsCommand(table: seq<string>, buf: seq<char>, dstsize: UInt8)
    requires AllNulFree(table)
    ensures var w := FirstWord(buf, -1);
            var r := Complete(table, buf, dstsize, 0);
            r.1.Some? ==>
              exists i | 0 <= i < |table| ::
                && w <= table[i]
                && (forall j | 0 <= j < i :: !(w <= table[j]))
                && (|table[i]| - |w| <= dstsize ==>
                      w + r.1.value[..|table[i]| - |w|] == table[i]
                      && forall k | |table[i]| - |w| <= k < dstsize :: r.1.value[k] == NUL)
  {
    var ws := Whitespace(buf, -1);
    var w := FirstWord(buf, -1);
    var r := Complete(table, buf, dstsize, 0);
    if r.1.Some? {
      var i := FirstCommand(table, buf, ws, 0).value;
      StrnEqualIsPrefix(buf, table[i], ws);
      forall j | 0 <= j < i
        ensures !(w <= table[j])
      {
        StrnEqualIsPrefix(buf, table[j], ws);
      }
      var name := table[i];
      var rest := name[ws..];
      assert Drop(name, ws) == rest;
      if |name| - |w| <= dstsize {
        assert r.1.value[..|rest|] == rest;
        assert w + rest == name;
      }
    }
  }

  /** "he" completes to "lp", padded with NUL. */
  lemma CompleteExamples()
    ensures Complete(COMMANDS, "he", 4, 0) == (2, Some("lp\0\0"))
  {
    ScanIs("he", 0, -1, 2);
    assert FirstCommand(COMMANDS, "he", 2, 0) == Some(4);
    assert Drop("help", 2) == "lp";
    assert Strncpy("lp", 4) == "lp\0\0";
  }

  /** An empty line completes to the first name; a word that begins no
      name completes to nothing. */
  lemma CompleteEmptyAndUnknown()
    ensures Complete(COMMANDS, "", 7, 0) == (2, Some("balance"))
    ensures Complete(COMMANDS, "z", 4, 0) == (0, None)
  {
    ScanIs("", 0, -1, 0);
    assert Drop("balance", 0) == "balance";
    assert Strncpy("balance", 7) == "balance";
    ScanIs("z", 0, -1, 1);
  }
}

=== FILE: currency.dfy ===
/** The fixed-point currency type shared by the bank ledger and the console,
    its meaning as a number of hundredths, and the saturating addition and
    subtraction the header comments promise.

    A `currency_t` is a pair of a signed 16-bit `base` and an unsigned 8-bit
    `cents`.  A negative base is read as `base - cents/100` (so -10.99 is the
    pair (-10, 99)); a non-negative base as `base + cents/100`.  The range is
    therefore [-32768.99, 32767.99], and values strictly between -1.00 and
    0.00 have no representation at all. */
module Currency {
  import opened Util

  datatype Currency = Currency(base: Int16, cents: UInt8)

  /** The documented invariant: cents in [0, 99]. */
  predicate Valid(c: Currency) {
    c.cents <= 99
  }

  const MAX_CENTS: int := 3276799
  const MIN_CENTS: int := -3276899

  /** 32767.99, the overflow saturation value. */
  const MAX: Currency := Currency(32767, 99)
  /** -32768.99, the underflow saturation value. */
  const MIN: Currency := Currency(-32768, 99)
  const ZERO: Currency := Currency(0, 0)

  /** The amount a currency value denotes, in hundredths. */
  function ToCents(c: Currency): int {
    if c.base < 0 then c.base * 100 - c.cents else c.base * 100 + c.cents
  }

  /** Amounts (in hundredths) that some valid currency value denotes. */
  predicate Representable(v: int) {
    MIN_CENTS <= v <= MAX_CENTS && !(-100 < v < 0)
  }

  /** The unique valid currency value denoting `v`. */
  function FromCents(v: int): (c: Currency)
    requires Representable(v)
    ensures Valid(c)
    ensures ToCents(c) == v
  {
    if v >= 0 then Currency(v / 100, v % 100)
    else Currency(-((-v) / 100), (-v) % 100)
  }

  /** Valid values are in one-to-one correspondence with the representable
      amounts: reading a value and writing the amount back gives the value. */
  lemma FromCentsOfToCents(c: Currency)
    requires Valid(c)
    ensures Representable(ToCents(c))
    ensures FromCents(ToCents(c)) == c
  {
    var v := ToCents(c);
    if c.base >= 0 {
      assert v == c.base * 100 + c.cents;
      assert v / 100 == c.base && v % 100 == c.cents;
    } else {
      var m: int := -(c.base as int);
      assert -v == m * 100 + c.cents;
      assert (-v) / 100 == m && (-v) % 100 == c.cents;
    }
  }

  /** Two valid values denoting the same amount are equal. */
  lemma ToCentsInjective(a: Currency, b: Currency)
    requires Valid(a) && Valid(b)
    requires ToCents(a) == ToCents(b)
    ensures a == b
  {
    FromCentsOfToCents(a);
    FromCentsOfToCents(b);
  }

  /** The amount a saturating operation delivers for the exact amount `v`:
      clamped to the range, and an amount in (-1.00, 0.00), which has no
      representation, truncated toward zero to 0.00. */
  function Settle(v: int): (r: int)
    ensures Representable(r)
    ensures Representable(v) ==> r == v
    ensures v > MAX_CENTS ==> r == MAX_CENTS
    ensures v < MIN_CENTS ==> r == MIN_CENTS
    ensures -100 < v < 0 ==> r == 0
  {
    if v > MAX_CENTS then MAX_CENTS
    else if v < MIN_CENTS then MIN_CENTS
    else if -100 < v < 0 then 0
    else v
  }

  /** Saturating addition, as bank.h and the test header promise it:
      the exact sum a + b whenever it is representable, 32767.99 on overflow
      and -32768.99 on underflow. */
  function Add(a: Currency, b: Currency): (r: Currency)
    ensures Valid(r)
    ensures Representable(ToCents(a) + ToCents(b)) ==> ToCents(r) == ToCents(a) + ToCents(b)
    ensures ToCents(a) + ToCents(b) > MAX_CENTS ==> r == MAX
    ensures ToCents(a) + ToCents(b) < MIN_CENTS ==> r == MIN
  {
    FromCents(Settle(ToCents(a) + ToCents(b)))
  }

  /** Saturating subtraction: the exact difference a - b whenever it is
      representable, 32767.99 on overflow and -32768.99 on underflow. */
  function Sub(a: Currency, b: Currency): (r: Currency)
    ensures Valid(r)
    ensures Representable(ToCents(a) - ToCents(b)) ==> ToCents(r) == ToCents(a) - ToCents(b)
    ensures ToCents(a) - ToCents(b) > MAX_CENTS ==> r == MAX
    ensures ToCents(a) - ToCents(b) < MIN_CENTS ==> r == MIN
  {
    FromCents(Settle(ToCents(a) - ToCents(b)))
  }

  /** Negation, where the negated amount is representable. */
  function Negate(b: Currency): (r: Currency)
    requires Valid(b)
    requires Representable(-ToCents(b))
    ensures Valid(r) && ToCents(r) == -ToCents(b)
  {
    FromCents(-ToCents(b))
  }

  /** Subtraction is addition of the negated operand (the way the test
      program computes it), wherever the negation exists. */
  lemma SubIsAddNegated(a: Currency, b: Currency)
    requires Valid(b)
    requires Representable(-ToCents(b))
    ensures Sub(a, b) == Add(a, Negate(b))
  {
  }

  /** Addition commutes. */
  lemma AddCommutes(a: Currency, b: Currency)
    ensures Add(a, b) == Add(b, a)
  {
  }

  /** Subtracting what was added gives the original value back, as long as
      the addition did not saturate. */
  lemma SubUndoesAdd(a: Currency, b: Currency)
    requires Valid(a)
    requires Representable(ToCents(a) + ToCents(b))
    ensures Sub(Add(a, b), b) == a
  {
    FromCentsOfToCents(a);
  }

  /** Adding what was subtracted gives the original value back, as long as
      the subtraction did not saturate. */
  lemma AddUndoesSub(a: Currency, b: Currency)
    requires Valid(a)
    requires Representable(ToCents(a) - ToCents(b))
    ensures Add(Sub(a, b), b) == a
  {
    FromCentsOfToCents(a);
  }

  /** The saturation boundary at the top of the range: 32767.80 + 0.20 and
      32767.80 + 0.99 both give 32767.99. */
  lemma AddSaturatesAtTop()
    ensures Add(Currency(32767, 80), Currency(0, 20)) == MAX
    ensures Add(Currency(32767, 80), Currency(0, 99)) == MAX
    ensures Add(Currency(32767, 80), Currency(0, 19)) == MAX
  {
  }
}

=== FILE: currency_fourcase.dfy ===
/** The four-way sign-case `currency_add` and the base-negating
    `currency_sub` of the currency test program, modelled exactly as written
    (16-bit wrap of the base, 8-bit wrap of the cents), the thirteen vectors
    the program asserts, and how far the code agrees with the saturating
    addition of the `Currency` module. */
module CurrencyFourCase {
  import opened Util
  import opened Currency

  /** `currency_add` of the test program, line for line. */
  function FourCaseAdd(a: Currency, b: Currency): (r: Currency)
    ensures Valid(a) && Valid(b) ==> Valid(r)
    ensures a.base >= 0 && b.base >= 0 ==> r.base >= 0
    ensures a.base < 0 && b.base < 0 && !(a.base == -32768 && b.base == -32768) ==> r.base < 0
  {
    var sum := Wrap16(a.base + b.base);
    if a.base < 0 then
      if b.base < 0 then
        // both negative: only underflow or a cent borrow can go wrong
        if sum > 0 || (sum == -32768 && a.cents + b.cents >= 100) then MIN
        else
          var c := Wrap8(a.cents + b.cents);
          if c >= 100 then Currency(Wrap16(sum - 1), c - 100) else Currency(sum, c)
      else if b.cents > a.cents then Currency(Wrap16(sum + 1), Wrap8(-(b.cents - a.cents) + 100))
      else Currency(sum, Wrap8(a.cents - b.cents))
    else
      if b.base < 0 then
        if b.cents > a.cents then Currency(Wrap16(sum - 1), Wrap8(-(b.cents - a.cents) + 100))
        else Currency(sum, Wrap8(a.cents - b.cents))
      else
        // both non-negative: only overflow or a cent carry can go wrong
        if sum < 0 || (sum == 32767 && a.cents + b.cents >= 100) then MAX
        else
          var c := Wrap8(a.cents + b.cents);
          if c >= 100 then Currency(Wrap16(sum + 1), c - 100) else Currency(sum, c)
  }

  /** `currency_sub` of the test program: negate the base, then add.  A
      base that is its own 16-bit negation (0 or -32768) is added, not
      subtracted. */
  function FourCaseSub(a: Currency, b: Currency): (r: Currency)
    ensures Valid(a) && Valid(b) ==> Valid(r)
    ensures b.base == 0 || b.base == -32768 ==> r == FourCaseAdd(a, b)
    ensures a.base >= 0 && -32768 < b.base <= 0 ==> r.base >= 0
    ensures a.base < 0 && 0 < b.base ==> r.base < 0
  {
    FourCaseAdd(a, Currency(Wrap16(-(b.base as int)), b.cents))
  }

  /** Valid operands give a valid result: the cents stay in [0, 99]. */
  lemma FourCaseAddKeepsCents(a: Currency, b: Currency)
    requires Valid(a) && Valid(b)
    ensures Valid(FourCaseAdd(a, b))
  {
  }

  /** With both bases non-negative, a wrapped base sum or a cent carry out of
      32767 clamps to 32767.99. */
  lemma FourCaseAddClampsOverflow(a: Currency, b: Currency)
    requires Valid(a) && Valid(b)
    requires a.base >= 0 && b.base >= 0
    requires a.base + b.base > 32767 || (a.base + b.base == 32767 && a.cents + b.cents >= 100)
    ensures FourCaseAdd(a, b) == MAX
  {
  }

  /** With both bases non-negative the code computes exactly the saturating
      sum. */
  lemma FourCaseAddAgreesNonNegative(a: Currency, b: Currency)
    requires Valid(a) && Valid(b)
    requires a.base >= 0 && b.base >= 0
    ensures FourCaseAdd(a, b) == Add(a, b)
  {
    var r := FourCaseAdd(a, b);
    var v := ToCents(a) + ToCents(b);
    if a.base + b.base <= 32767 && !(a.base + b.base == 32767 && a.cents + b.cents >= 100) {
      assert Representable(v);
      assert ToCents(r) == v;
      ToCentsInjective(r, Add(a, b));
    }
  }

  /** With both bases negative the code computes exactly the saturating sum,
      except when both bases are -32768 (their sum wraps to 0). */
  lemma FourCaseAddAgreesNegative(a: Currency, b: Currency)
    requires Valid(a) && Valid(b)
    requires a.base < 0 && b.base < 0
    requires a.base + b.base != -65536
    ensures FourCaseAdd(a, b) == Add(a, b)
  {
    var r := FourCaseAdd(a, b);
    var v := ToCents(a) + ToCents(b);
    if a.base + b.base >= -32768 && !(a.base + b.base == -32768 && a.cents + b.cents >= 100) {
      assert Representable(v);
      assert ToCents(r) == v;
      ToCentsInjective(r, Add(a, b));
    }
  }

  /** With mixed signs the code computes the exact sum only when the sum keeps
      the sign the branch assumes: negative (at most -1.00) when `a` is the
      negative operand, non-negative when `b` is. */
  lemma FourCaseAddAgreesMixed(a: Currency, b: Currency)
    requires Valid(a) && Valid(b)
    requires (a.base < 0 <= b.base && ToCents(a) + ToCents(b) <= -100)
          || (b.base < 0 <= a.base && ToCents(a) + ToCents(b) >= 0)
    ensures FourCaseAdd(a, b) == Add(a, b)
  {
    var r := FourCaseAdd(a, b);
    var v := ToCents(a) + ToCents(b);
    assert Representable(v);
    assert ToCents(r) == v;
    ToCentsInjective(r, Add(a, b));
  }

  /** The thirteen vectors the test program asserts, all of which hold. */
  lemma TestVectors()
    ensures FourCaseAdd(Currency(10, 99), Currency(0, 0)) == Currency(10, 99)
    ensures FourCaseAdd(Currency(0, 0), Currency(1, 20)) == Currency(1, 20)
    ensures FourCaseAdd(Currency(10, 99), Currency(1, 20)) == Currency(12, 19)
    ensures FourCaseAdd(Currency(10, 20), Currency(1, 99)) == Currency(12, 19)
    ensures FourCaseAdd(Currency(-10, 99), Currency(1, 20)) == Currency(-9, 79)
    ensures FourCaseAdd(Currency(-10, 20), Currency(1, 99)) == Currency(-8, 21)
    ensures FourCaseAdd(Currency(10, 99), Currency(-1, 20)) == Currency(9, 79)
    ensures FourCaseAdd(Currency(10, 20), Currency(-1, 99)) == Currency(8, 21)
    ensures FourCaseAdd(Currency(-10, 99), Currency(-1, 20)) == Currency(-12, 19)
    ensures FourCaseAdd(Currency(-10, 20), Currency(-1, 99)) == Currency(-12, 19)
    ensures FourCaseAdd(Currency(20000, 10), Currency(32000, 1)) == MAX
    ensures FourCaseAdd(Currency(32767, 80), Currency(0, 19)) == MAX
    ensures FourCaseAdd(Currency(32767, 80), Currency(0, 20)) == MAX
  {
  }

  /** The same thirteen vectors hold of the saturating reference addition. */
  lemma TestVectorsOfReference()
    ensures Add(Currency(10, 99), Currency(0, 0)) == Currency(10, 99)
    ensures Add(Currency(0, 0), Currency(1, 20)) == Currency(1, 20)
    ensures Add(Currency(10, 99), Currency(1, 20)) == Currency(12, 19)
    ensures Add(Currency(10, 20), Currency(1, 99)) == Currency(12, 19)
    ensures Add(Currency(-10, 99), Currency(1, 20)) == Currency(-9, 79)
    ensures Add(Currency(-10, 20), Currency(1, 99)) == Currency(-8, 21)
    ensures Add(Currency(10, 99), Currency(-1, 20)) == Currency(9, 79)
    ensures Add(Currency(10, 20), Currency(-1, 99)) == Currency(8, 21)
    ensures Add(Currency(-10, 99), Currency(-1, 20)) == Currency(-12, 19)
    ensures Add(Currency(-10, 20), Currency(-1, 99)) == Currency(-12, 19)
    ensures Add(Currency(20000, 10), Currency(32000, 1)) == MAX
    ensures Add(Currency(32767, 80), Currency(0, 19)) == MAX
    ensures Add(Currency(32767, 80), Currency(0, 20)) == MAX
  {
  }

  /** Underflow is not caught when both bases are -32768: the base sum wraps
      to 0, which the `> 0` test misses.  -32768.50 + -32768.60 gives -1.10
      instead of -32768.99. */
  lemma FourCaseAddMissesDoubleMinimum()
    ensures FourCaseAdd(Currency(-32768, 50), Currency(-32768, 60)) == Currency(-1, 10)
    ensures Add(Currency(-32768, 50), Currency(-32768, 60)) == MIN
  {
  }

  /** A mixed-sign sum that changes sign is computed wrongly: -1.20 + 2.10
      gives 1.10 instead of 0.90, and 0.10 + -32768.20 gives 32767.90 (the
      base decrement wraps) instead of -32768.10. */
  lemma FourCaseAddMisreadsSignChange()
    ensures FourCaseAdd(Currency(-1, 20), Currency(2, 10)) == Currency(1, 10)
    ensures Add(Currency(-1, 20), Currency(2, 10)) == Currency(0, 90)
    ensures FourCaseAdd(Currency(0, 10), Currency(-32768, 20)) == Currency(32767, 90)
    ensures Add(Currency(0, 10), Currency(-32768, 20)) == Currency(-32768, 10)
  {
  }

  /** Negating only the base does not negate an amount below 1.00:
      1.00 - 0.50 gives 1.50 instead of 0.50. */
  lemma FourCaseSubIgnoresZeroBase()
    ensures FourCaseSub(Currency(1, 0), Currency(0, 50)) == Currency(1, 50)
    ensures Sub(Currency(1, 0), Currency(0, 50)) == Currency(0, 50)
  {
  }

  /** Where the base negation is exact (a non-zero base other than -32768),
      the test program's subtraction is its addition of the negated amount. */
  lemma FourCaseSubIsAddNegated(a: Currency, b: Currency)
    requires Valid(b)
    requires b.base != 0 && b.base != -32768
    ensures Representable(-ToCents(b))
    ensures FourCaseSub(a, b) == FourCaseAdd(a, Negate(b))
  {
    var n := Currency(Wrap16(-(b.base as int)), b.cents);
    assert ToCents(n) == -ToCents(b);
    FromCentsOfToCents(n);
  }
}

=== FILE: dispatch.dfy ===
/** The ring-buffer event queue of dispatch.c (the dynamically allocated
    variant, which the ring-buffer test program copies).

    The queue is one global record; the model passes it explicitly.  Event
    pointers are `Option<E>`, `None` being NULL: the queue stores whatever
    pointer it is given, and NULL is also what `dispatch_dequeue` answers for
    an empty queue.  Indices and the size are `uint8_t`. */
module Dispatch {
  import opened Util

  datatype Queue<E> = Queue(initialized: bool, size: UInt8, inn: UInt8, out: UInt8, slots: seq<Option<E>>)

  /** The shape every operation keeps: one slot per unit of size and both
      indices inside the array (or, for the zero-initialised static record,
      an empty array with both indices 0). */
  predicate WellFormed<E>(q: Queue<E>) {
    && |q.slots| == q.size
    && ((q.inn < q.size && q.out < q.size) || (q.size == 0 && q.inn == 0 && q.out == 0))
  }

  /** The index after `i`, wrapping to 0 past the last slot. */
  function Advance<E>(q: Queue<E>, i: UInt8): UInt8 {
    if i == q.size - 1 then 0 else Wrap8(i + 1)
  }

  /** The number of queued events, independently of the code's formula: the
      distance from `out` forward to `in` around the ring. */
  function Length<E>(q: Queue<E>): nat {
    if q.size == 0 then 0 else (q.inn - q.out) % q.size
  }

  /** Euclidean division is unique: a remainder in [0, n) is `x % n`. */
  lemma ModUnique(x: int, n: int, q: int, r: int)
    requires n > 0 && 0 <= r < n && x == q * n + r
    ensures x % n == r
  {
    var q' := x / n;
    var r' := x % n;
    assert x == q' * n + r';
    if q' < q {
      assert (q - q') * n == r' - r;
      MulAtLeast(q - q', n);
    } else if q' > q {
      assert (q' - q) * n == r - r';
      MulAtLeast(q' - q, n);
    }
  }

  /** `x mod n` for `x` within one period either side of [0, n). */
  lemma ModNear(x: int, n: int)
    requires n > 0 && -n <= x < 2 * n
    ensures x % n == if x < 0 then x + n else if x < n then x else x - n
  {
    if x < 0 {
      ModUnique(x, n, -1, x + n);
    } else if x < n {
      ModUnique(x, n, 0, x);
    } else {
      ModUnique(x, n, 1, x - n);
    }
  }

  lemma MulAtLeast(x: int, n: int)
    requires x >= 1 && n >= 0
    ensures x * n >= n
  {
    assert x * n == (x - 1) * n + n;
  }

  /** The length in terms of the indices, without the modulus. */
  lemma LengthCases<E>(q: Queue<E>)
    requires WellFormed(q)
    ensures Length(q) == if q.inn >= q.out then q.inn - q.out else q.inn + q.size - q.out
  {
    if q.size > 0 {
      ModNear(q.inn - q.out, q.size);
    }
  }

  /** The array index `k` places after `out` around the ring. */
  function Slot<E>(q: Queue<E>, k: nat): (r: nat)
    requires WellFormed(q) && q.size > 0 && k < q.size
    ensures r < q.size
  {
    if q.out + k < q.size then q.out + k else q.out + k - q.size
  }

  /** The queued events, oldest first. */
  function Contents<E>(q: Queue<E>): (r: seq<Option<E>>)
    requires WellFormed(q)
    ensures |r| == Length(q)
  {
    if q.size == 0 then []
    else seq(Length(q), k requires 0 <= k < Length(q) => q.slots[Slot(q, k)])
  }

  /** The queue the static record starts out as: all zero. */
  function Zero<E>(): (r: Queue<E>)
    ensures WellFormed(r) && !r.initialized && Length(r) == 0
  {
    Queue(false, 0, 0, 0, [])
  }

  /** A well-formed queue with both indices at 0 is empty. */
  lemma FreshQueue<E>(r: Queue<E>)
    requires |r.slots| == r.size && r.inn == 0 && r.out == 0
    ensures WellFormed(r) && Length(r) == 0 && Contents(r) == []
  {
  }

  /** `dispatch_init`: a no-op on an initialized queue; otherwise an empty
      queue of `size` NULL slots. */
  function Init<E>(q: Queue<E>, size: UInt8): (r: Queue<E>)
    ensures q.initialized ==> r == q
    ensures !q.initialized ==> r.initialized && r.size == size && WellFormed(r) && Contents(r) == []
    ensures !q.initialized ==> forall k | 0 <= k < |r.slots| :: r.slots[k] == None
  {
    if q.initialized then q
    else
      var r := Queue(true, size, 0, 0, seq(size, _ => None));
      FreshQueue(r);
      r
  }

  /** `dispatch_events_count`, with the code's two-case formula: the number
      of queued events, less than the size. */
  function Count<E>(q: Queue<E>): (r: UInt8)
    requires WellFormed(q)
    ensures q.size > 0 ==> r < q.size
    ensures r == |Contents(q)|
  {
    LengthCases(q);
    if q.inn >= q.out then q.inn - q.out else q.size - q.out + q.inn
  }

  /** `dispatch_dequeue`: NULL and no change on an empty queue; otherwise the
      pointer in slot `out`, with `out` advanced. */
  function Dequeue<E>(q: Queue<E>): (r: (Queue<E>, Option<E>))
    requires WellFormed(q)
    ensures WellFormed(r.0)
    ensures Length(q) == 0 ==> r == (q, None)
    ensures Length(q) > 0 ==> r.1 == Contents(q)[0] && Contents(r.0) == Contents(q)[1..]
    ensures r.0.size == q.size && r.0.inn == q.inn && r.0.slots == q.slots && r.0.initialized == q.initialized
  {
    LengthCases(q);
    if q.inn == q.out then (q, None)
    else
      DequeueShift(q);
      (q.(out := Advance(q, q.out)), q.slots[q.out])
  }

  /** Advancing `out` drops the oldest event and keeps the rest in order. */
  lemma DequeueShift<E>(q: Queue<E>)
    requires WellFormed(q) && q.inn != q.out
    ensures q.size > 0 && q.out < q.size
    ensures var q' := q.(out := Advance(q, q.out));
            WellFormed(q') && Length(q) > 0
            && Contents(q) == [q.slots[q.out]] + Contents(q')
  {
    var q' := q.(out := Advance(q, q.out));
    LengthCases(q);
    LengthCases(q');
    assert Length(q') == Length(q) - 1;
    var c := Contents(q);
    var c' := Contents(q');
    forall k | 0 <= k < |c'|
      ensures c'[k] == c[k + 1]
    {
      assert Slot(q', k) == Slot(q, k + 1);
    }
    assert c[0] == q.slots[q.out];
    assert c == [c[0]] + c';
  }

  /** `dispatch_enqueue`: fails, storing nothing, when advancing `in` would
      reach `out`; otherwise stores the pointer at `in` and advances it.  The
      array must exist (the source writes `events[in]` unconditionally). */
  function Enqueue<E>(q: Queue<E>, event: Option<E>): (r: (Queue<E>, bool))
    requires WellFormed(q) && q.size > 0
    ensures WellFormed(r.0)
    ensures r.1 <==> Length(q) < q.size - 1
    ensures !r.1 ==> r.0 == q
    ensures r.1 ==> Contents(r.0) == Contents(q) + [event]
    ensures r.0.size == q.size && r.0.out == q.out && r.0.initialized == q.initialized
  {
    var nextin := Advance(q, q.inn);
    EnqueueShift(q, event);
    if q.out == nextin then (q, false)
    else (q.(slots := q.slots[q.inn := event], inn := nextin), true)
  }

  /** Advancing `in` is refused exactly when the queue holds size - 1
      events, and otherwise appends the stored event. */
  lemma EnqueueShift<E>(q: Queue<E>, event: Option<E>)
    requires WellFormed(q) && q.size > 0
    ensures var q' := q.(slots := q.slots[q.inn := event], inn := Advance(q, q.inn));
            && WellFormed(q')
            && (q.out == Advance(q, q.inn) <==> Length(q) == q.size - 1)
            && (q.out != Advance(q, q.inn) ==> Contents(q') == Contents(q) + [event])
  {
    var q' := q.(slots := q.slots[q.inn := event], inn := Advance(q, q.inn));
    LengthCases(q);
    LengthCases(q');
    if q.out != Advance(q, q.inn) {
      assert Length(q') == Length(q) + 1;
      var c := Contents(q);
      var c' := Contents(q');
      forall k | 0 <= k < |c|
        ensures c'[k] == c[k]
      {
        assert Slot(q', k) == Slot(q, k) != q.inn;
      }
      assert Slot(q', |c|) == q.inn;
      assert c' == c + [event];
    }
  }

  /** The longest prefix of `s` without a NULL, unwrapped. */
  function PresentPrefix<E>(s: seq<Option<E>>): (r: seq<E>)
    ensures |r| <= |s|
    ensures forall k | 0 <= k < |r| :: s[k] == Some(r[k])
    ensures |r| < |s| ==> s[|r|] == None
  {
    if |s| == 0 || s[0].None? then [] else [s[0].value] + PresentPrefix(s[1..])
  }

  /** No NULL among the queued pointers. */
  predicate NoNull<E>(s: seq<Option<E>>) {
    forall k | 0 <= k < |s| :: s[k].Some?
  }

  /** `dispatch_shutdown`: on an initialized queue, dequeue and free events
      until the first NULL (which is also what an empty queue answers), then
      mark the queue uninitialized; the freed events are returned in the
      order they were freed.  The dequeue that answers NULL also takes a
      queued NULL off the queue, so what stays queued is whatever followed
      it.  An uninitialized queue is left alone. */
  method Shutdown<E>(q: Queue<E>) returns (r: Queue<E>, freed: seq<E>)
    requires WellFormed(q)
    ensures !q.initialized ==> r == q && freed == []
    ensures q.initialized ==> !r.initialized && WellFormed(r)
    ensures q.initialized ==> freed == PresentPrefix(Contents(q))
    ensures q.initialized ==>
              Contents(r) == if |freed| < |Contents(q)| then Contents(q)[|freed| + 1..] else []
    ensures q.initialized && NoNull(Contents(q)) ==> Length(r) == 0
  {
    if !q.initialized {
      return q, [];
    }
    var c := q;
    freed := [];
    DrainStart(q);
    while Dequeue(c).1.Some?
      invariant Draining(q, c, freed)
      decreases Length(c)
    {
      DrainAdvance(q, c, freed);
      var step := Dequeue(c);
      freed := freed + [step.1.value];
      c := step.0;
    }
    r := DrainEnd(q, c, freed);
  }

  /** The shutdown loop's invariant: `freed` is the part of the present
      prefix already taken off, and `c` holds the rest of the queue. */
  ghost predicate Draining<E>(q: Queue<E>, c: Queue<E>, freed: seq<E>)
    requires WellFormed(q)
  {
    && WellFormed(c) && c.initialized
    && PresentPrefix(Contents(q)) == freed + PresentPrefix(Contents(c))
    && (NoNull(Contents(q)) ==> NoNull(Contents(c)))
    && |freed| <= |Contents(q)| && Contents(c) == Contents(q)[|freed|..]
  }

  /** Before the loop nothing is freed and the whole queue remains. */
  lemma DrainStart<E>(q: Queue<E>)
    requires WellFormed(q) && q.initialized
    ensures Draining(q, q, [])
  {
    assert Contents(q)[0..] == Contents(q);
  }

  /** A round of the loop that frees an event keeps the invariant and
      shrinks the queue. */
  lemma DrainAdvance<E>(q: Queue<E>, c: Queue<E>, freed: seq<E>)
    requires WellFormed(q) && Draining(q, c, freed) && Dequeue(c).1.Some?
    ensures var step := Dequeue(c);
            Draining(q, step.0, freed + [step.1.value]) && Length(step.0) < Length(c)
  {
    DrainStep(c);
    var step := Dequeue(c);
    AppendAssoc(freed, [step.1.value], PresentPrefix(Contents(step.0)));
    SuffixStep(Contents(q), |freed|, Contents(c), Contents(step.0));
  }

  /** The final dequeue, which answers NULL, followed by clearing the flag. */
  function DrainEnd<E>(q: Queue<E>, c: Queue<E>, freed: seq<E>): (r: Queue<E>)
    requires WellFormed(q) && Draining(q, c, freed) && Dequeue(c).1.None?
    ensures !r.initialized && WellFormed(r)
    ensures freed == PresentPrefix(Contents(q))
    ensures Contents(r) == if |freed| < |Contents(q)| then Contents(q)[|freed| + 1..] else []
    ensures NoNull(Contents(q)) ==> Length(r) == 0
  {
    DrainStep(c);
    var last := Dequeue(c).0;
    if Length(c) > 0 then
      SuffixStep(Contents(q), |freed|, Contents(c), Contents(last));
      SameRing(last, last.(initialized := false));
      last.(initialized := false)
    else
      SameRing(last, last.(initialized := false));
      last.(initialized := false)
  }

  /** The queued events depend on the ring alone, not on the flag. */
  lemma SameRing<E>(a: Queue<E>, b: Queue<E>)
    requires WellFormed(a) && a.size == b.size && a.inn == b.inn && a.out == b.out && a.slots == b.slots
    ensures WellFormed(b) && Contents(a) == Contents(b)
  {
    if a.size > 0 {
      forall k | 0 <= k < Length(a)
        ensures Contents(a)[k] == Contents(b)[k]
      {
        assert Slot(a, k) == Slot(b, k);
      }
    }
  }

  /** Dropping the head of the suffix from `n` leaves the suffix from
      `n + 1`. */
  lemma SuffixStep<T>(s: seq<T>, n: nat, c: seq<T>, c': seq<T>)
    requires n <= |s| && c == s[n..] && |c| > 0 && c' == c[1..]
    ensures n < |s| && c' == s[n + 1..]
  {
  }

  lemma AppendAssoc<T>(a: seq<T>, b: seq<T>, c: seq<T>)
    ensures a + (b + c) == (a + b) + c
  {
  }

  /** One round of the shutdown loop: a NULL answer ends the present prefix
      (and, when no NULL is queued, means the queue is empty); an event
      answer is the head of the present prefix. */
  lemma DrainStep<E>(c: Queue<E>)
    requires WellFormed(c)
    ensures var step := Dequeue(c);
            && (step.1.None? ==> PresentPrefix(Contents(c)) == [])
            && (step.1.None? && NoNull(Contents(c)) ==> Length(c) == 0)
            && (step.1.Some? ==> Length(step.0) < Length(c))
            && (step.1.Some? ==> PresentPrefix(Contents(c)) == [step.1.value] + PresentPrefix(Contents(step.0)))
            && (step.1.Some? && NoNull(Contents(c)) ==> NoNull(Contents(step.0)))
  {
    var step := Dequeue(c);
    var cs := Contents(c);
    if step.1.Some? {
      assert step.1 == cs[0];
      assert Contents(step.0) == cs[1..];
    } else if Length(c) > 0 {
      assert cs[0].None?;
    }
  }

  /** A repeated `dispatch_init` changes nothing, whatever size it asks
      for. */
  lemma InitIdempotent<E>(q: Queue<E>, size: UInt8, size': UInt8)
    ensures Init(Init(q, size), size') == Init(q, size)
  {
  }

  /** The queue holds at most size - 1 events. */
  lemma CapacityIsSizeLessOne<E>(q: Queue<E>)
    requires WellFormed(q) && q.size > 0
    ensures |Contents(q)| <= q.size - 1
  {
  }

  /** Events leave in the order they arrived: after enqueuing `a` and then `b`
      on an empty queue with room for two, two dequeues yield `a` and then
      `b`, and the queue is empty again. */
  lemma FifoOrder<E>(q: Queue<E>, a: Option<E>, b: Option<E>)
    requires WellFormed(q) && q.size >= 3 && Length(q) == 0
    ensures var s1 := Enqueue(q, a);
            var s2 := Enqueue(s1.0, b);
            var d1 := Dequeue(s2.0);
            var d2 := Dequeue(d1.0);
            s1.1 && s2.1 && d1.1 == a && d2.1 == b && Length(d2.0) == 0
  {
    var s1 := Enqueue(q, a);
    var s2 := Enqueue(s1.0, b);
    assert Contents(s2.0) == [a, b];
    var d1 := Dequeue(s2.0);
    assert Contents(d1.0) == [b];
  }

  /** A full queue (size - 1 events) refuses every enqueue and keeps its
      contents. */
  lemma FullRefuses<E>(q: Queue<E>, e: Option<E>)
    requires WellFormed(q) && q.size > 0 && Length(q) == q.size - 1
    ensures Enqueue(q, e) == (q, false)
  {
  }
}

=== FILE: led.dfy ===
/** The LED driver: one-shot on/off/toggle actions carried by events taken
    from a memory pool, and the on/off blink cycle carried by one
    preallocated event per LED.

    The callout manager and the pool allocator are outside the model: what
    they answer (the chunk an allocation returns, whether a schedule call
    succeeds) is a parameter, and the calls the driver makes on them are
    recorded as effects.  The port bits are the `lit` sequence. */
module Led {
  import opened Util

  /** Number of LEDs. */
  const LED_MAX: nat := 3

  /** `uint16_t` tick counts. */
  type Ticks = x: int | 0 <= x < 65536

  datatype Kind = On | Off | Toggle

  /** An event object: one of the pool's chunks, or the preallocated blink
      event of an LED. */
  datatype Ref = Pooled(chunk: nat) | Static(led: nat)

  /** The fields of an event object. */
  datatype Event = Event(kind: Kind, name: nat, on: Ticks, off: Ticks, blink: bool, periodic: bool)

  /** A call the driver makes into the callout manager or the allocator. */
  datatype Effect = Schedule(ref: Ref, delay: Ticks) | Stop(ref: Ref) | Release(ref: Ref)

  /** The driver: the LED port bits, the blink events, the events living
      in pool chunks, and the events queued with the callout manager. */
  datatype Driver = Driver(lit: seq<bool>, blink: seq<Event>, pooled: map<nat, Event>, pending: set<Ref>)

  /** The result of a driver call: its return value, the new driver and
      the calls it made, in order. */
  datatype Step = Step(ok: bool, driver: Driver, effects: seq<Effect>)

  /** The driver's fixed-size parts have their declared sizes. */
  predicate WellSized(d: Driver) {
    |d.lit| == LED_MAX && |d.blink| == LED_MAX
  }

  /** An event object that exists: a blink event, or a chunk holding an
      action event. */
  predicate Live(d: Driver, r: Ref) {
    match r
    case Static(i) => i < |d.blink|
    case Pooled(c) => c in d.pooled
  }

  function Get(d: Driver, r: Ref): Event
    requires Live(d, r)
  {
    match r
    case Static(i) => d.blink[i]
    case Pooled(c) => d.pooled[c]
  }

  function Put(d: Driver, r: Ref, e: Event): (d': Driver)
    requires Live(d, r)
    ensures Live(d', r) && Get(d', r) == e
    ensures d'.lit == d.lit && d'.pending == d.pending
    ensures |d'.blink| == |d.blink| && d'.pooled.Keys == d.pooled.Keys
    ensures forall q | Live(d, q) && q != r :: Live(d', q) && Get(d', q) == Get(d, q)
  {
    match r
    case Static(i) => d.(blink := d.blink[i := e])
    case Pooled(c) => d.(pooled := d.pooled[c := e])
  }

  /** What the driver keeps true between calls:
      - each blink event is tagged with its LED and as a blink event;
      - each pool chunk holds a one-shot action for an existing LED and is
        queued, so that its callback will hand it back (no chunk leaks);
      - only existing event objects are queued. */
  predicate Inv(d: Driver) {
    && WellSized(d)
    && (forall i | 0 <= i < LED_MAX :: d.blink[i].name == i && d.blink[i].blink)
    && (forall c | c in d.pooled :: d.pooled[c].name < LED_MAX && !d.pooled[c].blink)
    && (forall c | c in d.pooled :: Pooled(c) in d.pending)
    && (forall r | r in d.pending :: Live(d, r))
  }

  /** Every chunk handed back to the allocator holds a live pool event:
      nothing else may be released. */
  predicate ReleasesPooled(d: Driver, effects: seq<Effect>) {
    forall k | 0 <= k < |effects| && effects[k].Release? ::
      effects[k].ref.Pooled? && effects[k].ref.chunk in d.pooled
  }

  // ---------------------------------------------------------------------
  // led_init

  /** `led_init`, given whether the pool could be set up.  Each blink event
      is tagged with its LED and as a blink event (its other fields are
      left as they were); a ready pool holds no events, nothing of the
      driver's is queued, and every LED is off. */
  function Init(d: Driver, ready: bool): (s: Step)
    requires WellSized(d)
    ensures s.ok == ready && s.effects == []
    ensures WellSized(s.driver)
    ensures forall i | 0 <= i < LED_MAX ::
              && s.driver.blink[i].name == i && s.driver.blink[i].blink
              && s.driver.blink[i].on == d.blink[i].on && s.driver.blink[i].off == d.blink[i].off
    ensures ready ==> Inv(s.driver) && forall i | 0 <= i < LED_MAX :: !s.driver.lit[i]
    ensures ready ==> s.driver.pooled == map[] && s.driver.pending == {}
    ensures !ready ==> s.driver.lit == d.lit
    ensures !ready ==> s.driver.pooled == d.pooled && s.driver.pending == d.pending
  {
    var blink := seq(LED_MAX, i requires 0 <= i < LED_MAX => d.blink[i].(name := i, blink := true));
    if ready then Step(true, Driver([false, false, false], blink, map[], {}), [])
    else Step(false, d.(blink := blink), [])
  }

  // ---------------------------------------------------------------------
  // The port bits

  /** The port write an event's kind makes: ON sets, OFF clears and TOGGLE
      flips the bit of the named LED; a name past the LEDs writes nothing. */
  function Apply(kind: Kind, name: nat, lit: seq<bool>): (r: seq<bool>)
    ensures |r| == |lit|
    ensures forall j | 0 <= j < |lit| && j != name :: r[j] == lit[j]
    ensures name < |lit| && kind == On ==> r[name]
    ensures name < |lit| && kind == Off ==> !r[name]
    ensures name < |lit| && kind == Toggle ==> r[name] != lit[name]
  {
    if name < |lit| then
      lit[name := match kind case On => true case Off => false case Toggle => !lit[name]]
    else lit
  }

  /** Toggling twice restores the bits; ON and OFF are idempotent. */
  lemma ApplyTwice(kind: Kind, name: nat, lit: seq<bool>)
    ensures kind == Toggle ==> Apply(kind, name, Apply(kind, name, lit)) == lit
    ensures kind != Toggle ==> Apply(kind, name, Apply(kind, name, lit)) == Apply(kind, name, lit)
  {
  }

  // ---------------------------------------------------------------------
  // led_action

  /** The one-shot event `led_action` puts in a fresh chunk.  Its times and
      periodic flag are left unset in the source; the callback never reads
      them for a one-shot event, so they are fixed at zero here. */
  function ActionEvent(led: nat, kind: Kind): Event {
    Event(kind, led, 0, 0, false, false)
  }

  /** `led_action` as written, given the chunk the allocator returns and
      whether the schedule call succeeds.  When scheduling fails the
      function returns false but keeps the chunk: nothing will ever hand it
      back. */
  function ActionAsWritten(d: Driver, led: nat, kind: Kind, chunk: Option<nat>, scheduled: bool): (s: Step)
    requires chunk.Some? ==> chunk.value !in d.pooled
    ensures led >= LED_MAX ==> s == Step(false, d, [])
    ensures chunk.None? ==> s == Step(false, d, [])
    ensures s.ok <==> led < LED_MAX && chunk.Some? && scheduled
  {
    if led >= LED_MAX then Step(false, d, [])
    else match chunk
      case None => Step(false, d, [])
      case Some(c) =>
        var d' := d.(pooled := d.pooled[c := ActionEvent(led, kind)]);
        if scheduled then Step(true, d'.(pending := d.pending + {Pooled(c)}), [Schedule(Pooled(c), 0)])
        else Step(false, d', [Schedule(Pooled(c), 0)])
  }

  /** `led_action` as evidently intended: a chunk whose event could not be
      scheduled goes back to the allocator. */
  function Action(d: Driver, led: nat, kind: Kind, chunk: Option<nat>, scheduled: bool): (s: Step)
    requires chunk.Some? ==> chunk.value !in d.pooled
    ensures led >= LED_MAX ==> s == Step(false, d, [])
    ensures chunk.None? ==> s == Step(false, d, [])
    ensures s.ok <==> led < LED_MAX && chunk.Some? && scheduled
    ensures !s.ok ==> s.driver == d
    ensures s.ok ==> s.driver.pooled == d.pooled[chunk.value := ActionEvent(led, kind)]
                     && s.driver.pending == d.pending + {Pooled(chunk.value)}
  {
    if led >= LED_MAX then Step(false, d, [])
    else match chunk
      case None => Step(false, d, [])
      case Some(c) =>
        if scheduled then
          Step(true, d.(pooled := d.pooled[c := ActionEvent(led, kind)], pending := d.pending + {Pooled(c)}),
               [Schedule(Pooled(c), 0)])
        else Step(false, d, [Schedule(Pooled(c), 0), Release(Pooled(c))])
  }

  /** Both versions agree whenever scheduling succeeds. */
  lemma ActionAgrees(d: Driver, led: nat, kind: Kind, chunk: Option<nat>)
    requires chunk.Some? ==> chunk.value !in d.pooled
    ensures ActionAsWritten(d, led, kind, chunk, true) == Action(d, led, kind, chunk, true)
  {
  }

  /** A failed schedule leaves the as-written driver holding a chunk that
      is not queued: the pool loses it for good. */
  lemma ActionAsWrittenLeaks(d: Driver, led: nat, kind: Kind, c: nat)
    requires Inv(d) && led < LED_MAX && c !in d.pooled
    ensures var s := ActionAsWritten(d, led, kind, Some(c), false);
            !s.ok && c in s.driver.pooled && Pooled(c) !in s.driver.pending && !Inv(s.driver)
  {
  }

  /** The intended `led_action` keeps the driver invariant, whatever the
      allocator and the callout manager answer. */
  lemma ActionKeepsInv(d: Driver, led: nat, kind: Kind, chunk: Option<nat>, scheduled: bool)
    requires Inv(d) && (chunk.Some? ==> chunk.value !in d.pooled)
    ensures Inv(Action(d, led, kind, chunk, scheduled).driver)
  {
    var s := Action(d, led, kind, chunk, scheduled);
    if s.ok {
      var c := chunk.value;
      forall r | r in s.driver.pending
        ensures Live(s.driver, r)
      {
        if r != Pooled(c) {
          assert Live(d, r);
        }
      }
    }
  }

  // ---------------------------------------------------------------------
  // led_blink

  /** `led_blink`: any pending blink of the LED is stopped, its blink
      event is set to turn the LED on with the new times and repeat flag,
      and it is scheduled at once; the result is whether scheduling
      succeeded. */
  function Blink(d: Driver, led: nat, ontime: Ticks, offtime: Ticks, repeat: bool, scheduled: bool): (s: Step)
    requires WellSized(d)
    ensures led >= LED_MAX ==> s == Step(false, d, [])
    ensures WellSized(s.driver)
    ensures led < LED_MAX ==>
              && s.ok == scheduled
              && s.effects == [Stop(Static(led))] + (if scheduled then [Schedule(Static(led), 0)] else [])
              && s.driver.blink[led] == d.blink[led].(kind := On, on := ontime, off := offtime, periodic := repeat)
              && (Static(led) in s.driver.pending <==> scheduled)
              && s.driver.pending - {Static(led)} == d.pending - {Static(led)}
              && s.driver.lit == d.lit && s.driver.pooled == d.pooled
              && forall i | 0 <= i < LED_MAX && i != led :: s.driver.blink[i] == d.blink[i]
  {
    if led >= LED_MAX then Step(false, d, [])
    else
      var e := d.blink[led].(kind := On, on := ontime, off := offtime, periodic := repeat);
      var stopped := d.pending - {Static(led)};
      var d' := d.(blink := d.blink[led := e], pending := if scheduled then stopped + {Static(led)} else stopped);
      Step(scheduled, d', [Stop(Static(led))] + (if scheduled then [Schedule(Static(led), 0)] else []))
  }

  lemma BlinkKeepsInv(d: Driver, led: nat, ontime: Ticks, offtime: Ticks, repeat: bool, scheduled: bool)
    requires Inv(d)
    ensures Inv(Blink(d, led, ontime, offtime, repeat, scheduled).driver)
  {
    var s := Blink(d, led, ontime, offtime, repeat, scheduled);
    if led < LED_MAX {
      forall r | r in s.driver.pending
        ensures Live(s.driver, r)
      {
        if r != Static(led) {
          assert Live(d, r);
        }
      }
    }
  }

  // ---------------------------------------------------------------------
  // led_callback

  /** What the callback does before the release at its end: the port
      write, then the blink bookkeeping.  `release` says whether control
      reaches the release. */
  datatype Handled = Handled(driver: Driver, effects: seq<Effect>, release: bool)

  /** The callback for the queued event `r`, given whether a schedule call
      it makes succeeds.  The event is no longer queued once it fires.
      - A blink event in ON turns into OFF and is scheduled after its
        on-time.
      - A blink event in any other kind turns into ON and is scheduled
        after its off-time if it is periodic.
      - A one-shot event stops the pending blink of its LED.
      Control reaches the release unless a schedule call succeeded. */
  function Handle(d: Driver, r: Ref, scheduled: bool): (h: Handled)
    requires Live(d, r)
    ensures h.driver.lit == Apply(Get(d, r).kind, Get(d, r).name, d.lit)
    ensures h.driver.pooled.Keys == d.pooled.Keys && |h.driver.blink| == |d.blink|
    ensures forall q | Live(d, q) && q != r :: Live(h.driver, q) && Get(h.driver, q) == Get(d, q)
    ensures forall k | 0 <= k < |h.effects| :: !h.effects[k].Release?
  {
    var e := Get(d, r);
    var fired := d.(lit := Apply(e.kind, e.name, d.lit), pending := d.pending - {r});
    if e.blink then
      if e.kind == On || e.periodic then
        var next := if e.kind == On then e.(kind := Off) else e.(kind := On);
        var delay := if e.kind == On then e.on else e.off;
        var d' := Put(fired, r, next);
        if scheduled then Handled(d'.(pending := d'.pending + {r}), [Schedule(r, delay)], false)
        else Handled(d', [Schedule(r, delay)], true)
      else Handled(fired, [], true)
    else Handled(fired.(pending := fired.pending - {Static(e.name)}), [Stop(Static(e.name))], true)
  }

  /** `led_callback` as written: whatever event reaches the end is handed
      to the allocator, including a blink event, which never came from the
      pool. */
  function CallbackAsWritten(d: Driver, arg: Option<Ref>, scheduled: bool): (s: Step)
    requires arg.Some? ==> Live(d, arg.value)
    ensures arg.None? ==> s == Step(true, d, [])
    ensures arg.Some? ==> (Release(arg.value) in s.effects <==> Handle(d, arg.value, scheduled).release)
  {
    match arg
    case None => Step(true, d, [])
    case Some(r) =>
      var h := Handle(d, r, scheduled);
      if !h.release then Step(true, h.driver, h.effects)
      else match r
        case Pooled(c) => Step(true, h.driver.(pooled := h.driver.pooled - {c}), h.effects + [Release(r)])
        case Static(_) => Step(true, h.driver, h.effects + [Release(r)])
  }

  /** `led_callback` as evidently intended: only a pool event is handed
      back; a blink event that is not rescheduled simply stays idle. */
  function Callback(d: Driver, arg: Option<Ref>, scheduled: bool): (s: Step)
    requires arg.Some? ==> Live(d, arg.value)
    ensures arg.None? ==> s == Step(true, d, [])
    ensures arg.Some? && arg.value.Static? ==> s.driver.pooled == d.pooled
    ensures arg.Some? && arg.value.Pooled? && Handle(d, arg.value, scheduled).release ==>
              s.driver.pooled == d.pooled - {arg.value.chunk}
    ensures arg.Some? ==> (Release(arg.value) in s.effects <==> arg.value.Pooled? && Handle(d, arg.value, scheduled).release)
    ensures ReleasesPooled(d, s.effects)
  {
    match arg
    case None => Step(true, d, [])
    case Some(r) =>
      var h := Handle(d, r, scheduled);
      match r
      case Pooled(c) =>
        if h.release then Step(true, h.driver.(pooled := h.driver.pooled - {c}), h.effects + [Release(r)])
        else Step(true, h.driver, h.effects)
      case Static(_) => Step(true, h.driver, h.effects)
  }

  /** Both versions agree on pool events, and on blink events that are
      scheduled again. */
  lemma CallbackAgrees(d: Driver, r: Ref, scheduled: bool)
    requires Live(d, r)
    requires r.Pooled? || !Handle(d, r, scheduled).release
    ensures CallbackAsWritten(d, Some(r), scheduled) == Callback(d, Some(r), scheduled)
  {
  }

  /** Under the invariant a queued pool event always reaches the release:
      one-shot events are never rescheduled. */
  lemma PooledEventReleased(d: Driver, c: nat, scheduled: bool)
    requires Inv(d) && Pooled(c) in d.pending
    ensures Handle(d, Pooled(c), scheduled).release
    ensures Callback(d, Some(Pooled(c)), scheduled).driver.pooled == d.pooled - {c}
  {
  }

  /** A one-shot blink (or a blink whose rescheduling fails) hands its
      preallocated blink event to the allocator in the as-written
      callback: the released object is not a pool chunk. */
  lemma CallbackAsWrittenReleasesBlinkEvent(d: Driver, led: nat, scheduled: bool)
    requires Inv(d) && led < LED_MAX && Static(led) in d.pending
    requires d.blink[led].kind != On && !d.blink[led].periodic
    ensures var s := CallbackAsWritten(d, Some(Static(led)), scheduled);
            Release(Static(led)) in s.effects && !ReleasesPooled(d, s.effects)
  {
    var s := CallbackAsWritten(d, Some(Static(led)), scheduled);
    assert s.effects == [Release(Static(led))];
  }

  /** The intended callback keeps the driver invariant. */
  lemma CallbackKeepsInv(d: Driver, r: Ref, scheduled: bool)
    requires Inv(d) && r in d.pending
    ensures Inv(Callback(d, Some(r), scheduled).driver)
  {
    var h := Handle(d, r, scheduled);
    var s := Callback(d, Some(r), scheduled);
    var e := Get(d, r);
    assert forall i | 0 <= i < LED_MAX :: Live(d, Static(i));
    forall i | 0 <= i < LED_MAX
      ensures s.driver.blink[i].name == i && s.driver.blink[i].blink
    {
      if r != Static(i) {
        assert Get(h.driver, Static(i)) == Get(d, Static(i));
      }
    }
    forall c | c in s.driver.pooled
      ensures s.driver.pooled[c].name < LED_MAX && !s.driver.pooled[c].blink
      ensures Pooled(c) in s.driver.pending
    {
      assert Live(d, Pooled(c)) && Pooled(c) != r;
      assert Get(h.driver, Pooled(c)) == Get(d, Pooled(c));
    }
    forall q | q in s.driver.pending
      ensures Live(s.driver, q)
    {
      if q != r {
        assert Live(d, q);
      }
    }
  }

  // ---------------------------------------------------------------------
  // Runs

  /** A periodic blink: after `led_blink` the first callback lights the LED
      and schedules the off phase after the on-time, the second darkens it
      and schedules the next on phase after the off-time, which leaves the
      blink event as `led_blink` set it. */
  lemma PeriodicBlinkCycle(d: Driver, led: nat, ontime: Ticks, offtime: Ticks)
    requires Inv(d) && led < LED_MAX
    ensures var s0 := Blink(d, led, ontime, offtime, true, true);
            var s1 := Callback(s0.driver, Some(Static(led)), true);
            var s2 := Callback(s1.driver, Some(Static(led)), true);
            && s1.driver.lit[led] && s1.effects == [Schedule(Static(led), ontime)]
            && !s2.driver.lit[led] && s2.effects == [Schedule(Static(led), offtime)]
            && s2.driver.blink[led] == s0.driver.blink[led]
            && Static(led) in s2.driver.pending
            && s2.driver.pooled == d.pooled
  {
    var s0 := Blink(d, led, ontime, offtime, true, true);
    assert s0.driver.blink[led].kind == On;
    var s1 := Callback(s0.driver, Some(Static(led)), true);
    assert s1.driver.blink[led] == s0.driver.blink[led].(kind := Off);
  }

  /** A one-shot blink: the LED is lit, then darkened after the on-time,
      and the blink event ends up neither queued nor released. */
  lemma OneShotBlink(d: Driver, led: nat, ontime: Ticks, offtime: Ticks, scheduled: bool)
    requires Inv(d) && led < LED_MAX
    ensures var s0 := Blink(d, led, ontime, offtime, false, true);
            var s1 := Callback(s0.driver, Some(Static(led)), true);
            var s2 := Callback(s1.driver, Some(Static(led)), scheduled);
            && s1.driver.lit[led] && !s2.driver.lit[led]
            && s2.effects == []
            && Static(led) !in s2.driver.pending
            && s2.driver.pooled == d.pooled
  {
    var s0 := Blink(d, led, ontime, offtime, false, true);
    var s1 := Callback(s0.driver, Some(Static(led)), true);
    assert s1.driver.blink[led] == s0.driver.blink[led].(kind := Off);
  }

  /** A one-shot action: once its callback has run, the LED's bit is
      written as the action says, any pending blink of the LED is stopped,
      and the chunk is back with the allocator. */
  lemma ActionThenCallback(d: Driver, led: nat, kind: Kind, c: nat, scheduled: bool)
    requires Inv(d) && led < LED_MAX && c !in d.pooled
    ensures var s0 := Action(d, led, kind, Some(c), true);
            var s1 := Callback(s0.driver, Some(Pooled(c)), scheduled);
            && s1.driver.lit == Apply(kind, led, d.lit)
            && s1.effects == [Stop(Static(led)), Release(Pooled(c))]
            && Static(led) !in s1.driver.pending
            && Pooled(c) !in s1.driver.pending
            && s1.driver.pooled == d.pooled
  {
    var s0 := Action(d, led, kind, Some(c), true);
    assert Get(s0.driver, Pooled(c)) == ActionEvent(led, kind);
    assert s0.driver.pooled - {c} == d.pooled;
  }
}

=== FILE: memory.dfy ===
/** The fixed-chunk pool allocator of memory.c.

    The caller's buffer starts with the manager (a single head pointer) and is
    followed by blocks of `chunksize + sizeof(void *)` bytes.  The first word
    of every block is a link to the next free block while the block is free,
    and a back-pointer to the manager while it is allocated; the pointer handed
    to the caller is one word past the block start.

    The model keeps the block words (`Link` or `Owner`) and the head, and
    names blocks by index.  The free list is described by a sequence of block
    indices `L` with `IsFreeList(p, L)`; it is passed to the lemmas as an
    argument rather than stored, and `FreeListUnique` shows it is determined
    by the pool.  Addresses are plain numbers: the manager lives at `base`,
    so a back-pointer to it is `Owner(base)`. */
module Memory {
  import opened Util

  /** `sizeof(void *)` on the AVR target. */
  const POINTER_SIZE: nat := 2
  /** `sizeof(memory_t)`: the manager holds only the head pointer. */
  const HEADER_SIZE: nat := POINTER_SIZE

  /** `MEMORY_POOL_SIZE(chunks, size)`: the buffer size for `chunks` chunks of
      `size` bytes. */
  function PoolSize(chunks: nat, size: nat): nat {
    HEADER_SIZE + chunks * (size + POINTER_SIZE)
  }

  /** The first word of a block. */
  datatype Word = Link(next: Option<nat>) | Owner(manager: nat)

  /** A pool: the address of the buffer (which is also the manager's
      address), the chunk size, the free-list head and the block words. */
  datatype Pool = Pool(base: nat, chunkSize: nat, head: Option<nat>, words: seq<Word>)

  function BlockSize(p: Pool): nat {
    p.chunkSize + POINTER_SIZE
  }

  /** Address of the first byte of block `i`. */
  function ChunkStart(p: Pool, i: nat): nat {
    p.base + HEADER_SIZE + i * BlockSize(p)
  }

  /** The pointer handed out for block `i`: one pointer width past its
      start. */
  function Pointer(p: Pool, i: nat): nat {
    ChunkStart(p, i) + POINTER_SIZE
  }

  /** The block a pointer handed out by this pool belongs to. */
  function ChunkIndex(p: Pool, a: nat): int {
    (a - p.base - HEADER_SIZE - POINTER_SIZE) / BlockSize(p)
  }

  /** `a` is a pointer this pool handed out and that has not been released:
      its block header holds the back-pointer to this manager. */
  predicate IsLivePointer(p: Pool, a: nat) {
    && a >= p.base + HEADER_SIZE + POINTER_SIZE
    && (a - p.base - HEADER_SIZE - POINTER_SIZE) % BlockSize(p) == 0
    && 0 <= ChunkIndex(p, a) < |p.words|
    && p.words[ChunkIndex(p, a)] == Owner(p.base)
  }

  /** The link stored in the `k`-th block of the list `L`: the next block,
      or NULL for the last one. */
  function NextOf(L: seq<nat>, k: nat): Option<nat>
    requires k < |L|
  {
    if k + 1 < |L| then Some(L[k + 1]) else None
  }

  /** The first block of `L`, or NULL. */
  function First(L: seq<nat>): Option<nat> {
    if |L| == 0 then None else Some(L[0])
  }

  /** `L` is the chain of blocks reached from `start` by following links,
      ending in a NULL link. */
  predicate Chain(words: seq<Word>, start: Option<nat>, L: seq<nat>) {
    && start == First(L)
    && (forall k | 0 <= k < |L| :: L[k] < |words| && words[L[k]] == Link(NextOf(L, k)))
  }

  /** `L` is the free list of `p`, with no block on it twice. */
  predicate IsFreeList(p: Pool, L: seq<nat>) {
    && Chain(p.words, p.head, L)
    && (forall j, k | 0 <= j < k < |L| :: L[j] != L[k])
  }

  /** The pool invariant: `L` is the free list and every block not on it is
      allocated from this pool. */
  predicate Inv(p: Pool, L: seq<nat>) {
    && IsFreeList(p, L)
    && (forall i | 0 <= i < |p.words| :: i in L || p.words[i] == Owner(p.base))
  }

  /** What `memory_allocate` relies on: the head, if any, is a free block. */
  predicate HeadOk(p: Pool) {
    p.head.Some? ==> p.head.value < |p.words| && p.words[p.head.value].Link?
  }

  /** The list of blocks 0, 1, ..., n-1. */
  function Range(n: nat): (r: seq<nat>)
    ensures |r| == n
    ensures forall k | 0 <= k < n :: r[k] == k
  {
    seq(n, k => k)
  }

  /** `memory_init`: NULL for a NULL buffer, a buffer no larger than the
      header, or a buffer in which not one block fits; otherwise a manager
      whose free list threads as many whole blocks as fit after the header
      (floor((size - header) / block) of them), in address order. */
  method Init(pool: Option<nat>, size: nat, chunkSize: nat) returns (r: Option<Pool>)
    ensures r.Some? <==> pool.Some? && size > HEADER_SIZE && size - HEADER_SIZE >= chunkSize + POINTER_SIZE
    ensures r.Some? ==> r.value.base == pool.value && r.value.chunkSize == chunkSize
    ensures r.Some? ==> var n := |r.value.words|;
              n * BlockSize(r.value) <= size - HEADER_SIZE < (n + 1) * BlockSize(r.value)
    ensures r.Some? ==> Inv(r.value, Range(|r.value.words|))
  {
    r := None;
    if pool.Some? && size > HEADER_SIZE {
      var block := chunkSize + POINTER_SIZE;
      var rest := size - HEADER_SIZE;
      var i := 0;
      // all blocks but the last are linked to their successor
      while rest >= 2 * block
        invariant rest + i * block == size - HEADER_SIZE
        invariant i > 0 ==> rest >= block
        decreases rest
      {
        NextMultiple(i, block);
        i := i + 1;
        rest := rest - block;
      }
      if rest >= block {
        FitBlocks(size - HEADER_SIZE, block, i, rest);
        r := Some(Pool(pool.value, chunkSize, Some(0), Threaded(i + 1)));
        assert BlockSize(r.value) == block && |r.value.words| == i + 1;
        InitChain(r.value);
      }
    }
  }

  lemma NextMultiple(i: nat, b: nat)
    ensures (i + 1) * b == i * b + b
  {
  }

  /** What is left after `i` blocks holds one block but not two, so `i + 1`
      blocks fit and `i + 2` do not. */
  lemma FitBlocks(total: nat, b: nat, i: nat, rest: nat)
    requires rest + i * b == total
    requires b <= rest < 2 * b
    ensures (i + 1) * b <= total < (i + 2) * b
  {
    NextMultiple(i, b);
    NextMultiple(i + 1, b);
  }

  /** A buffer of `MEMORY_POOL_SIZE(chunks, size)` bytes, for at least one
      chunk, passes the size checks of `memory_init`, and the only block count
      that fits it as `Init` promises is `chunks`: the macro and the
      initialisation loop agree. */
  lemma PoolSizeFits(chunks: nat, size: nat, n: nat)
    requires chunks > 0
    ensures PoolSize(chunks, size) > HEADER_SIZE
    ensures PoolSize(chunks, size) - HEADER_SIZE >= size + POINTER_SIZE
    ensures var b := size + POINTER_SIZE; var room := PoolSize(chunks, size) - HEADER_SIZE;
            n * b <= room < (n + 1) * b <==> n == chunks
  {
    var b := size + POINTER_SIZE;
    assert PoolSize(chunks, size) - HEADER_SIZE == chunks * b;
    MulAtLeast(chunks, b);
    NextMultiple(n, b);
    NextMultiple(chunks, b);
    if n < chunks {
      MulAtLeast(chunks - n, b);
      assert chunks * b == (chunks - n) * b + n * b;
    } else if n > chunks {
      MulAtLeast(n - chunks, b);
      assert n * b == (n - chunks) * b + chunks * b;
    }
  }

  /** The block words `memory_init` writes for `n` blocks: each block links to
      the next, the last to NULL. */
  function Threaded(n: nat): (r: seq<Word>)
    ensures |r| == n
    ensures forall k | 0 <= k < n - 1 :: r[k] == Link(Some(k + 1))
    ensures n > 0 ==> r[n - 1] == Link(None)
  {
    seq(n, k => if 0 <= k && k + 1 < n then Link(Some(k + 1)) else Link(None))
  }

  /** A freshly threaded pool (block k links to k + 1, the last to NULL)
      satisfies the invariant with all blocks free. */
  lemma InitChain(p: Pool)
    requires |p.words| > 0 && p.head == Some(0)
    requires forall k | 0 <= k < |p.words| - 1 :: p.words[k] == Link(Some(k + 1))
    requires p.words[|p.words| - 1] == Link(None)
    ensures Inv(p, Range(|p.words|))
  {
    var L := Range(|p.words|);
    forall k | 0 <= k < |L|
      ensures L[k] < |p.words| && p.words[L[k]] == Link(NextOf(L, k))
    {
    }
    forall i | 0 <= i < |p.words|
      ensures i in L
    {
      assert L[i] == i;
    }
  }

  /** `memory_allocate`: NULL for a NULL manager or an empty free list;
      otherwise the head block is unlinked, its header is overwritten with the
      back-pointer to the manager, and the pointer one word past its start is
      returned. */
  function Allocate(m: Option<Pool>): (r: (Option<Pool>, Option<nat>))
    requires m.Some? ==> HeadOk(m.value)
    ensures m.None? ==> r == (None, None)
    ensures r.1.None? <==> m.None? || m.value.head.None?
    ensures m.Some? && m.value.head.None? ==> r.0 == m
    ensures r.1.Some? ==> var p := m.value; var c := p.head.value;
              && r.0.Some?
              && r.0.value.base == p.base && r.0.value.chunkSize == p.chunkSize
              && |r.0.value.words| == |p.words|
              && r.1.value == Pointer(p, c)
              && r.0.value.words[c] == Owner(p.base)
              && r.0.value.head == p.words[c].next
              && (forall j | 0 <= j < |p.words| && j != c :: r.0.value.words[j] == p.words[j])
  {
    match m
    case None => (None, None)
    case Some(p) =>
      match p.head
      case None => (m, None)
      case Some(c) => (Some(Pop(p)), Some(Pointer(p, c)))
  }

  /** The pointer `memory_allocate` hands out is live in the resulting pool,
      so it may be passed to `memory_release`. */
  lemma AllocateHandsOutLive(m: Option<Pool>)
    requires m.Some? ==> HeadOk(m.value)
    ensures var r := Allocate(m);
            r.1.Some? ==> r.0.Some? && IsLivePointer(r.0.value, r.1.value)
  {
    if m.Some? && m.value.head.Some? {
      PointerIndex(Pop(m.value), m.value.head.value);
    }
  }

  /** `memory_release`: NULL is refused; otherwise the block goes back on the
      front of the free list of the manager its header names.  The caller must
      pass a live pointer of this pool (releasing anything else, including a
      second release, is undefined in the source). */
  function Release(p: Pool, ptr: Option<nat>): (r: (Pool, bool))
    requires ptr.Some? ==> IsLivePointer(p, ptr.value)
    ensures ptr.None? ==> r == (p, false)
    ensures ptr.Some? ==> var i := ChunkIndex(p, ptr.value);
              && r.1
              && r.0.base == p.base && r.0.chunkSize == p.chunkSize
              && |r.0.words| == |p.words|
              && r.0.head == Some(i)
              && r.0.words[i] == Link(p.head)
              && (forall j | 0 <= j < |p.words| && j != i :: r.0.words[j] == p.words[j])
  {
    match ptr
    case None => (p, false)
    case Some(a) => (Push(p, ChunkIndex(p, a)), true)
  }

  /** Unlinking the head block and marking it allocated. */
  function Pop(p: Pool): Pool
    requires HeadOk(p) && p.head.Some?
  {
    var c := p.head.value;
    p.(head := p.words[c].next, words := p.words[c := Owner(p.base)])
  }

  /** Linking block `i` in front of the free list. */
  function Push(p: Pool, i: nat): Pool
    requires i < |p.words|
  {
    p.(head := Some(i), words := p.words[i := Link(p.head)])
  }

  /** Exact division of a multiple. */
  lemma MulDivCancel(i: nat, b: nat)
    requires b > 0
    ensures (i * b) / b == i && (i * b) % b == 0
  {
    var q := (i * b) / b;
    var r := (i * b) % b;
    assert i * b == q * b + r;
    if q < i {
      assert i * b - q * b == (i - q) * b;
      MulAtLeast(i - q, b);
    } else if q > i {
      assert q * b - i * b == (q - i) * b;
      MulAtLeast(q - i, b);
    }
  }

  lemma MulAtLeast(x: int, b: nat)
    requires x >= 1
    ensures x * b >= b
  {
    assert x * b == (x - 1) * b + b;
  }

  /** The pointer of block `i` leads back to block `i`. */
  lemma PointerIndex(p: Pool, i: nat)
    ensures Pointer(p, i) >= p.base + HEADER_SIZE + POINTER_SIZE
    ensures (Pointer(p, i) - p.base - HEADER_SIZE - POINTER_SIZE) % BlockSize(p) == 0
    ensures ChunkIndex(p, Pointer(p, i)) == i
  {
    assert Pointer(p, i) - p.base - HEADER_SIZE - POINTER_SIZE == i * BlockSize(p);
    MulDivCancel(i, BlockSize(p));
  }

  /** A chain's blocks are in range, and each holds the link to the next. */
  lemma ChainAt(words: seq<Word>, start: Option<nat>, L: seq<nat>, k: nat)
    requires Chain(words, start, L) && k < |L|
    ensures L[k] < |words| && words[L[k]] == Link(NextOf(L, k))
  {
  }

  /** Following the first link of a chain leaves the rest of the chain. */
  lemma ChainTail(words: seq<Word>, start: Option<nat>, L: seq<nat>)
    requires Chain(words, start, L) && |L| > 0
    ensures Chain(words, words[L[0]].next, L[1..])
  {
    ChainAt(words, start, L, 0);
    var T := L[1..];
    forall k | 0 <= k < |T|
      ensures T[k] < |words| && words[T[k]] == Link(NextOf(T, k))
    {
      ChainAt(words, start, L, k + 1);
    }
  }

  /** A pool satisfying the invariant has a well-formed head. */
  lemma InvHeadOk(p: Pool, L: seq<nat>)
    requires Inv(p, L)
    ensures HeadOk(p)
  {
    if |L| > 0 {
      ChainAt(p.words, p.head, L, 0);
    }
  }

  /** No block is both free and allocated: a block is on the free list
      exactly when its header is not a back-pointer. */
  lemma FreeOrLive(p: Pool, L: seq<nat>, i: nat)
    requires Inv(p, L)
    requires i < |p.words|
    ensures i in L <==> p.words[i] != Owner(p.base)
  {
    if i in L {
      var k :| 0 <= k < |L| && L[k] == i;
      ChainAt(p.words, p.head, L, k);
    }
  }

  /** The free list is determined by the pool. */
  lemma {:induction false} FreeListUnique(words: seq<Word>, start: Option<nat>, L1: seq<nat>, L2: seq<nat>)
    requires Chain(words, start, L1) && Chain(words, start, L2)
    ensures L1 == L2
    decreases |L1|
  {
    if |L1| > 0 {
      assert |L2| > 0 && L1[0] == L2[0];
      ChainTail(words, start, L1);
      ChainTail(words, start, L2);
      FreeListUnique(words, words[L1[0]].next, L1[1..], L2[1..]);
      assert L1 == [L1[0]] + L1[1..];
      assert L2 == [L2[0]] + L2[1..];
    }
  }

  /** Allocation from a pool with free list `L` returns the first block of
      `L`, leaves `L[1..]` as the free list and keeps the invariant; with an
      empty list it returns NULL and changes nothing. */
  lemma AllocatePops(p: Pool, L: seq<nat>)
    requires Inv(p, L)
    ensures HeadOk(p)
    ensures |L| == 0 ==> Allocate(Some(p)) == (Some(p), None)
    ensures |L| > 0 ==> var r := Allocate(Some(p));
              && r.1 == Some(Pointer(p, L[0]))
              && r.0.Some?
              && r.0.value.base == p.base && r.0.value.chunkSize == p.chunkSize
              && |r.0.value.words| == |p.words|
              && Inv(r.0.value, L[1..])
  {
    InvHeadOk(p, L);
    if |L| > 0 {
      var c := L[0];
      var p' := Allocate(Some(p)).0.value;
      var T := L[1..];
      ChainTail(p.words, p.head, L);
      forall k | 0 <= k < |T|
        ensures T[k] < |p'.words| && p'.words[T[k]] == Link(NextOf(T, k))
      {
        assert T[k] == L[k + 1] && L[k + 1] != L[0];
        ChainAt(p.words, p.words[c].next, T, k);
      }
      assert Chain(p'.words, p'.head, T);
      forall i | 0 <= i < |p'.words|
        ensures i in T || p'.words[i] == Owner(p'.base)
      {
        if i != c && i in L {
          var k :| 0 <= k < |L| && L[k] == i;
          assert T[k - 1] == i;
        }
      }
    }
  }

  /** Pushing a block that is not on the chain extends the chain. */
  lemma PushChain(p: Pool, L: seq<nat>, i: nat)
    requires Chain(p.words, p.head, L)
    requires i < |p.words| && i !in L
    ensures Chain(Push(p, i).words, Some(i), [i] + L)
  {
    var p' := Push(p, i);
    var L' := [i] + L;
    forall k | 1 <= k < |L'|
      ensures L'[k] < |p'.words| && p'.words[L'[k]] == Link(NextOf(L', k))
    {
      assert L'[k] == L[k - 1];
      ChainAt(p.words, p.head, L, k - 1);
    }
    assert p'.words[L'[0]] == Link(NextOf(L', 0));
  }

  /** A block not on a list of distinct blocks, put in front, keeps them
      distinct. */
  lemma PushDistinct(L: seq<nat>, i: nat)
    requires forall j, k | 0 <= j < k < |L| :: L[j] != L[k]
    requires i !in L
    ensures var L' := [i] + L; forall j, k | 0 <= j < k < |L'| :: L'[j] != L'[k]
  {
    var L' := [i] + L;
    forall j, k | 0 <= j < k < |L'|
      ensures L'[j] != L'[k]
    {
      assert L'[k] == L[k - 1];
      if j > 0 {
        assert L'[j] == L[j - 1];
      }
    }
  }

  /** Pushing an allocated block keeps the invariant, with the block at the
      front of the free list. */
  lemma PushKeepsInv(p: Pool, L: seq<nat>, i: nat)
    requires Inv(p, L)
    requires i < |p.words| && p.words[i] == Owner(p.base)
    ensures Inv(Push(p, i), [i] + L)
  {
    var p' := Push(p, i);
    var L' := [i] + L;
    FreeOrLive(p, L, i);
    PushChain(p, L, i);
    PushDistinct(L, i);
    forall j | 0 <= j < |p'.words|
      ensures j in L' || p'.words[j] == Owner(p'.base)
    {
      if j != i {
        assert p'.words[j] == p.words[j];
        assert j in L ==> j in L';
      }
    }
  }

  /** Releasing the pointer of an allocated block pushes that block. */
  lemma ReleaseIsPush(p: Pool, i: nat)
    requires i < |p.words| && p.words[i] == Owner(p.base)
    ensures IsLivePointer(p, Pointer(p, i))
    ensures Release(p, Some(Pointer(p, i))) == (Push(p, i), true)
  {
    PointerIndex(p, i);
  }

  /** Releasing a live block pushes it on the front of the free list and
      keeps the invariant. */
  lemma ReleasePushes(p: Pool, L: seq<nat>, i: nat)
    requires Inv(p, L)
    requires i < |p.words| && p.words[i] == Owner(p.base)
    ensures IsLivePointer(p, Pointer(p, i))
    ensures Release(p, Some(Pointer(p, i))).1
    ensures Inv(Release(p, Some(Pointer(p, i))).0, [i] + L)
  {
    ReleaseIsPush(p, i);
    PushKeepsInv(p, L, i);
  }

  /** Release followed by allocation hands back the same block and restores
      the pool exactly (the free list is a stack). */
  lemma ReleaseThenAllocate(p: Pool, i: nat)
    requires i < |p.words| && p.words[i] == Owner(p.base)
    ensures IsLivePointer(p, Pointer(p, i))
    ensures HeadOk(Release(p, Some(Pointer(p, i))).0)
    ensures Allocate(Some(Release(p, Some(Pointer(p, i))).0)) == (Some(p), Some(Pointer(p, i)))
  {
    ReleaseIsPush(p, i);
    var q := Push(p, i);
    assert Pop(q).words == p.words;
    assert Pointer(q, i) == Pointer(p, i);
  }

  /** Allocation followed by release of the block just handed out restores
      the pool exactly. */
  lemma AllocateThenRelease(p: Pool, L: seq<nat>)
    requires Inv(p, L) && |L| > 0
    ensures HeadOk(p)
    ensures var r := Allocate(Some(p));
            r.0.Some? && r.1.Some? && IsLivePointer(r.0.value, r.1.value)
            && Release(r.0.value, r.1).0 == p
  {
    InvHeadOk(p, L);
    AllocateHandsOutLive(Some(p));
    var r := Allocate(Some(p));
    var c := L[0];
    PointerIndex(r.0.value, c);
    assert Release(r.0.value, r.1).0.words == p.words;
  }

  /** `k` successive allocations, with the results in call order. The free
      list `L` only witnesses the invariant; the result does not depend on
      it. */
  function AllocateMany(p: Pool, ghost L: seq<nat>, k: nat): (r: (Pool, seq<Option<nat>>))
    requires Inv(p, L)
    ensures |r.1| <= k
    decreases k
  {
    if k == 0 then (p, [])
    else
      AllocatePops(p, L);
      var step := Allocate(Some(p));
      if step.1.None? then (p, [step.1])
      else
        var rest := AllocateMany(step.0.value, L[1..], k - 1);
        (rest.0, [step.1] + rest.1)
  }

  /** The pointers of the blocks `S`, in order. */
  function Pointers(p: Pool, S: seq<nat>): (r: seq<Option<nat>>)
    ensures |r| == |S|
    ensures forall j | 0 <= j < |S| :: r[j] == Some(Pointer(p, S[j]))
  {
    seq(|S|, j requires 0 <= j < |S| => Some(Pointer(p, S[j])))
  }

  lemma PointersCons(p: Pool, q: Pool, S: seq<nat>)
    requires |S| > 0 && p.base == q.base && p.chunkSize == q.chunkSize
    ensures Pointers(p, S) == [Some(Pointer(p, S[0]))] + Pointers(q, S[1..])
  {
    var r := [Some(Pointer(p, S[0]))] + Pointers(q, S[1..]);
    forall j | 1 <= j < |S|
      ensures r[j] == Some(Pointer(p, S[j]))
    {
      assert r[j] == Pointers(q, S[1..])[j - 1];
      SameLayout(q, p, S[j]);
    }
  }

  /** One allocation of a run from a non-empty free list: the first block's
      pointer followed by the run from the popped pool. */
  lemma AllocateManyStep(p: Pool, L: seq<nat>, k: nat)
    requires Inv(p, L) && 0 < k <= |L|
    ensures var p1 := Allocate(Some(p)).0.value;
            && Inv(p1, L[1..]) && p1.base == p.base && p1.chunkSize == p.chunkSize
            && var rest := AllocateMany(p1, L[1..], k - 1);
               AllocateMany(p, L, k) == (rest.0, [Some(Pointer(p, L[0]))] + rest.1)
  {
    AllocatePops(p, L);
  }

  lemma TakeDropTail<T>(L: seq<T>, k: nat)
    requires 0 < k <= |L|
    ensures L[1..][..k - 1] == L[..k][1..] && L[1..][k - 1..] == L[k..]
  {
  }

  /** `k <= |L|` allocations return the pointers of the first `k` blocks
      of `L` and leave the rest free. */
  lemma {:induction false} AllocateManyTakes(p: Pool, L: seq<nat>, k: nat)
    requires Inv(p, L) && k <= |L|
    ensures AllocateMany(p, L, k).1 == Pointers(p, L[..k])
    ensures Inv(AllocateMany(p, L, k).0, L[k..])
    ensures AllocateMany(p, L, k).0.base == p.base && AllocateMany(p, L, k).0.chunkSize == p.chunkSize
    decreases k
  {
    if k > 0 {
      AllocateManyStep(p, L, k);
      var p1 := Allocate(Some(p)).0.value;
      AllocateManyTakes(p1, L[1..], k - 1);
      TakeDropTail(L, k);
      PointersCons(p, p1, L[..k]);
    }
  }

  /** From a pool with free list `L`, `k <= |L|` allocations return the
      pointers of the first `k` blocks of `L`, in order, and leave the rest of
      `L` free. */
  lemma AllocateManyPrefix(p: Pool, L: seq<nat>, k: nat)
    requires Inv(p, L) && k <= |L|
    ensures |AllocateMany(p, L, k).1| == k
    ensures forall j | 0 <= j < k :: AllocateMany(p, L, k).1[j] == Some(Pointer(p, L[j]))
    ensures Inv(AllocateMany(p, L, k).0, L[k..])
    ensures AllocateMany(p, L, k).0.base == p.base && AllocateMany(p, L, k).0.chunkSize == p.chunkSize
  {
    AllocateManyTakes(p, L, k);
  }

  /** Pools with the same address and chunk size hand out the same pointer
      for a block. */
  lemma SameLayout(p: Pool, q: Pool, i: nat)
    requires p.base == q.base && p.chunkSize == q.chunkSize
    ensures Pointer(p, i) == Pointer(q, i)
  {
  }

  /** Distinct blocks have distinct pointers. */
  lemma PointerInjective(p: Pool, i: nat, j: nat)
    requires i != j
    ensures Pointer(p, i) != Pointer(p, j)
  {
    PointerIndex(p, i);
    PointerIndex(p, j);
  }

  /** After `Init` with room for N chunks, N allocations return N pairwise
      distinct pointers, and the next allocation returns NULL. */
  lemma ExhaustFreshPool(p: Pool)
    requires Inv(p, Range(|p.words|))
    ensures var r := AllocateMany(p, Range(|p.words|), |p.words|);
            && |r.1| == |p.words|
            && (forall j | 0 <= j < |r.1| :: r.1[j].Some?)
            && (forall i, j | 0 <= i < j < |r.1| :: r.1[i] != r.1[j])
            && HeadOk(r.0)
            && Allocate(Some(r.0)).1.None?
  {
    var n := |p.words|;
    var L := Range(n);
    AllocateManyPrefix(p, L, n);
    var r := AllocateMany(p, L, n);
    forall i, j | 0 <= i < j < n
      ensures r.1[i] != r.1[j]
    {
      PointerInjective(p, i, j);
    }
    assert L[n..] == [];
    AllocatePops(r.0, []);
  }
}

=== FILE: ringtest.dfy ===
/** The sixteen-case truth table of the ring-buffer test program: every pair
    of indices of a size-4 queue, the count it must report, and whether an
    enqueue and a dequeue must succeed there. */
module RingTest {
  import opened Util
  import opened Dispatch

  const CASES: nat := 16
  const INS: seq<UInt8> := [0, 0, 0, 0, 1, 1, 1, 1, 2, 2, 2, 2, 3, 3, 3, 3]
  const OUTS: seq<UInt8> := [0, 1, 2, 3, 0, 1, 2, 3, 0, 1, 2, 3, 0, 1, 2, 3]
  const COUNTS: seq<UInt8> := [0, 3, 2, 1, 1, 0, 3, 2, 2, 1, 0, 3, 3, 2, 1, 0]
  const NEXTINS: seq<bool> := [true, false, true, true, true, true, false, true,
                               true, true, true, false, false, true, true, true]
  const NEXTOUTS: seq<bool> := [false, true, true, true, true, false, true, true,
                                true, true, false, true, true, true, true, false]

  /** The queue the program builds for case `i`: initialized with size 4,
      every slot holding `fill`, then `in` and `out` overwritten. */
  function Case(i: nat, fill: Option<nat>): (q: Queue<nat>)
    requires i < CASES
    ensures WellFormed(q) && q.size == 4
  {
    Queue(true, 4, INS[i], OUTS[i], seq(4, _ => fill))
  }

  /** Each row of the table, read against the ring-distance meaning of the
      queue: the count is the distance from `out` to `in`, an enqueue
      succeeds while fewer than 3 events are queued, and a dequeue finds an
      event exactly when the queue is not empty. */
  lemma TableMeansDistance(i: nat)
    requires i < CASES
    ensures COUNTS[i] == Length(Case(i, None))
    ensures NEXTINS[i] <==> Length(Case(i, None)) < 3
    ensures NEXTOUTS[i] <==> Length(Case(i, Some(i))) > 0
  {
    assert i == 0 || i == 1 || i == 2 || i == 3 || i == 4 || i == 5 || i == 6 || i == 7
        || i == 8 || i == 9 || i == 10 || i == 11 || i == 12 || i == 13 || i == 14 || i == 15;
  }

  /** The three loops of the test program pass on every case: the count, the
      enqueue result and whether the dequeue returns an event all match the
      table. */
  lemma TruthTable(i: nat)
    requires i < CASES
    ensures Count(Case(i, None)) == COUNTS[i]
    ensures Enqueue(Case(i, None), Some(i)).1 == NEXTINS[i]
    ensures Dequeue(Case(i, Some(i))).1.Some? == NEXTOUTS[i]
  {
    TableMeansDistance(i);
    var full := Case(i, Some(i));
    if Length(full) > 0 {
      assert Contents(full)[0] == Some(i);
    }
  }

  /** A freshly initialized queue reports no events, as the program asserts
      before each case. */
  lemma FreshQueueIsEmpty()
    ensures Count(Init(Zero<nat>(), 4)) == 0
  {
  }
}

=== FILE: util.dfy ===
/** Shared vocabulary: the Option type used in place of C's NULL, and the
    fixed-width integer types of the AVR target together with their
    wrap-around conversions. */
module Util {

  /** A value that may be absent; `None` stands for a NULL pointer. */
  datatype Option<+T> = None | Some(value: T)

  /** `int16_t` */
  type Int16 = x: int | -32768 <= x <= 32767

  /** `uint8_t` */
  type UInt8 = x: int | 0 <= x <= 255

  /** Conversion of an arbitrary integer to `int16_t` (two's complement
      truncation, as the target compiler performs it). */
  function Wrap16(x: int): (r: Int16)
    ensures (r - x) % 65536 == 0
    ensures -32768 <= x <= 32767 ==> r == x
  {
    (x + 32768) % 65536 - 32768
  }

  /** Within one period either side of the range, the conversion adds or
      subtracts one period at most. */
  lemma Wrap16Near(x: int)
    requires -98304 <= x < 98304
    ensures Wrap16(x) == if x < -32768 then x + 65536 else if x > 32767 then x - 65536 else x
  {
  }

  /** Conversion of an arbitrary integer to `uint8_t`. */
  function Wrap8(x: int): (r: UInt8)
    ensures (r - x) % 256 == 0
    ensures 0 <= x <= 255 ==> r == x
  {
    x % 256
  }

  /** The value an `int16_t` takes when compared against an unsigned
      16-bit `size_t` (the usual arithmetic conversions). */
  function Unsigned16(x: Int16): (r: nat)
    ensures r < 65536
    ensures (r - x) % 65536 == 0
  {
    if x < 0 then x + 65536 else x
  }
}
